=== FILE: README.md ===
# Restaurant front end: gateway, session and form logic in Dafny

This project models the sequential core of a React front end for a
restaurant directory and proves properties about it. Four groups of code
are covered.

- **The HTTP gateway** (`src/services/api.js`). It holds a base URL, an API key
  and its persisted copy, and a 30-second response cache keyed by
  `"METHOD:url"`. `request` is a pure step from the gateway, the clock and the
  server's reply to the next gateway, the request sent (if any) and the value
  or error message. The step covers the cache lookup, status classification
  (401, 429, 204, 400, other failures), cache storing and invalidation, and
  query-string building with empty values dropped.
- **The session manager** (`src/services/auth.js`). It keeps a user, an
  authenticated flag and an ordered listener list, and drives the gateway's key.
  Each operation is a transition that reports the requests it sent, the
  notifications it delivered and how it resolved.
- **The restaurants service** (`src/services/restaurants.js`). This covers the
  parameter builders and their caps, the create and update guards and bodies,
  the PATCH field selection, `formatRestaurant`, and the five-envelope
  dispatch of `formatRestaurantList`.
- **The components' pure logic.** This covers:
  - the field validators and validity summaries of the restaurant form and the
    registration form;
  - the login pre-checks;
  - the search page's filter test, parameter cleanup and quick-search guard;
  - the list page's endpoint choice, delete guard and save branch;
  - the page count, page clamps and displayed range shared by both pagers.

JavaScript values are modelled once, in `Js.Json`, together with truthiness,
`||`, property access and `String(v)`. White space is the ECMAScript
WhiteSpace and LineTerminator set. It is one definition, because `trim()` and the
regular-expression class `\s` agree on it. The query string follows the
`application/x-www-form-urlencoded` serializer of section 5.2 of the WHATWG URL
Standard; the parser of section 5.1 is modelled too, as the serializer's
reference inverse. String lengths are JavaScript's: UTF-16 code units, so a
character outside the Basic Multilingual Plane counts twice.

Modules, one per file: `Wrappers`, `Text`, `Js`, `FormEncoding`, `Api`,
`Auth`, `Restaurants`, `Forms` (the `errors`/`isValid` bookkeeping the two
forms share), `RestaurantModal`, `RegisterForm`, `LoginForm`, `Paging`,
`SearchPage` and `RestaurantList`.

## Model

| member | source | states |
|---|---|---|
| Text.Trim | src/components/restaurants/RestaurantModal.jsx:44-50 | The trimmed text is a contiguous slice of the input, flanked only by white space and neither starting nor ending with it |
| Text.TrimIsUnique | src/components/restaurants/RestaurantModal.jsx:44-50 | Any string fitting that description of trimming is the trimmed text: the description determines `trim()` |
| Text.TrimIdempotent | src/services/restaurants.js:37-41 | Trimming twice gives the same text as trimming once |
| Text.TrimEmptyIffAllSpace | src/components/auth/Register.jsx:23 | A value is blank after trimming exactly when every character is white space |
| Text.TrimOfTrimmed | src/components/auth/Register.jsx:78-80 | A string with no white space at either end is its own trim |
| Text.Contains | src/services/api.js:59 | `includes` holds exactly when some position starts an occurrence of the pattern |
| Text.NatToStringRoundTrip | src/services/api.js:269 | Reading back the decimal numeral a number is rendered as gives the number |
| Text.Utf16Length | src/components/restaurants/RestaurantModal.jsx:47-50 | `length` counts UTF-16 code units: at least one and at most two per character |
| Text.Utf16LengthOfPlainText | src/components/restaurants/RestaurantModal.jsx:47-50 | Text inside the Basic Multilingual Plane has exactly one code unit per character |
| Text.Utf16LengthOfTrim | src/components/search/SearchPage.jsx:80 | Trimming never adds code units |
| FormEncoding.Encode | src/services/api.js:266-274 | An encoded name or value uses only unreserved characters, `+`, `%` and hex digits, and is never shorter than its input |
| FormEncoding.SerializeCons | src/services/api.js:266-274 | Pairs are written `name=value` and joined by `&` in order |
| FormEncoding.EncodeKeepsUnreserved | src/services/api.js:266-274 | Text made of letters, digits and `*-._` is written unchanged |
| FormEncoding.NumeralEncodesAsItself | src/services/api.js:269 | A number's decimal text needs no escaping in the query string |
| FormEncoding.DecodeEncode | src/services/api.js:266-274 | Parsing an encoded name or value (`+` as space, `%XY` escapes read back as UTF-8) gives back exactly the text that was encoded |
| Api.Init | src/services/api.js:1-26 | A new gateway uses the configured base URL or the default, starts with an empty cache, and adopts the stored key unless it is empty, `'null'` or `'undefined'` |
| Api.LoadApiKeyFromStorage | src/services/api.js:16-26 | A stored key that is non-empty and neither `'null'` nor `'undefined'` replaces the key in memory and makes it valid; otherwise the key is unchanged. Storage, cache and base URL are kept |
| Api.SetApiKey | src/services/api.js:29-47 | The key in memory is replaced; a non-empty key is persisted and any other value removes the persisted copy; the cache is untouched |
| Api.PersistedKeyReloads | src/services/api.js:16-47 | A key installed with `setApiKey` is the key a restarted gateway loads, unless it is one of the sentinels |
| Api.HasValidApiKey | src/services/api.js:50-52 | The key counts as valid exactly when it is set, non-empty, and neither `'null'` nor `'undefined'`, the same test a stored key must pass to be loaded |
| Api.GetHeaders | src/services/api.js:91-106 | `Content-Type: application/json` exactly when asked for, `X-API-KEY` exactly when the key is valid and then carrying it, and no other header |
| Api.SentHeaders | src/services/api.js:128-135 | As written, every request carries a `Content-Type`, the merge-patch type for PATCH and JSON otherwise (GET included), and `X-API-KEY` exactly when the key is valid; nothing else |
| Api.RequestHeaders | src/services/api.js:91-135 | Corrected header builder: `Content-Type` is present exactly off GET (a merge patch for PATCH); `X-API-KEY` is present exactly when the key is valid, and carries it |
| Api.GetSendsContentTypeAsWritten | src/services/api.js:128-135 | As written, a plain `get` passes no method, so a GET also carries `Content-Type: application/json` |
| Api.RequestHeadersAgreeOffGet | src/services/api.js:128-135 | The corrected headers are the as-written ones for every verb but GET, and for GET they are the as-written ones without `Content-Type` |
| Api.CachedData | src/services/api.js:75-81 | A lookup yields the stored body exactly when an entry exists and is younger than 30 000 ms |
| Api.SetCachedData | src/services/api.js:84-89 | A stored body is served at the time it was stored, and every other key is unchanged |
| Api.ClearCache | src/services/api.js:55-67 | A non-empty pattern removes exactly the keys that contain it and keeps the others with their entries; no pattern empties the cache |
| Api.ClearedKeysMiss | src/services/api.js:55-81 | After clearing a pattern, no key containing it is served from the cache |
| Api.ClearCacheIdempotent | src/services/api.js:55-67 | Clearing the same pattern twice is the same as clearing it once |
| Api.RateLimitWaitIsExclusive | src/services/api.js:195-199 | A 429 message names `"<Retry-After> segundos"` when the header is non-empty and `"1 hora"` otherwise; with a numeric header it never names both |
| Api.RateLimitMessage | src/services/api.js:195-198 | The 429 message starts with `'Rate limit excedido (200 req/hora). Espera '`, ends with `' o usa una nueva API key.'` and names a wait in between |
| Api.ErrorMessagePriority | src/services/api.js:211-238 | A 400 reports `details` joined by `", "`, else `error`, else `message`, else `'Error de validación'`; other statuses report `message` or `'Error <status>'` |
| Api.ErrorMessage | src/services/api.js:211-237 | A failed reply reports one of its own fields or a fixed text: for a 400 `details` joined, `error`, `message` or `'Error de validación'`; otherwise `message` or `'Error <status>'`; a null body gives the `TypeError` of reading it |
| Api.ErrorMessageReadsOnlyItsFields | src/services/api.js:211-237 | Bodies that agree on `message` (and, for a 400, on `details` and `error`) give the same message: nothing else of the body is read |
| Api.Respond | src/services/api.js:174-257 | An unreachable server rejects with the connection message and a malformed body with its parse error; a non-2xx reply other than 401, 429 and 204 rejects with the error message of its body, and a 2xx reply resolves with its data; the base URL never changes |
| Api.Request | src/services/api.js:108-258 | A live, truthy cached GET is answered with no request. Anything sent carries the as-written headers. A 401 clears both copies of the key; a 429 gives the rate-limit message; a 204 gives the success marker and drops restaurant entries. Otherwise an unreachable server gives the connection message, a malformed body its error, a non-2xx reply the error message of its body, and a 2xx reply its data. No failure writes to the cache. A successful GET is cached at `now`, and a successful mutation drops restaurant entries |
| Api.KeptParams | src/services/api.js:265-271 | The kept parameters are exactly the ones whose value is not `undefined`, `null` or `''`, as text, and none are kept only when all are empty |
| Api.WithQuery | src/services/api.js:261-278 | The URL is the endpoint alone when nothing is kept, and otherwise the endpoint, `?` and the serialized kept pairs |
| Api.QueryDropsEmptyValues | src/services/api.js:265-275 | `get('/items', {a: '', b: null, c: 'x'})` requests `/items?c=x` |
| Api.Get | src/services/api.js:261-278 | A GET not answered from the cache goes to the base URL plus the endpoint and its query, without a body |
| Api.Post | src/services/api.js:281-286 | A POST is always sent, to the base URL plus the endpoint, with the data as its body |
| Api.Put | src/services/api.js:288-293 | A PUT is always sent, with the data as its body |
| Api.Patch | src/services/api.js:295-303 | A PATCH is always sent, with a merge-patch content type |
| Api.Delete | src/services/api.js:305-309 | A DELETE is always sent, without a body |
| Api.FreshGetIsServedFromCache | src/services/api.js:119-126 | After a successful GET, the same GET within 30 s is answered with the same body, sends nothing and changes nothing |
| Api.ExpiredGetGoesToServer | src/services/api.js:119-126 | Once 30 s have passed, the same GET is sent to the server again |
| Api.MutationInvalidatesRestaurants | src/services/api.js:242-248 | After a successful mutation, a GET of any URL containing `/restaurants` goes to the server |
| Api.UnauthorizedRevokesKey | src/services/api.js:175-192 | After a 401 the key is gone from memory and storage, and the next request carries no `X-API-KEY` |
| Api.NonGetIgnoresCache | src/services/api.js:119-126 | A request with another verb sends the same thing and resolves the same way whatever the cache holds |
| Auth.AddListener | src/services/auth.js:18-21 | The callback is appended at the end; user and flag are unchanged |
| Auth.Without | src/services/auth.js:23-24 | The filtered list holds exactly the other callbacks |
| Auth.WithoutKeepsCounts | src/services/auth.js:23-24 | Removal keeps every other callback's number of registrations and drops every copy of the removed one |
| Auth.WithoutDistributes | src/services/auth.js:23-24 | Removal keeps the remaining callbacks in their order: it distributes over concatenation |
| Auth.RemoveListener | src/services/auth.js:23-26 | The list becomes exactly the other callbacks in their order, as `filter` leaves them: no registration of the callback is left, every other keeps its count, and user and flag are unchanged |
| Auth.AddThenRemove | src/services/auth.js:18-26 | Adding a new callback and removing it restores the list |
| Auth.Notify | src/services/auth.js:28-40 | Each current listener is called once, in order, with the current user and flag |
| Auth.Login | src/services/auth.js:62-108 | With a non-empty string `api_key`, the key is installed and the user stored. A reply without a key rejects with `'No se recibió API key del servidor'`, a non-string key with the `substring` `TypeError`, and a null reply with the `TypeError` of reading it; any other failure rejects with its message or `'Error en el login'`. The session is then signed out and the key cleared. There is one notification round either way |
| Auth.LoginInstallsIssuedKey | src/services/auth.js:69-98 | A sign-in answered with a key installs and persists it, authenticates the user, notifies each listener once with `(user, true)`, and the next request carries the key |
| Auth.Register | src/services/auth.js:43-59 | A reply with a key acts as a successful login. A reply without one is returned with nothing changed. A failure, or a null reply whose `api_key` read throws, rethrows with no notification and no session change |
| Auth.Logout | src/services/auth.js:111-126 | Whatever the server answers, the call resolves and the key is removed from memory and storage. User and flag are cleared, and there is one notification round |
| Auth.LogoutAfterLogin | src/services/auth.js:62-126 | Signing out after any sign-in attempt leaves nobody signed in and no key a restart could reload |
| Auth.GetCurrentUser | src/services/auth.js:129-160 | A cached user is returned with no request. `response.user` signs in with one round. A reply without a user signs out with its own message. A `404`/`Not Found` message returns the current user unchanged. Any other failure signs out, notifies and rethrows, leaving the key to the gateway |
| Auth.MissingUserIsNotNotFound | src/services/auth.js:146-150 | The message for a reply without a user is not mistaken for a 404 |
| Auth.CheckAuth | src/services/auth.js:163-179 | It never rejects. A local session answers true with no request. Otherwise it answers true exactly when `getCurrentUser` resolves; on failure it signs out, and listeners are notified twice |
| Auth.CheckAuthTrustsMissingEndpoint | src/services/auth.js:150-171 | With nobody signed in and a 404 from `/auth/me`, the answer is true while the session stays unauthenticated |
| Auth.CheckAuthOutcome | src/services/auth.js:163-179 | After false the session is signed out; after true it is authenticated or unchanged |
| Auth.RefreshApiKey | src/services/auth.js:182-195 | User and flag never change and no one is notified. The key is replaced only when the reply carries one. A failure rethrows with `'Error al refrescar API Key'` as the fallback, and a null reply rethrows the TypeError of reading `api_key` |
| Restaurants.ListParams | src/services/restaurants.js:5-10 | The list query is the page and `min(itemsPerPage, 100)`, in that order |
| Restaurants.ListQueryIsCapped | src/services/restaurants.js:5-13 | The list URL carries `page` and `itemsPerPage` as decimal text, the latter never above 100 |
| Restaurants.GetRestaurants | src/services/restaurants.js:5-17 | The list GET goes to `/restaurants` with that query, and failures carry a non-empty message |
| Restaurants.GetRestaurant | src/services/restaurants.js:20-26 | The GET goes to `/restaurants/<id>` |
| Restaurants.GetSimilarRestaurants | src/services/restaurants.js:192-202 | The GET goes to `/restaurants/<id>/similar` with `limit = min(limit, 20)` |
| Restaurants.FullBody | src/services/restaurants.js:37-41 | The body has exactly name, address and phone: the first two trimmed, the phone trimmed or `''` |
| Restaurants.CreateRestaurant | src/services/restaurants.js:29-50 | A falsy name or address rejects with `'Nombre y dirección son requeridos'` before any request. Otherwise the trimmed body is POSTed to `/restaurants` |
| Restaurants.UpdateRestaurant | src/services/restaurants.js:53-74 | The same guard applies, then the trimmed body is PUT to `/restaurants/<id>` |
| Restaurants.Write | src/services/restaurants.js:43-48 | A write that succeeds clears the restaurant entries again; a failed one rethrows with the operation's fallback |
| Restaurants.ExtraClearIsRedundant | src/services/restaurants.js:44 | The service's extra clear after a successful mutation changes nothing, because the gateway already cleared those keys |
| Restaurants.BlankNamePassesGuard | src/services/restaurants.js:33-41 | A name of spaces passes the truthiness guard and is sent as an empty name |
| Restaurants.PatchBody | src/services/restaurants.js:79-89 | The patch holds exactly the fields that are not `undefined`, each trimmed |
| Restaurants.PatchRestaurant | src/services/restaurants.js:77-100 | The patch is sent to `/restaurants/<id>` as a merge patch |
| Restaurants.DeleteRestaurant | src/services/restaurants.js:103-114 | The DELETE goes to `/restaurants/<id>` without a body |
| Restaurants.ClearCache | src/services/restaurants.js:299-302 | Exactly the cache keys containing `/restaurants` are dropped; key, storage and base URL stay |
| Restaurants.SearchQuery | src/services/restaurants.js:117-165 | The free-text criteria are sent exactly when truthy, trimmed; the dates and the ordering exactly when truthy, as they are; the page when non-zero; the limit when non-zero, as `min(limit, 100)`; and no key outside those twelve |
| Restaurants.Ordered | src/services/restaurants.js:119-167 | The parameter list holds every key of the query with its value and nothing else, and over distinct keys it lists them in the order the service sets them |
| Restaurants.SearchParams | src/services/restaurants.js:117-167 | The search parameters are at most the service's twelve keys, in the order it sets them |
| Restaurants.SearchRestaurants | src/services/restaurants.js:117-171 | The search GET goes to `/restaurants/search` with those parameters |
| Restaurants.BlankSearchIsNotSent | src/services/restaurants.js:122-124 | A search text of white space passes the truthiness test, trims to `''`, and is then dropped by the gateway |
| Restaurants.QuickSearch | src/services/restaurants.js:174-189 | A falsy query, or one shorter than 2 after trimming, resolves to `{results: [], count: 0, query: ''}` with no request. Otherwise the quick-search GET is sent |
| Restaurants.QuickQueryShape | src/services/restaurants.js:180-185 | The quick-search URL carries `q` as the trimmed query and `limit` as `min(limit, 50)` |
| Restaurants.FormatRestaurant | src/services/restaurants.js:205-216 | A falsy value maps to `null`. Otherwise: the id; name, address and phone defaulting to `''`; and `createdAt`/`updatedAt` falling back to the snake_case fields |
| Restaurants.FormatRestaurantStable | src/services/restaurants.js:205-216 | Formatting a formatted restaurant keeps its fields |
| Restaurants.FormatAll | src/services/restaurants.js:225 | The mapped list has the same length and each element formatted |
| Restaurants.FormatRestaurantList | src/services/restaurants.js:219-287 | The first matching envelope wins, and its array is mapped element-wise; a non-array member fails with `.map is not a function`. Hydra: `hydra:totalItems` or 0, the view's page, and `hasMore` truthy exactly when the view has a `hydra:next`. Search results: the pagination's total, else `count`, else 0, with the pagination or `null`. `data` with `total`: that total, with the pagination or `null`. An array with `totalItems`: that total, no pagination. A bare array: its length, `hasMore` iff it holds 10 |
| Restaurants.HydraListing | src/services/restaurants.js:223-232 | A hydra page reports `hydra:totalItems` or 0, the page read from the view (1 without one), the member count, and `hasMore` the view's `hydra:next` (truthy exactly when the view has one) |
| Restaurants.ResultsListing | src/services/restaurants.js:236-242 | A search-results listing takes the first truthy of the pagination's total and `count`, else 0, and passes a truthy pagination through |
| Restaurants.PaginationOrNull | src/services/restaurants.js:240 | A truthy pagination is passed through; anything else becomes `null` |
| Restaurants.DirectListing | src/services/restaurants.js:263-280 | A bare array is its own total, flagged as direct, with more pages assumed exactly when it holds 10 |
| Restaurants.HydraTakesPrecedence | src/services/restaurants.js:223-242 | An envelope with both `hydra:member` and `results` takes its restaurants from `hydra:member` |
| Restaurants.UncountedPagination | src/services/restaurants.js:223-280 | Hydra and bare-array pagination carry neither `pages` nor `total` |
| Restaurants.SearchEnvelopeIsResults | src/services/restaurants.js:236-242 | `{results, pagination: {total}, count}` is read as search results: the pagination is kept, and its total is the listing's unless it is 0, when `count` is |
| Restaurants.DataEnvelopeKeepsTotal | src/services/restaurants.js:245-251 | `{data, total}` is read as a data envelope: `total` is kept as it is and there is no pagination |
| Forms.Record | src/components/restaurants/RestaurantModal.jsx:38-98 | One field's verdict sets its flag and sets or deletes its error; every other entry is kept |
| Forms.RecordKeepsConsistent | src/components/restaurants/RestaurantModal.jsx:43-91 | Recording a verdict keeps "an error exactly for each field whose flag is false" |
| Forms.RecordOverwrites | src/components/auth/Register.jsx:17-54 | Validating a field again keeps only the latest verdict |
| Forms.TwoFieldsRecorded | src/components/auth/Register.jsx:65-93 | With two fields just validated, no error is left exactly when both verdicts are valid |
| Forms.ThreeFieldsRecorded | src/components/restaurants/RestaurantModal.jsx:114-116 | With three fields just validated, each field's flag and error follow its own verdict alone |
| RestaurantModal.LengthVerdict | src/components/restaurants/RestaurantModal.jsx:43-73 | Valid exactly when the trimmed length, in UTF-16 units, is within bounds, with distinct messages for blank, too short and too long |
| RestaurantModal.NameVerdict | src/components/restaurants/RestaurantModal.jsx:43-57 | A name is valid exactly when its trimmed length is 2 to 100 UTF-16 units |
| RestaurantModal.AddressVerdict | src/components/restaurants/RestaurantModal.jsx:59-73 | An address is valid exactly when its trimmed length is 5 to 200 UTF-16 units |
| RestaurantModal.AstralNameCountsTwo | src/components/restaurants/RestaurantModal.jsx:47-50 | A name that is one emoji is two units long and passes the minimum |
| RestaurantModal.PhoneVerdict | src/components/restaurants/RestaurantModal.jsx:75-91 | A phone is valid exactly when every character of its trimmed form is a digit, white space, `-`, `(` or `)` (blank included) |
| RestaurantModal.PlusIsRejected | src/components/restaurants/RestaurantModal.jsx:78-81 | A `+` anywhere in the trimmed phone makes it invalid |
| RestaurantModal.PlaceholderIsRejected | src/components/restaurants/RestaurantModal.jsx:248 | The number the placeholder suggests, `Ej: +34 123 456 789`, is rejected |
| RestaurantModal.ValidateField | src/components/restaurants/RestaurantModal.jsx:38-99 | Each known field records its own validator's verdict, and an unknown name changes nothing |
| RestaurantModal.ValidateFieldTouchesOnlyItsField | src/components/restaurants/RestaurantModal.jsx:38-99 | Validating a field leaves every other field's error and flag as they were |
| RestaurantModal.ValidatedFormIsValidIff | src/components/restaurants/RestaurantModal.jsx:110-145 | After all three fields are validated, the form is valid exactly when all three validators accept, and then no error remains |
| RestaurantModal.IsFormValid | src/components/restaurants/RestaurantModal.jsx:145 | On a consistent state the save button is enabled exactly when name and address have been validated and none of the three fields shows an error |
| RestaurantModal.Payload | src/components/restaurants/RestaurantModal.jsx:126-130 | The payload is the three trimmed inputs |
| RestaurantModal.ValidPayloadPassesGuard | src/components/restaurants/RestaurantModal.jsx:126-130 | A payload whose name and address pass their validators also passes the service's guard, so the create request is sent |
| RestaurantModal.PayloadBodyIsTrimmedOnce | src/components/restaurants/RestaurantModal.jsx:126-130 | Trimming again in the service changes nothing: the body holds the form's trimmed text |
| RestaurantModal.Close | src/components/restaurants/RestaurantModal.jsx:139-143 | Closing does nothing while a save is in flight, and closes the modal otherwise |
| RegisterForm.IsEmailIffPattern | src/components/auth/Register.jsx:26 | The regular expression holds exactly when the text has no white space and exactly one `@`, not first, followed later by a `.` that is neither right after the `@` nor last |
| RegisterForm.EmailVerdict | src/components/auth/Register.jsx:22-32 | Blank after trimming gives `'El email es requerido'`; otherwise the untrimmed value must match the pattern or gets `'Ingresa un email válido'` |
| RegisterForm.BlankIsNotEmail | src/components/auth/Register.jsx:23-26 | A value that trims to nothing never matches the pattern |
| RegisterForm.AcceptedEmailIsTrimmed | src/components/auth/Register.jsx:26 | An accepted email has nothing to trim, so the address sent is the one validated |
| RegisterForm.SurroundingSpaceIsRejected | src/components/auth/Register.jsx:26 | Leading white space makes an email invalid |
| RegisterForm.NameVerdict | src/components/auth/Register.jsx:35-46 | A name is valid exactly when its trimmed length is at least 2 UTF-16 units, with no upper bound |
| RegisterForm.ValidateField | src/components/auth/Register.jsx:17-54 | Each known field records its own validator's verdict, and an unknown name changes nothing |
| RegisterForm.ValidateFieldTouchesOnlyItsField | src/components/auth/Register.jsx:17-54 | Validating a field leaves every other field's error and flag as they were |
| RegisterForm.ValidatedFormIsValidIff | src/components/auth/Register.jsx:65-93 | From a consistent state holding only these fields, the form is valid after both are validated exactly when both validators accept |
| RegisterForm.IsFormValid | src/components/auth/Register.jsx:93 | On a consistent state the button is enabled exactly when both fields have been validated and no error at all is shown |
| RegisterForm.ForeignErrorDisables | src/components/auth/Register.jsx:93 | A stale error on another key keeps the form invalid even with both fields valid |
| RegisterForm.UserData | src/components/auth/Register.jsx:78-82 | The submitted object is exactly the trimmed email, the trimmed name and `roles: ['ROLE_USER']` |
| LoginForm.PreCheck | src/components/auth/Login.jsx:21-29 | Blank gives `'El email es requerido'`; otherwise a missing `@` gives `'Ingresa un email válido'`; otherwise no error |
| LoginForm.Submit | src/components/auth/Login.jsx:17-41 | A pre-check error stops before `login`. Otherwise `login` receives the trimmed email; success clears the error and navigates, and failure shows the thrown message |
| LoginForm.ErrorIsClearedFirst | src/components/auth/Login.jsx:19 | The previous error never affects a submission |
| LoginForm.BlankTakesPrecedence | src/components/auth/Login.jsx:21-29 | A white-space-only email is reported as missing, not as malformed |
| LoginForm.RegisteredEmailSignsIn | src/components/auth/Login.jsx:21-33 | Any email the registration form accepts passes the login checks and is passed to `login` trimmed |
| LoginForm.LoginIsLooser | src/components/auth/Login.jsx:26-29 | `a@b` passes the login check but not the registration pattern |
| Paging.CeilDiv | src/components/restaurants/RestaurantList.jsx:130 | `Math.ceil(n / d)` is the integer `r` with `d·(r−1) < n ≤ d·r` |
| Paging.CeilDivIsLeast | src/components/restaurants/RestaurantList.jsx:130 | That integer is unique |
| Paging.TotalPages | src/components/restaurants/RestaurantList.jsx:130 | `pages` when it is set, otherwise the ceiling of `total / perPage` |
| Paging.Previous | src/components/restaurants/RestaurantList.jsx:281 | The previous page is one less, never below 1 |
| Paging.Next | src/components/restaurants/RestaurantList.jsx:293 | The next page is one more, never above the page count |
| Paging.ButtonsStayInRange | src/components/search/SearchPage.jsx:441-453 | From a page in range, both buttons keep it in range |
| Paging.NextTimesStopsAtLast | src/components/restaurants/RestaurantList.jsx:293 | Pressing Next k times reaches `page + k`, or stops at the last page |
| Paging.PreviousTimesStopsAtFirst | src/components/restaurants/RestaurantList.jsx:281 | Pressing Previous k times reaches `page − k`, or stops at page 1 |
| Paging.RangeIsWithinTotal | src/components/restaurants/RestaurantList.jsx:276 | The shown range `(page−1)·perPage+1 … min(page·perPage, total)` lies within the total, has at most perPage rows, and has exactly perPage on every page but the last |
| Paging.FirstShown | src/components/restaurants/RestaurantList.jsx:276 | The first row shown on a page starts a full page that ends at `page·perPage`, after all earlier pages |
| Paging.LastShown | src/components/restaurants/RestaurantList.jsx:276 | The last row shown is the smaller of `page·perPage` and the total |
| Paging.HydraPagerHiddenAsWritten | src/components/restaurants/RestaurantList.jsx:130 | As written, a hydra listing gives a page count of 0 however many items the server reports, so the pager never shows |
| Paging.ListingCounts | src/components/restaurants/RestaurantList.jsx:130 | Corrected counts: the pagination's `pages` and `total`, falling back to the listing's own total |
| Paging.HydraPageIsHydra | src/services/restaurants.js:223-232 | A hydra page is read as hydra and reports the server's item count as its total |
| Paging.HydraPagerFromListing | src/components/restaurants/RestaurantList.jsx:130 | With the corrected counts, a hydra listing of `n` items has `ceil(n / perPage)` pages, and the pager shows exactly when `n > perPage` |
| SearchPage.SetField | src/components/search/SearchPage.jsx:112-117 | Changing a parameter sets exactly that field and keeps the other nine |
| SearchPage.DefaultsAreInactive | src/components/search/SearchPage.jsx:8-40 | The default record has no active filter |
| SearchPage.AscendingAloneIsActive | src/components/search/SearchPage.jsx:38-40 | Switching only the direction to `ASC` makes the filters active |
| SearchPage.SentinelTextLooksInactive | src/components/search/SearchPage.jsx:38-40 | Searching for the text `DESC` alone does not count as an active filter |
| SearchPage.HasActiveFilters | src/components/search/SearchPage.jsx:38-40 | The record is inactive exactly when every field holds `''`, `'created_at'` or `'DESC'`, so the defaults are never active |
| SearchPage.ClearAllFilters | src/components/search/SearchPage.jsx:94-110 | The default record, no results, no pagination and page 1 are restored, after which no filter is active |
| SearchPage.SearchCriteria | src/components/search/SearchPage.jsx:46-57 | Every non-empty field is kept and every empty one removed, plus the page and `limit = 12` |
| SearchPage.CleanupIsRedundant | src/components/search/SearchPage.jsx:52-57 | Removing the empty fields makes no difference to the query the service builds |
| SearchPage.SearchAsksForTwelve | src/components/search/SearchPage.jsx:46-50 | The query always holds the current page and `limit = 12` |
| SearchPage.HandleQuickSearch | src/components/search/SearchPage.jsx:79-92 | A blank query or a raw length below 2 UTF-16 units clears the results with no request; anything that is sent has passed the service's guard |
| SearchPage.QuickGuardStops | src/components/search/SearchPage.jsx:80 | A query the guard lets through is not blank, and one at least 2 units long after trimming always gets through |
| SearchPage.ShortQueriesShowNothing | src/components/search/SearchPage.jsx:79-87 | Any query shorter than 2 after trimming shows no results and sends nothing, whichever guard stops it |
| SearchPage.GuardsDisagree | src/components/search/SearchPage.jsx:80 | `" a"` passes the page's guard but not the service's |
| SearchPage.TotalPages | src/components/search/SearchPage.jsx:133 | A non-zero `pages` is the count as it is; without it the count is the ceiling of the pagination's total over 12, and a pagination with neither gives 0 |
| RestaurantList.LoadCallFor | src/components/restaurants/RestaurantList.jsx:34-47 | The search endpoint is used exactly when the trimmed query is non-empty, with the page and limit 10; otherwise `getRestaurants(page, 10)` |
| RestaurantList.ListSearchQuery | src/components/restaurants/RestaurantList.jsx:39-44 | The search sends the trimmed query, the page and `limit = 10` |
| RestaurantList.ListSearchSetsNothingElse | src/components/restaurants/RestaurantList.jsx:40-44 | None of the other nine search keys is sent |
| RestaurantList.Settle | src/components/restaurants/RestaurantList.jsx:85-95 | A request that succeeds reloads the list; one that fails shows a non-empty error |
| RestaurantList.HandleDelete | src/components/restaurants/RestaurantList.jsx:78-96 | Nothing happens while a deletion is marked or without confirmation. Otherwise the DELETE is sent and the mark returns to `null` |
| RestaurantList.DeleteIsNotReentrant | src/components/restaurants/RestaurantList.jsx:79 | A second delete while one is marked sends nothing; a mark of `0` does not block |
| RestaurantList.HandleModalSave | src/components/restaurants/RestaurantList.jsx:98-114 | An edit target updates and no target creates. Only success closes the modal, clears the target and reloads; failure shows an error |
| RestaurantList.SaveVerbFollowsTarget | src/components/restaurants/RestaurantList.jsx:98-106 | A valid save is a PUT to the target's URL when editing, and a POST to `/restaurants` otherwise |
| RestaurantList.TotalPages | src/components/restaurants/RestaurantList.jsx:130 | The count is the pagination's `pages` when set, and otherwise the ceiling of the pagination's own total over 10 |

## Left out

- Transport: `fetch`, header access and `response.json()` become the abstract
  `Api.Reply`. Its cases are an unreachable server, or a status with an
  optional `Retry-After` and a parsed or malformed body. An unreachable server
  is rejected with the connection message; the message sniffing on `TypeError`
  is not modelled.
- The 401 handler's attempt to read the error body only logs, so it is left out.
- `window.rateLimitInfo`, all `console` output and the key previews in the logs
  are left out. They are informational only.
- `localStorage` is the gateway's `stored` field, and its writes always
  succeed. The swallowed storage exceptions are left out.
- `Date.now()` is the `now` argument, and `extractPageFromUrl` (browser URL
  parsing) is the `pageOf` function argument.
- The `_ensureApiService` guard is left out. The gateway is a module
  singleton that always has `post`, so the guard never throws.
- `getUser`, `getIsAuthenticated` and `testConnection` in the session
  manager, and `AuthContext`, are left out. They are getters and React glue;
  `LoginForm.Submit` takes the outcome of `login` as an argument.
- Auth.Register: a truthy `api_key` that is not a string is installed as its
  text. In the source, the next request's log line would then throw a
  `TypeError`.
- Auth.RefreshApiKey: the same simplification as `Auth.Register` for a key
  that is not a string.
- Restaurants.CreateRestaurant: the name, address and phone are optional
  strings. The `TypeError` that `trim()` throws on a truthy non-string is left
  out.
- Restaurants.PatchRestaurant: the same simplification applies to patch fields.
- Restaurants.SearchRestaurants: criteria are typed, so page and limit are
  integers. The coercions that `Math.min` and `URLSearchParams` apply to
  other values are left out.
- Paging.TotalPages: a `pages` or `total` that is not a number is read as 0.
  In the source it would give `NaN`, or be concatenated as text.
- FormEncoding.Decode: the URL Standard's parser replaces malformed escapes and
  invalid UTF-8 with U+FFFD; the model's decoder answers `None` instead, since
  it serves only as the inverse of what the serializer writes.
- Numbers are unbounded integers. Floating-point and fractional page numbers
  are left out.
- React update timing is left out: `handleSubmit` reads `errors` and `isValid`
  before the updates land, and its three `validateField` calls each copy the
  same earlier `errors` and `isValid`, so only the last update lands. The
  validators are pure functions of the state passed in, and
  `RestaurantModal.ValidateAll` composes them one after another, as three
  successive edits do.
- Rendering, toasts, navigation targets and the route guards (`App.jsx`,
  `Header.jsx`, `Dashboard.jsx`, `LoadingSpinner.jsx`) are left out, as is
  `formatDate`.
- Concurrency is left out: overlapping requests, cancellation and cache
  races. Each operation is one atomic step.

## Findings

| source | as written | input that shows it | evidently intended | confidence | as-written member | corrected member |
|---|---|---|---|---|---|---|
| src/services/api.js:131 | `getHeaders(options.method !== 'GET')`: `get` passes no method, and `undefined !== 'GET'`, so every GET carries `Content-Type: application/json`; `Api.Request` sends these as-written headers | any `get('/restaurants')` | GET requests, which have no body, omit the content type | medium, not executed | Api.GetSendsContentTypeAsWritten | Api.RequestHeaders |
| src/components/restaurants/RestaurantList.jsx:130 | the page count reads only `pagination.pages` and `pagination.total`. The hydra and bare-array listings never carry them, so the count is 0 and the pager is hidden. SearchPage.jsx:133 is the same; both pages' `TotalPages` model it as written | a hydra reply with 10 members and `hydra:totalItems` 25, shown 10 per page | the pager shows 3 pages, using the total the listing reports | medium, not executed | Paging.HydraPagerHiddenAsWritten | Paging.HydraPagerFromListing |

=== FILE: api.dfy ===
/** The HTTP gateway of src/services/api.js: one API key (with its copy in
    local storage), a 30-second response cache keyed by `"METHOD:url"`, and
    `request` as a pure step from the gateway, a verb, an endpoint, the clock
    and the server's reply to the next gateway, the request actually sent
    (none on a cache hit) and the resolved body or the error message.
 */
module Api {
  import opened Wrappers
  import opened Js
  import Text
  import FormEncoding

  const DefaultBaseUrl: string := "http://localhost:8080/api"

  /** Cache entries are served while younger than this many milliseconds. */
  const CacheTtl: int := 30 * 1000

  /** The substring every mutation invalidates. */
  const RestaurantsFamily: string := "/restaurants"

  const UnauthorizedMessage: string := "No autorizado"
  const ConnectionMessage: string := "Error de conexión. Verifica que el servidor esté ejecutándose."
  const ValidationFallback: string := "Error de validación"
  const JsonContentType: string := "application/json"
  const MergePatchContentType: string := "application/merge-patch+json"

  datatype Verb = GET | POST | PUT | PATCH | DELETE

  function VerbName(v: Verb): string {
    match v
    case GET => "GET"
    case POST => "POST"
    case PUT => "PUT"
    case PATCH => "PATCH"
    case DELETE => "DELETE"
  }

  /** A cached body and the clock reading at which it was stored. */
  datatype Entry = Entry(data: Json, timestamp: int)

  type Cache = map<string, Entry>

  /** The gateway's state: base URL, the key in memory, the key in local
      storage, and the response cache. */
  datatype Gateway = Gateway(baseUrl: string, apiKey: Option<string>, stored: Option<string>, cache: Cache)

  /** A parsed response body, or the message of the parser's exception. */
  datatype Body = Parsed(data: Json) | Malformed(error: string)

  /** What the transport yields: a failure to reach the server, or a status
      with the `Retry-After` header (when present) and the body. */
  datatype Reply = Unreachable | Response(status: int, retryAfter: Option<string>, body: Body)

  /** A request handed to the transport. */
  datatype Outgoing = Outgoing(verb: Verb, url: string, headers: map<string, string>, body: Option<Json>)

  /** The outcome of one `request` call. */
  datatype Step = Step(after: Gateway, sent: Option<Outgoing>, result: Result<Json>)

  // ---------------------------------------------------------------- the key

  /** A stored key is adopted unless it is empty or one of the sentinels
      `"null"`/`"undefined"` left behind by earlier string conversions. */
  predicate Loadable(stored: Option<string>) {
    stored.Some? && stored.value != "" && stored.value != "null" && stored.value != "undefined"
  }

  /** `loadApiKeyFromStorage`. */
  function LoadApiKeyFromStorage(g: Gateway): (r: Gateway)
    ensures r.apiKey == (if Loadable(g.stored) then g.stored else g.apiKey)
    ensures r.stored == g.stored && r.cache == g.cache && r.baseUrl == g.baseUrl
    ensures Loadable(g.stored) ==> HasValidApiKey(r)
  {
    if Loadable(g.stored) then g.(apiKey := g.stored) else g
  }

  /** The constructor: the configured base URL (or the default when it is
      empty), no key, an empty cache, then the stored key if it loads. */
  function Init(configuredBaseUrl: string, stored: Option<string>): (g: Gateway)
    ensures g.baseUrl == (if configuredBaseUrl != "" then configuredBaseUrl else DefaultBaseUrl)
    ensures g.cache == map[] && g.stored == stored
    ensures g.apiKey.Some? <==> Loadable(stored)
    ensures g.apiKey.Some? ==> g.apiKey == stored
  {
    var baseUrl := if configuredBaseUrl != "" then configuredBaseUrl else DefaultBaseUrl;
    LoadApiKeyFromStorage(Gateway(baseUrl, None, stored, map[]))
  }

  /** `setApiKey` with `saveApiKeyToStorage`: a non-empty key is persisted,
      anything else removes the persisted copy. */
  function SetApiKey(g: Gateway, key: Option<string>): (r: Gateway)
    ensures r.apiKey == key
    ensures r.stored.Some? <==> key.Some? && key.value != ""
    ensures r.stored.Some? ==> r.stored == key
    ensures r.cache == g.cache && r.baseUrl == g.baseUrl
  {
    g.(apiKey := key, stored := if key.Some? && key.value != "" then key else None)
  }

  /** `hasValidApiKey`: a key is valid exactly when it is one the gateway
      would adopt from storage. */
  function HasValidApiKey(g: Gateway): (b: bool)
    ensures b <==> Loadable(g.apiKey)
  {
    g.apiKey.Some? && g.apiKey.value != "" && g.apiKey.value != "null" && g.apiKey.value != "undefined"
  }

  /** A key installed with `setApiKey` is the one a restarted gateway loads
      from storage, unless it is blank or a sentinel; clearing the key leaves
      nothing to load. */
  lemma {:induction false} PersistedKeyReloads(g: Gateway, key: Option<string>, configuredBaseUrl: string)
    ensures var restarted := Init(configuredBaseUrl, SetApiKey(g, key).stored);
            && (key.Some? && Loadable(key) ==> restarted.apiKey == key && HasValidApiKey(restarted))
            && (key.None? ==> restarted.apiKey == None && !HasValidApiKey(restarted))
  {
    var s := SetApiKey(g, key).stored;
    if key.Some? && Loadable(key) {
      assert s == key;
    } else if key.None? {
      assert s == None;
    }
  }

  // ------------------------------------------------------------ the headers

  /** `getHeaders(includeContentType)`. */
  function GetHeaders(g: Gateway, includeContentType: bool): (h: map<string, string>)
    ensures "Content-Type" in h <==> includeContentType
    ensures "Content-Type" in h ==> h["Content-Type"] == JsonContentType
    ensures "X-API-KEY" in h <==> HasValidApiKey(g)
    ensures "X-API-KEY" in h ==> Some(h["X-API-KEY"]) == g.apiKey
    ensures h.Keys <= {"Content-Type", "X-API-KEY"}
  {
    var base: map<string, string> := if includeContentType then map["Content-Type" := JsonContentType] else map[];
    if HasValidApiKey(g) then base["X-API-KEY" := g.apiKey.value] else base
  }

  /** The `options.method` a verb helper passes to `request`: `get` passes none. */
  function OptionsMethod(v: Verb): Option<Verb> {
    if v == GET then None else Some(v)
  }

  /** The headers `request` builds as written: `getHeaders(options.method !== 'GET')`
      merged with the caller's headers (`patch` overrides the content type). */
  function SentHeadersAsWritten(g: Gateway, optionsVerb: Option<Verb>): map<string, string> {
    var base := GetHeaders(g, optionsVerb != Some(GET));
    if optionsVerb == Some(PATCH) then base["Content-Type" := MergePatchContentType] else base
  }

  /** The headers the request of a verb helper carries, as written: every
      verb sends a content type (a merge patch for `patch`, JSON otherwise,
      GET included), and the key whenever it is valid. */
  function SentHeaders(g: Gateway, verb: Verb): (h: map<string, string>)
    ensures "Content-Type" in h
    ensures h["Content-Type"] == if verb == PATCH then MergePatchContentType else JsonContentType
    ensures "X-API-KEY" in h <==> HasValidApiKey(g)
    ensures "X-API-KEY" in h ==> Some(h["X-API-KEY"]) == g.apiKey
    ensures h.Keys <= {"Content-Type", "X-API-KEY"}
  {
    SentHeadersAsWritten(g, OptionsMethod(verb))
  }

  /** As written, a plain `get` sends a JSON content type: `get` passes no
      method, and `undefined !== 'GET'` holds. */
  lemma GetSendsContentTypeAsWritten(g: Gateway)
    ensures "Content-Type" in SentHeadersAsWritten(g, OptionsMethod(GET))
    ensures SentHeadersAsWritten(g, OptionsMethod(GET))["Content-Type"] == JsonContentType
  {
  }

  /** The headers a request carries, with the content type left off reads as
      the `!== 'GET'` comparison evidently intends. */
  function RequestHeaders(g: Gateway, verb: Verb): (h: map<string, string>)
    ensures "Content-Type" in h <==> verb != GET
    ensures verb == PATCH ==> h["Content-Type"] == MergePatchContentType
    ensures verb != GET && verb != PATCH ==> h["Content-Type"] == JsonContentType
    ensures "X-API-KEY" in h <==> HasValidApiKey(g)
    ensures "X-API-KEY" in h ==> Some(h["X-API-KEY"]) == g.apiKey
    ensures h.Keys <= {"Content-Type", "X-API-KEY"}
  {
    var base := GetHeaders(g, verb != GET);
    if verb == PATCH then base["Content-Type" := MergePatchContentType] else base
  }

  /** The corrected and the as-written headers differ only in the content
      type of a GET. */
  lemma RequestHeadersAgreeOffGet(g: Gateway, verb: Verb)
    ensures verb != GET ==> RequestHeaders(g, verb) == SentHeaders(g, verb)
    ensures verb == GET ==> RequestHeaders(g, verb) == SentHeaders(g, verb) - {"Content-Type"}
  {
  }

  // -------------------------------------------------------------- the cache

  /** `getCacheKey(url, method)`. */
  function CacheKey(url: string, verb: Verb): string {
    VerbName(verb) + ":" + url
  }

  /** `getCachedData`: the stored body while the entry is younger than the
      TTL (strictly); an expired entry is ignored but stays in the cache. */
  function CachedData(cache: Cache, key: string, now: int): (r: Option<Json>)
    ensures r.Some? <==> key in cache && now - cache[key].timestamp < CacheTtl
    ensures r.Some? ==> r.value == cache[key].data
  {
    if key in cache && now - cache[key].timestamp < CacheTtl then Some(cache[key].data) else None
  }

  /** `setCachedData`. */
  function SetCachedData(cache: Cache, key: string, data: Json, now: int): (r: Cache)
    ensures CachedData(r, key, now) == Some(data)
    ensures forall k :: k != key ==> (k in r <==> k in cache) && (k in r ==> r[k] == cache[k])
  {
    cache[key := Entry(data, now)]
  }

  /** A non-empty pattern: `clearCache`'s `if (pattern)`. */
  predicate Pattern(pattern: Option<string>) {
    pattern.Some? && pattern.value != ""
  }

  /** `clearCache(pattern)`: with a non-empty pattern, exactly the keys that
      contain it are deleted; with `null` or `''` the cache is emptied. */
  function ClearCache(cache: Cache, pattern: Option<string>): (r: Cache)
    ensures Pattern(pattern) ==> forall k :: k in r <==> k in cache && !Text.Contains(k, pattern.value)
    ensures forall k :: k in r ==> k in cache && r[k] == cache[k]
    ensures !Pattern(pattern) ==> r == map[]
  {
    if Pattern(pattern) then map k | k in cache && !Text.Contains(k, pattern.value) :: cache[k] else map[]
  }

  /** After clearing a pattern, no key containing it is served from the cache. */
  lemma ClearedKeysMiss(cache: Cache, pattern: string, key: string, now: int)
    requires pattern != "" && Text.Contains(key, pattern)
    ensures CachedData(ClearCache(cache, Some(pattern)), key, now) == None
  {
  }

  /** Clearing the same pattern twice is clearing it once. */
  lemma ClearCacheIdempotent(cache: Cache, pattern: Option<string>)
    ensures ClearCache(ClearCache(cache, pattern), pattern) == ClearCache(cache, pattern)
  {
  }

  // ----------------------------------------------------------- the errors

  /** The wait in the rate-limit message: the `Retry-After` value in seconds
      when the header is present and non-empty, one hour otherwise. */
  function WaitPhrase(retryAfter: Option<string>): string {
    if retryAfter.Some? && retryAfter.value != "" then retryAfter.value + " segundos" else "1 hora"
  }

  const RateLimitPrefix: string := "Rate limit excedido (200 req/hora). Espera "
  const RateLimitSuffix: string := " o usa una nueva API key."

  /** The 429 message: the fixed prefix and suffix around the wait. */
  function RateLimitMessage(retryAfter: Option<string>): (m: string)
    ensures |m| > |RateLimitPrefix| + |RateLimitSuffix|
    ensures m[..|RateLimitPrefix|] == RateLimitPrefix
    ensures m[|m| - |RateLimitSuffix|..] == RateLimitSuffix
  {
    RateLimitPrefix + WaitPhrase(retryAfter) + RateLimitSuffix
  }

  /** The rate-limit message names the `Retry-After` wait when the header is
      present and the one-hour default otherwise, and never both: without the
      header no seconds are mentioned, and a delay in seconds (the digits
      section 10.2.3 of RFC 9110 allows) never brings in the default. */
  lemma RateLimitWaitIsExclusive(retryAfter: Option<string>)
    ensures retryAfter.Some? && retryAfter.value != "" ==>
              Text.Contains(RateLimitMessage(retryAfter), retryAfter.value + " segundos")
    ensures !(retryAfter.Some? && retryAfter.value != "") ==>
              Text.Contains(RateLimitMessage(retryAfter), "1 hora") && !Text.Contains(RateLimitMessage(retryAfter), "segundos")
    ensures retryAfter.Some? && retryAfter.value != "" && Text.AllDigits(retryAfter.value) ==>
              !Text.Contains(RateLimitMessage(retryAfter), "1 hora")
  {
    var m := RateLimitMessage(retryAfter);
    var w := WaitPhrase(retryAfter);
    var n := |RateLimitPrefix|;
    assert m[n..n + |w|] == w;
    assert Text.OccursAt(m, w, n);
    if !(retryAfter.Some? && retryAfter.value != "") {
      assert Text.NoChar(RateLimitPrefix, 'g');
      assert Text.NoChar(w, 'g');
      assert Text.NoChar(RateLimitSuffix, 'g');
      Text.NoCharInConcat(RateLimitPrefix, w, RateLimitSuffix, 'g');
      Text.AbsentCharBlocks(m, "segundos", 2);
    } else if Text.AllDigits(retryAfter.value) {
      DigitsKeepDefaultOut(retryAfter.value);
    }
  }

  lemma DigitsKeepDefaultOut(d: string)
    requires d != "" && Text.AllDigits(d)
    ensures !Text.Contains(RateLimitPrefix + (d + " segundos") + RateLimitSuffix, "1 hora")
  {
    var tail := " segundos" + RateLimitSuffix;
    assert RateLimitPrefix + (d + " segundos") + RateLimitSuffix == RateLimitPrefix + d + tail;
    PrefixLacksOne();
    TailLacksOne();
    DefaultNeedsOne(RateLimitPrefix, d, tail);
  }

  lemma PrefixLacksOne()
    ensures Text.NoChar(RateLimitPrefix, '1')
  {
  }

  lemma TailLacksOne()
    ensures Text.NoChar(" segundos" + RateLimitSuffix, '1')
    ensures (" segundos" + RateLimitSuffix)[..2] == " s"
  {
  }

  /** `"1 hora"` cannot occur in `a + d + t` when only the digits `d` hold a
      `1` and `t` goes on with a space that is not followed by `h`. */
  lemma DefaultNeedsOne(a: string, d: string, t: string)
    requires Text.NoChar(a, '1') && Text.NoChar(t, '1') && Text.AllDigits(d)
    requires |t| >= 2 && t[..2] == " s"
    ensures !Text.Contains(a + d + t, "1 hora")
  {
    forall i | 0 <= i <= |a + d + t| - 6 ensures !Text.OccursAt(a + d + t, "1 hora", i) {
      DefaultNotAt(a, d, t, i);
    }
  }

  lemma DefaultNotAt(a: string, d: string, t: string, i: int)
    requires Text.NoChar(a, '1') && Text.NoChar(t, '1') && Text.AllDigits(d)
    requires |t| >= 2 && t[..2] == " s"
    requires 0 <= i <= |a + d + t| - 6
    ensures !Text.OccursAt(a + d + t, "1 hora", i)
  {
    var m := a + d + t;
    // A `1` occurs only inside `d`, and what follows it is a digit or `t[0]`,
    // whose successor is not `h`.
    if i < |a| {
      assert m[i] == a[i];
    } else if i >= |a| + |d| {
      assert m[i] == t[i - |a| - |d|];
    } else if i + 1 < |a| + |d| {
      assert m[i + 1] == d[i + 1 - |a|];
    } else {
      assert m[i + 2] == t[1] == t[..2][1];
    }
  }

  /** The message of a non-2xx response other than 401, 429 and 204. A 400
      prefers `details` (an array, joined with `", "`), then `error`, then
      `message`, then a fixed text; other statuses use `message` or
      `"Error <status>"`. */
  function ErrorMessage(status: int, data: Json): (m: string)
    ensures Nullish(data) ==> m == NullReadMessage(data, if status == 400 then "details" else "message")
    // A 400 reports one of its three fields or the fixed text.
    ensures !Nullish(data) && status == 400 ==>
              || (Prop(data, "details").Arr? && m == JoinItems(Prop(data, "details").items, ", "))
              || (Truthy(Prop(data, "error")) && m == ToStr(Prop(data, "error")))
              || (Truthy(Prop(data, "message")) && m == ToStr(Prop(data, "message")))
              || m == ValidationFallback
    // Any other status reports the message, or names the status.
    ensures !Nullish(data) && status != 400 ==>
              || (Truthy(Prop(data, "message")) && m == ToStr(Prop(data, "message")))
              || m == "Error " + Text.IntToString(status)
  {
    if Nullish(data) then
      NullReadMessage(data, if status == 400 then "details" else "message")
    else if status == 400 then
      var details := Prop(data, "details");
      if details.Arr? then JoinItems(details.items, ", ")
      else if Truthy(Prop(data, "error")) then ToStr(Prop(data, "error"))
      else if Truthy(Prop(data, "message")) then ToStr(Prop(data, "message"))
      else ValidationFallback
    else if Truthy(Prop(data, "message")) then ToStr(Prop(data, "message"))
    else "Error " + Text.IntToString(status)
  }

  /** The error-message priority of a failed response, stated case by case. */
  lemma ErrorMessagePriority(status: int, data: Json)
    requires !Nullish(data)
    ensures status == 400 && Prop(data, "details").Arr? ==>
              ErrorMessage(status, data) == JoinItems(Prop(data, "details").items, ", ")
    ensures status == 400 && !Prop(data, "details").Arr? && Truthy(Prop(data, "error")) ==>
              ErrorMessage(status, data) == ToStr(Prop(data, "error"))
    ensures status == 400 && !Prop(data, "details").Arr? && !Truthy(Prop(data, "error")) && Truthy(Prop(data, "message")) ==>
              ErrorMessage(status, data) == ToStr(Prop(data, "message"))
    ensures status == 400 && !Prop(data, "details").Arr? && !Truthy(Prop(data, "error")) && !Truthy(Prop(data, "message")) ==>
              ErrorMessage(status, data) == "Error de validación"
    ensures status != 400 && Truthy(Prop(data, "message")) ==> ErrorMessage(status, data) == ToStr(Prop(data, "message"))
    ensures status != 400 && !Truthy(Prop(data, "message")) ==> ErrorMessage(status, data) == "Error " + Text.IntToString(status)
  {
  }

  /** The message reads nothing of the body but `message`, and, for a 400,
      `details` and `error`: bodies that agree on those give the same text. */
  lemma ErrorMessageReadsOnlyItsFields(status: int, a: Json, b: Json)
    requires Nullish(a) == Nullish(b) && (Nullish(a) ==> a == b)
    requires Prop(a, "message") == Prop(b, "message")
    requires status == 400 ==> Prop(a, "details") == Prop(b, "details") && Prop(a, "error") == Prop(b, "error")
    ensures ErrorMessage(status, a) == ErrorMessage(status, b)
  {
  }

  /** `{ success: true }`, what a 204 resolves with. */
  const SuccessMarker: Json := Obj(map["success" := Bool(true)])

  predicate IsOk(status: int) {
    200 <= status <= 299
  }

  /** A reply that reaches the body: a response other than 401, 429 and 204. */
  predicate Classified(reply: Reply) {
    reply.Response? && reply.status != 401 && reply.status != 429 && reply.status != 204
  }

  /** The part of `request` after the transport: status classification and
      its effects on the key and the cache. */
  function Respond(g: Gateway, verb: Verb, key: string, now: int, reply: Reply): (r: (Gateway, Result<Json>))
    ensures reply.Unreachable? ==> r == (g, Err(ConnectionMessage))
    ensures Classified(reply) && reply.body.Malformed? ==> r == (g, Err(reply.body.error))
    ensures Classified(reply) && reply.body.Parsed? && !IsOk(reply.status) ==>
              r == (g, Err(ErrorMessage(reply.status, reply.body.data)))
    ensures Classified(reply) && reply.body.Parsed? && IsOk(reply.status) ==> r.1 == Ok(reply.body.data)
    ensures r.0.baseUrl == g.baseUrl
  {
    match reply
    case Unreachable => (g, Err(ConnectionMessage))
    case Response(status, retryAfter, body) =>
      if status == 401 then (SetApiKey(g, None), Err(UnauthorizedMessage))
      else if status == 429 then (g, Err(RateLimitMessage(retryAfter)))
      else if status == 204 then (g.(cache := ClearCache(g.cache, Some(RestaurantsFamily))), Ok(SuccessMarker))
      else match body
        case Malformed(error) => (g, Err(error))
        case Parsed(data) =>
          if !IsOk(status) then (g, Err(ErrorMessage(status, data)))
          else if verb == GET then (g.(cache := SetCachedData(g.cache, key, data, now)), Ok(data))
          else (g.(cache := ClearCache(g.cache, Some(RestaurantsFamily))), Ok(data))
  }

  /** A GET whose key has a live entry with a truthy body: `request` answers
      from the cache. */
  predicate CacheHit(g: Gateway, verb: Verb, endpoint: string, now: int) {
    var hit := CachedData(g.cache, CacheKey(g.baseUrl + endpoint, verb), now);
    verb == GET && hit.Some? && Truthy(hit.value)
  }

  /** `request(endpoint, options)`. */
  function Request(g: Gateway, verb: Verb, endpoint: string, body: Option<Json>, now: int, reply: Reply): (r: Step)
    // A live, truthy cached body is returned with no transport call and no change.
    ensures CacheHit(g, verb, endpoint, now) ==>
              r == Step(g, None, Ok(g.cache[CacheKey(g.baseUrl + endpoint, GET)].data))
    // Otherwise exactly one request goes out, to the base URL plus the endpoint.
    ensures !CacheHit(g, verb, endpoint, now) ==>
              r.sent == Some(Outgoing(verb, g.baseUrl + endpoint, SentHeaders(g, verb), body))
    ensures verb != GET ==> r.sent.Some?
    // The status classification: an unreachable server, a malformed body, a
    // failure status and a success.
    ensures r.sent.Some? && reply.Unreachable? ==> r.after == g && r.result == Err(ConnectionMessage)
    ensures r.sent.Some? && Classified(reply) && reply.body.Malformed? ==> r.result == Err(reply.body.error)
    ensures r.sent.Some? && Classified(reply) && reply.body.Parsed? && !IsOk(reply.status) ==>
              r.result == Err(ErrorMessage(reply.status, reply.body.data))
    ensures r.sent.Some? && Classified(reply) && reply.body.Parsed? && IsOk(reply.status) ==>
              r.result == Ok(reply.body.data)
    // 401 on any verb: the key and its stored copy are cleared, the cache is kept.
    ensures r.sent.Some? && reply.Response? && reply.status == 401 ==>
              r.after == g.(apiKey := None, stored := None) && r.result == Err(UnauthorizedMessage)
    // 429: the wait comes from Retry-After, or defaults to one hour.
    ensures r.sent.Some? && reply.Response? && reply.status == 429 ==>
              r.after == g && r.result == Err(RateLimitMessage(reply.retryAfter))
    // 204 on any verb: the success marker, with the restaurant entries dropped.
    ensures r.sent.Some? && reply.Response? && reply.status == 204 ==>
              r.result == Ok(SuccessMarker) && r.after == g.(cache := ClearCache(g.cache, Some(RestaurantsFamily)))
    // Only a 401 touches the key; nothing touches the base URL.
    ensures r.after.baseUrl == g.baseUrl
    ensures !(reply.Response? && reply.status == 401) ==> r.after.apiKey == g.apiKey && r.after.stored == g.stored
    // No failure writes to the cache.
    ensures r.result.Err? ==> r.after.cache == g.cache
    // A successful GET from the server is cached at the current time.
    ensures verb == GET && r.sent.Some? && reply.Response? && reply.status != 204 && r.result.Ok? ==>
              r.after.cache == g.cache[CacheKey(g.baseUrl + endpoint, GET) := Entry(r.result.value, now)]
    // A successful request with another verb drops the restaurant entries.
    ensures verb != GET && r.result.Ok? ==>
              r.after.cache == ClearCache(g.cache, Some(RestaurantsFamily))
  {
    var url := g.baseUrl + endpoint;
    var key := CacheKey(url, verb);
    if CacheHit(g, verb, endpoint, now) then
      Step(g, None, Ok(g.cache[key].data))
    else
      var (after, result) := Respond(g, verb, key, now, reply);
      Step(after, Some(Outgoing(verb, url, SentHeaders(g, verb), body)), result)
  }

  // ----------------------------------------------------------- the verbs

  /** A query value `get` keeps: anything but `undefined`, `null` and `''`. */
  predicate Sendable(v: Json) {
    !Nullish(v) && v != Str("")
  }

  /** The parameters `get` appends, in order, as text. */
  function KeptParams(params: seq<(string, Json)>): (r: seq<(string, string)>)
    ensures |r| <= |params|
    ensures forall i :: 0 <= i < |params| && Sendable(params[i].1) ==> (params[i].0, ToStr(params[i].1)) in r
    ensures forall p :: p in r ==> exists i :: 0 <= i < |params| && Sendable(params[i].1) && p == (params[i].0, ToStr(params[i].1))
    ensures r == [] <==> forall i :: 0 <= i < |params| ==> !Sendable(params[i].1)
  {
    if params == [] then []
    else
      var rest := KeptParams(params[1..]);
      assert forall i :: 1 <= i < |params| ==> params[i] == params[1..][i - 1];
      if Sendable(params[0].1) then [(params[0].0, ToStr(params[0].1))] + rest else rest
  }

  /** Two parameters that both survive the filter are kept, in order, as text. */
  lemma KeptPair(a: (string, Json), b: (string, Json))
    requires Sendable(a.1) && Sendable(b.1)
    ensures KeptParams([a, b]) == [(a.0, ToStr(a.1)), (b.0, ToStr(b.1))]
  {
    assert [a, b][1..] == [b];
    assert [b][1..] == [];
  }

  /** The URL `get(endpoint, params)` requests: the endpoint, plus `?` and the
      serialized parameters when any survive the filter. */
  function WithQuery(endpoint: string, params: seq<(string, Json)>): (url: string)
    ensures KeptParams(params) == [] ==> url == endpoint
    ensures KeptParams(params) != [] ==> url == endpoint + "?" + FormEncoding.Serialize(KeptParams(params))
  {
    var kept := KeptParams(params);
    if kept == [] then endpoint else endpoint + "?" + FormEncoding.Serialize(kept)
  }

  /** `get(endpoint, params)`. */
  function Get(g: Gateway, endpoint: string, params: seq<(string, Json)>, now: int, reply: Reply): (r: Step)
    ensures !CacheHit(g, GET, WithQuery(endpoint, params), now) ==>
              r.sent.Some? && r.sent.value.url == g.baseUrl + WithQuery(endpoint, params) && r.sent.value.body == None
  {
    Request(g, GET, WithQuery(endpoint, params), None, now, reply)
  }

  /** `post(endpoint, data)`. */
  function Post(g: Gateway, endpoint: string, data: Json, now: int, reply: Reply): (r: Step)
    ensures r.sent == Some(Outgoing(POST, g.baseUrl + endpoint, SentHeaders(g, POST), Some(data)))
  {
    Request(g, POST, endpoint, Some(data), now, reply)
  }

  /** `put(endpoint, data)`. */
  function Put(g: Gateway, endpoint: string, data: Json, now: int, reply: Reply): (r: Step)
    ensures r.sent == Some(Outgoing(PUT, g.baseUrl + endpoint, SentHeaders(g, PUT), Some(data)))
  {
    Request(g, PUT, endpoint, Some(data), now, reply)
  }

  /** `patch(endpoint, data)`, sent as a JSON merge patch. */
  function Patch(g: Gateway, endpoint: string, data: Json, now: int, reply: Reply): (r: Step)
    ensures r.sent == Some(Outgoing(PATCH, g.baseUrl + endpoint, SentHeaders(g, PATCH), Some(data)))
    ensures r.sent.value.headers["Content-Type"] == MergePatchContentType
  {
    Request(g, PATCH, endpoint, Some(data), now, reply)
  }

  /** `delete(endpoint)`: no body. */
  function Delete(g: Gateway, endpoint: string, now: int, reply: Reply): (r: Step)
    ensures r.sent == Some(Outgoing(DELETE, g.baseUrl + endpoint, SentHeaders(g, DELETE), None))
  {
    Request(g, DELETE, endpoint, None, now, reply)
  }

  // ------------------------------------------------- across several calls

  /** A successful GET is served from the cache, byte for byte and without a
      transport call, to every GET of the same URL within the next 30
      seconds. */
  lemma {:induction false} FreshGetIsServedFromCache(g: Gateway, endpoint: string, now: int, status: int, retryAfter: Option<string>,
                                                     data: Json, later: int, reply: Reply)
    requires IsOk(status) && status != 204 && Truthy(data)
    requires !CacheHit(g, GET, endpoint, now)
    requires now <= later < now + CacheTtl
    ensures var first := Request(g, GET, endpoint, None, now, Response(status, retryAfter, Parsed(data)));
            Request(first.after, GET, endpoint, None, later, reply) == Step(first.after, None, Ok(data))
  {
    var first := Request(g, GET, endpoint, None, now, Response(status, retryAfter, Parsed(data)));
    var key := CacheKey(g.baseUrl + endpoint, GET);
    assert first.after.cache == g.cache[key := Entry(data, now)];
    assert CacheHit(first.after, GET, endpoint, later);
  }

  /** Once the TTL has elapsed the cached body is no longer used: the next GET
      of the same URL goes to the server. */
  lemma {:induction false} ExpiredGetGoesToServer(g: Gateway, endpoint: string, now: int, status: int, retryAfter: Option<string>,
                                                  data: Json, later: int, reply: Reply)
    requires IsOk(status) && status != 204
    requires !CacheHit(g, GET, endpoint, now)
    requires later >= now + CacheTtl
    ensures var first := Request(g, GET, endpoint, None, now, Response(status, retryAfter, Parsed(data)));
            Request(first.after, GET, endpoint, None, later, reply).sent.Some?
  {
    var first := Request(g, GET, endpoint, None, now, Response(status, retryAfter, Parsed(data)));
    var key := CacheKey(g.baseUrl + endpoint, GET);
    assert first.after.cache[key] == Entry(data, now);
    assert !CacheHit(first.after, GET, endpoint, later);
  }

  /** After a successful mutation no GET of a URL under `/restaurants` is
      answered from the cache, whatever it held before. */
  lemma {:induction false} MutationInvalidatesRestaurants(g: Gateway, verb: Verb, endpoint: string, body: Option<Json>, now: int, reply: Reply,
                                                          readEndpoint: string, later: int, readReply: Reply)
    requires verb != GET
    requires Request(g, verb, endpoint, body, now, reply).result.Ok?
    requires Text.Contains(g.baseUrl + readEndpoint, RestaurantsFamily)
    ensures var first := Request(g, verb, endpoint, body, now, reply);
            Request(first.after, GET, readEndpoint, None, later, readReply).sent.Some?
  {
    var first := Request(g, verb, endpoint, body, now, reply);
    var url := g.baseUrl + readEndpoint;
    var key := CacheKey(url, GET);
    assert key == "GET:" + url;
    Text.ContainsInSuffix("GET:", url, RestaurantsFamily);
    ClearedKeysMiss(g.cache, RestaurantsFamily, key, later);
    assert !CacheHit(first.after, GET, readEndpoint, later);
  }

  /** After a 401 the gateway holds no valid key, the next request carries no
      `X-API-KEY` header, and a restart finds no key in storage. */
  lemma {:induction false} UnauthorizedRevokesKey(g: Gateway, verb: Verb, endpoint: string, body: Option<Json>, now: int,
                                                  retryAfter: Option<string>, errorBody: Body,
                                                  next: Verb, nextEndpoint: string, nextBody: Option<Json>, later: int, nextReply: Reply)
    requires !CacheHit(g, verb, endpoint, now)
    ensures var first := Request(g, verb, endpoint, body, now, Response(401, retryAfter, errorBody));
            && first.result == Err(UnauthorizedMessage)
            && !HasValidApiKey(first.after)
            && Init(first.after.baseUrl, first.after.stored).apiKey == None
            && var second := Request(first.after, next, nextEndpoint, nextBody, later, nextReply);
               second.sent.Some? ==> "X-API-KEY" !in second.sent.value.headers
  {
  }

  /** Verbs other than GET never consult the cache: what they send and how
      they resolve does not depend on its contents. */
  lemma NonGetIgnoresCache(g: Gateway, other: Cache, verb: Verb, endpoint: string, body: Option<Json>, now: int, reply: Reply)
    requires verb != GET
    ensures Request(g, verb, endpoint, body, now, reply).sent == Request(g.(cache := other), verb, endpoint, body, now, reply).sent
    ensures Request(g, verb, endpoint, body, now, reply).result == Request(g.(cache := other), verb, endpoint, body, now, reply).result
  {
  }

  /** `get('/items', {a: '', b: null, c: 'x'})` requests `/items?c=x`. */
  lemma QueryDropsEmptyValues()
    ensures WithQuery("/items", [("a", Str("")), ("b", Null), ("c", Str("x"))]) == "/items?c=x"
  {
    var params := [("a", Str("")), ("b", Null), ("c", Str("x"))];
    assert params[1..] == [("b", Null), ("c", Str("x"))];
    assert params[1..][1..] == [("c", Str("x"))];
    assert params[1..][1..][1..] == [];
    assert KeptParams(params) == [("c", "x")];
    assert FormEncoding.Encode("c") == "c";
    assert FormEncoding.Encode("x") == "x";
  }
}

=== FILE: auth.dfy ===
/** The session manager of src/services/auth.js: the current user, the
    authenticated flag and the ordered list of listeners, driving the
    gateway's key. Each operation is a transition from the session and the
    gateway, given the clock and the server's reply, to the next session and
    gateway, the requests sent, the notifications delivered, and the value the
    call resolves with or the message it rejects with.
 */
module Auth {
  import opened Wrappers
  import opened Js
  import Text
  import Api

  /** A registered callback, identified by reference. */
  type Listener = nat

  datatype Session = Session(user: Json, isAuthenticated: bool, listeners: seq<Listener>)

  /** One callback invocation with the `{user, isAuthenticated}` snapshot. */
  datatype Notice = Notice(listener: Listener, user: Json, isAuthenticated: bool)

  /** The session manager together with the gateway it drives. */
  datatype World = World(session: Session, gateway: Api.Gateway)

  datatype Transition<T> = Transition(after: World, sent: seq<Api.Outgoing>, notices: seq<Notice>, result: Result<T>)

  const LoginFallback: string := "Error en el login"
  const RegisterFallback: string := "Error en el registro"
  const CurrentUserFallback: string := "Error al obtener el usuario actual"
  const RefreshFallback: string := "Error al refrescar API Key"
  const MissingKeyMessage: string := "No se recibió API key del servidor"
  const MissingUserMessage: string := "No se pudo obtener la información del usuario"
  /** What `response.api_key.substring(...)` throws when the key is not a string. */
  const KeyNotTextMessage: string := "response.api_key.substring is not a function"

  /** The constructor: no user, not authenticated, no listeners. */
  const Initial: Session := Session(Null, false, [])

  /** The text of an `api_key` value as the gateway keeps it. */
  function KeyText(k: Json): string {
    if k.Str? then k.s else ToStr(k)
  }

  /** The request a gateway step sent, as a list of zero or one. */
  function SentBy(step: Api.Step): (r: seq<Api.Outgoing>)
    ensures |r| <= 1
  {
    if step.sent.Some? then [step.sent.value] else []
  }

  // ------------------------------------------------------------ listeners

  /** `addListener`: appended at the end. */
  function AddListener(s: Session, l: Listener): (r: Session)
    ensures r.listeners == s.listeners + [l]
    ensures r.user == s.user && r.isAuthenticated == s.isAuthenticated
  {
    s.(listeners := s.listeners + [l])
  }

  /** `listeners.filter(x => x !== l)`. */
  function Without(ls: seq<Listener>, l: Listener): (r: seq<Listener>)
    ensures forall x :: x in r <==> x in ls && x != l
  {
    if ls == [] then []
    else
      var rest := Without(ls[1..], l);
      if ls[0] == l then rest else [ls[0]] + rest
  }

  /** Every other listener keeps its number of registrations. */
  lemma {:induction false} WithoutKeepsCounts(ls: seq<Listener>, l: Listener)
    ensures forall x :: x != l ==> multiset(Without(ls, l))[x] == multiset(ls)[x]
    ensures |Without(ls, l)| == |ls| - multiset(ls)[l]
  {
    if ls != [] {
      WithoutKeepsCounts(ls[1..], l);
      assert ls == [ls[0]] + ls[1..];
    }
  }

  /** Removing keeps the others in their order: it distributes over concatenation. */
  lemma {:induction false} WithoutDistributes(a: seq<Listener>, b: seq<Listener>, l: Listener)
    ensures Without(a + b, l) == Without(a, l) + Without(b, l)
  {
    if a != [] {
      WithoutDistributes(a[1..], b, l);
      assert (a + b)[1..] == a[1..] + b;
    } else {
      assert a + b == b;
    }
  }

  /** `removeListener`: every registration of `l` goes, the rest keep their order. */
  function RemoveListener(s: Session, l: Listener): (r: Session)
    ensures l !in r.listeners
    ensures forall x :: x != l ==> multiset(r.listeners)[x] == multiset(s.listeners)[x]
    // The survivors keep their order: removal is the order-preserving filter.
    ensures r.listeners == Without(s.listeners, l)
    ensures r.user == s.user && r.isAuthenticated == s.isAuthenticated
  {
    WithoutKeepsCounts(s.listeners, l);
    s.(listeners := Without(s.listeners, l))
  }

  /** Adding a new listener and removing it again restores the list. */
  lemma AddThenRemove(s: Session, l: Listener)
    requires l !in s.listeners
    ensures RemoveListener(AddListener(s, l), l) == s
  {
    WithoutDistributes(s.listeners, [l], l);
    WithoutAbsent(s.listeners, l);
  }

  lemma {:induction false} WithoutAbsent(ls: seq<Listener>, l: Listener)
    requires l !in ls
    ensures Without(ls, l) == ls
  {
    if ls != [] {
      WithoutAbsent(ls[1..], l);
      assert ls == [ls[0]] + ls[1..];
    }
  }

  /** `notifyListeners`: every current listener once, in order, with the state. */
  function Notify(s: Session): (r: seq<Notice>)
    ensures |r| == |s.listeners|
    ensures forall i :: 0 <= i < |r| ==> r[i] == Notice(s.listeners[i], s.user, s.isAuthenticated)
  {
    NotifyAll(s.listeners, s.user, s.isAuthenticated)
  }

  function NotifyAll(ls: seq<Listener>, user: Json, isAuthenticated: bool): (r: seq<Notice>)
    ensures |r| == |ls|
    ensures forall i :: 0 <= i < |r| ==> r[i] == Notice(ls[i], user, isAuthenticated)
  {
    if ls == [] then [] else [Notice(ls[0], user, isAuthenticated)] + NotifyAll(ls[1..], user, isAuthenticated)
  }

  /** Signed out: no user, not authenticated. */
  predicate Anonymous(s: Session) {
    s.user == Null && !s.isAuthenticated
  }

  // ----------------------------------------------------------- transitions

  /** The session after a successful sign-in with `response`. */
  function SignedIn(s: Session, response: Json): Session {
    s.(user := Prop(response, "user"), isAuthenticated := true)
  }

  function SignedOut(s: Session): (r: Session)
    ensures Anonymous(r) && r.listeners == s.listeners
  {
    s.(user := Null, isAuthenticated := false)
  }

  /** The reply carries a usable key: `response.api_key` is a non-empty string. */
  predicate IssuedKey(step: Api.Step) {
    step.result.Ok? && !Nullish(step.result.value) && Truthy(Prop(step.result.value, "api_key"))
    && Prop(step.result.value, "api_key").Str?
  }

  /** `login(email)`. */
  function Login(w: World, email: string, now: int, reply: Api.Reply): (t: Transition<Json>)
    ensures var step := Api.Post(w.gateway, "/auth/login", Obj(map["email" := Str(email)]), now, reply);
            && t.sent == SentBy(step)
            && (t.result.Ok? <==> IssuedKey(step))
            // A key in the reply: installed, the user stored, one notification round.
            && (IssuedKey(step) ==>
                  && t.result == step.result
                  && t.after.gateway == Api.SetApiKey(step.after, Some(Prop(step.result.value, "api_key").s))
                  && t.after.session == SignedIn(w.session, step.result.value))
            // No key, or a failed request: signed out, the key cleared, one round,
            // and the original message (or the fallback when it is empty).
            && (!IssuedKey(step) ==>
                  && t.after.session == SignedOut(w.session)
                  && t.after.gateway == Api.SetApiKey(step.after, None)
                  && t.result.message != ""
                  && (step.result.Err? ==> t.result.message == MessageOr(step.result.message, LoginFallback))
                  // A reply without a key is refused with its own message; one
                  // whose key is not text fails on `substring`; a null reply
                  // fails on reading `api_key`.
                  && (step.result.Ok? && !Nullish(step.result.value) && !Truthy(Prop(step.result.value, "api_key")) ==>
                        t.result == Err(MissingKeyMessage))
                  && (step.result.Ok? && !Nullish(step.result.value) && Truthy(Prop(step.result.value, "api_key")) ==>
                        t.result == Err(KeyNotTextMessage))
                  && (step.result.Ok? && Nullish(step.result.value) ==>
                        t.result == Err(NullReadMessage(step.result.value, "api_key"))))
            && t.notices == Notify(t.after.session)
            && t.after.session.listeners == w.session.listeners
  {
    var step := Api.Post(w.gateway, "/auth/login", Obj(map["email" := Str(email)]), now, reply);
    var failure :=
      match step.result
      case Err(m) => Some(m)
      case Ok(response) =>
        match Read(response, "api_key")
        case Err(m) => Some(m)
        case Ok(key) =>
          if !Truthy(key) then Some(MissingKeyMessage)
          else if !key.Str? then Some(KeyNotTextMessage)
          else None;
    if failure.None? then
      var response := step.result.value;
      var s := SignedIn(w.session, response);
      Transition(World(s, Api.SetApiKey(step.after, Some(Prop(response, "api_key").s))), SentBy(step), Notify(s), Ok(response))
    else
      var s := SignedOut(w.session);
      Transition(World(s, Api.SetApiKey(step.after, None)), SentBy(step), Notify(s), Err(MessageOr(failure.value, LoginFallback)))
  }

  /** `register(userData)`. */
  function Register(w: World, userData: Json, now: int, reply: Api.Reply): (t: Transition<Json>)
    ensures var step := Api.Post(w.gateway, "/auth/register", userData, now, reply);
            && t.sent == SentBy(step)
            // A failed request: rethrown, no state change beyond the gateway's own, no notification.
            && (step.result.Err? ==>
                  && t.result == Err(MessageOr(step.result.message, RegisterFallback))
                  && t.after == World(w.session, step.after) && t.notices == [])
            // A key in the reply: the same outcome as a successful login.
            && (step.result.Ok? && !Nullish(step.result.value) && Truthy(Prop(step.result.value, "api_key")) ==>
                  && t.result == step.result
                  && t.after.session == SignedIn(w.session, step.result.value)
                  && t.after.gateway == Api.SetApiKey(step.after, Some(KeyText(Prop(step.result.value, "api_key"))))
                  && t.notices == Notify(t.after.session))
            // A reply without a key: returned as it is, nothing else changes.
            && (step.result.Ok? && !Nullish(step.result.value) && !Truthy(Prop(step.result.value, "api_key")) ==>
                  t == Transition(World(w.session, step.after), SentBy(step), [], step.result))
            // A null reply: reading `api_key` throws, and the error is rethrown
            // with no state change and no notification.
            && (step.result.Ok? && Nullish(step.result.value) ==>
                  t == Transition(World(w.session, step.after), SentBy(step), [],
                                  Err(MessageOr(NullReadMessage(step.result.value, "api_key"), RegisterFallback))))
  {
    var step := Api.Post(w.gateway, "/auth/register", userData, now, reply);
    match step.result
    case Err(m) => Transition(World(w.session, step.after), SentBy(step), [], Err(MessageOr(m, RegisterFallback)))
    case Ok(response) =>
      match Read(response, "api_key")
      case Err(m) => Transition(World(w.session, step.after), SentBy(step), [], Err(MessageOr(m, RegisterFallback)))
      case Ok(key) =>
        if Truthy(key) then
          var s := SignedIn(w.session, response);
          Transition(World(s, Api.SetApiKey(step.after, Some(KeyText(key)))), SentBy(step), Notify(s), Ok(response))
        else
          Transition(World(w.session, step.after), SentBy(step), [], Ok(response))
  }

  /** `logout()`: whatever the server answers, the session ends locally. */
  function Logout(w: World, now: int, reply: Api.Reply): (t: Transition<Json>)
    ensures t.result == Ok(Undefined)
    ensures Anonymous(t.after.session) && t.after.session.listeners == w.session.listeners
    ensures t.after.gateway.apiKey == None && t.after.gateway.stored == None
    ensures !Api.HasValidApiKey(t.after.gateway)
    ensures t.notices == Notify(t.after.session)
    ensures |t.sent| == 1 && t.sent[0].url == w.gateway.baseUrl + "/auth/logout"
  {
    var step := Api.Post(w.gateway, "/auth/logout", Obj(map[]), now, reply);
    var s := SignedOut(w.session);
    Transition(World(s, Api.SetApiKey(step.after, None)), SentBy(step), Notify(s), Ok(Undefined))
  }

  /** The identity endpoint is missing: the message names a 404. */
  predicate NotFound(message: string) {
    message != "" && (Text.Contains(message, "404") || Text.Contains(message, "Not Found"))
  }

  /** `getCurrentUser()`. */
  function GetCurrentUser(w: World, now: int, reply: Api.Reply): (t: Transition<Json>)
    // A cached user is returned with no request.
    ensures Truthy(w.session.user) ==> t == Transition(w, [], [], Ok(w.session.user))
    ensures !Truthy(w.session.user) ==>
              var step := Api.Get(w.gateway, "/auth/me", [], now, reply);
              && t.sent == SentBy(step)
              // The key is never touched here, only by the gateway itself.
              && t.after.gateway == step.after
              // `response.user`: stored, authenticated, one notification round.
              && (step.result.Ok? && Truthy(step.result.value) && Truthy(Prop(step.result.value, "user")) ==>
                    && t.result == Ok(Prop(step.result.value, "user"))
                    && t.after.session == w.session.(user := Prop(step.result.value, "user"), isAuthenticated := true)
                    && t.notices == Notify(t.after.session))
              // A reply without a user: signed out, notified once, rejected.
              && (step.result.Ok? && !(Truthy(step.result.value) && Truthy(Prop(step.result.value, "user"))) ==>
                    && t.result == Err(MissingUserMessage)
                    && t.after.session == SignedOut(w.session)
                    && t.notices == Notify(t.after.session))
              // A 404: the current user (possibly null) and no state change.
              && (step.result.Err? && NotFound(step.result.message) ==>
                    t.result == Ok(w.session.user) && t.after.session == w.session && t.notices == [])
              // Any other failure: signed out, notified once, rejected.
              && (step.result.Err? && !NotFound(step.result.message) ==>
                    && t.result == Err(MessageOr(step.result.message, CurrentUserFallback))
                    && t.after.session == SignedOut(w.session)
                    && t.notices == Notify(t.after.session))
    ensures t.after.session.listeners == w.session.listeners
  {
    if Truthy(w.session.user) then
      Transition(w, [], [], Ok(w.session.user))
    else
      var step := Api.Get(w.gateway, "/auth/me", [], now, reply);
      match step.result
      case Ok(response) =>
        if Truthy(response) && Truthy(Prop(response, "user")) then
          var s := w.session.(user := Prop(response, "user"), isAuthenticated := true);
          Transition(World(s, step.after), SentBy(step), Notify(s), Ok(Prop(response, "user")))
        else
          MissingUserIsNotNotFound();
          CurrentUserFailed(w.session, step, MissingUserMessage)
      case Err(m) => CurrentUserFailed(w.session, step, m)
  }

  /** The message for a reply without a user is not taken for a 404. */
  lemma MissingUserIsNotNotFound()
    ensures !NotFound(MissingUserMessage)
  {
    MissingUserLacks();
    LacksMarkers(MissingUserMessage);
  }

  lemma MissingUserLacks()
    ensures Text.NoChar(MissingUserMessage, '4') && Text.NoChar(MissingUserMessage, 'F')
  {
    var a, b, c := "No se pudo ", "obtener la información ", "del usuario";
    MissingUserPieces(a, b, c);
    PiecesLack(a, b, c);
    Text.NoCharInConcat(a, b, c, '4');
    Text.NoCharInConcat(a, b, c, 'F');
  }

  lemma MissingUserPieces(a: string, b: string, c: string)
    requires a == "No se pudo " && b == "obtener la información " && c == "del usuario"
    ensures MissingUserMessage == a + b + c
  {
  }

  lemma PiecesLack(a: string, b: string, c: string)
    requires a == "No se pudo " && b == "obtener la información " && c == "del usuario"
    ensures Text.NoChar(a, '4') && Text.NoChar(b, '4') && Text.NoChar(c, '4')
    ensures Text.NoChar(a, 'F') && Text.NoChar(b, 'F') && Text.NoChar(c, 'F')
  {
  }

  /** A message with neither a `4` nor an `F` names no 404. */
  lemma LacksMarkers(m: string)
    requires Text.NoChar(m, '4') && Text.NoChar(m, 'F')
    ensures !NotFound(m)
  {
    Text.AbsentCharBlocks(m, "404", 0);
    Text.AbsentCharBlocks(m, "Not Found", 4);
  }

  /** The `catch` of `getCurrentUser`. */
  function CurrentUserFailed(s: Session, step: Api.Step, message: string): (t: Transition<Json>)
    ensures NotFound(message) ==> t == Transition(World(s, step.after), SentBy(step), [], Ok(s.user))
    ensures !NotFound(message) ==>
              && t.result == Err(MessageOr(message, CurrentUserFallback))
              && t.after == World(SignedOut(s), step.after)
              && t.notices == Notify(SignedOut(s)) && t.sent == SentBy(step)
  {
    if NotFound(message) then
      Transition(World(s, step.after), SentBy(step), [], Ok(s.user))
    else
      Transition(World(SignedOut(s), step.after), SentBy(step), Notify(SignedOut(s)), Err(MessageOr(message, CurrentUserFallback)))
  }

  /** `checkAuth()`: never rejects. */
  function CheckAuth(w: World, now: int, reply: Api.Reply): (t: Transition<bool>)
    ensures t.result.Ok?
    // Signed in locally: true with no request.
    ensures Truthy(w.session.user) && w.session.isAuthenticated ==> t == Transition(w, [], [], Ok(true))
    // Otherwise: true exactly when `getCurrentUser` resolves (the 404 path included).
    ensures !(Truthy(w.session.user) && w.session.isAuthenticated) ==>
              var u := GetCurrentUser(w, now, reply);
              && t.sent == u.sent
              && t.after.gateway == u.after.gateway
              && (t.result.value <==> u.result.Ok?)
              && (u.result.Ok? ==> t.after == u.after && t.notices == u.notices)
              // On failure the session is signed out and listeners hear of it
              // twice: once from `getCurrentUser`, once more here.
              && (u.result.Err? ==>
                    && Anonymous(t.after.session)
                    && t.notices == u.notices + Notify(t.after.session)
                    && |t.notices| == 2 * |w.session.listeners|)
  {
    if Truthy(w.session.user) && w.session.isAuthenticated then
      Transition(w, [], [], Ok(true))
    else
      var u := GetCurrentUser(w, now, reply);
      if u.result.Ok? then
        Transition(u.after, u.sent, u.notices, Ok(true))
      else
        var s := SignedOut(u.after.session);
        Transition(World(s, u.after.gateway), u.sent, u.notices + Notify(s), Ok(false))
  }

  /** `refreshApiKey()`: only the key changes, and only when one is issued. */
  function RefreshApiKey(w: World, now: int, reply: Api.Reply): (t: Transition<Json>)
    ensures t.after.session == w.session && t.notices == []
    ensures var step := Api.Post(w.gateway, "/auth/refresh-api-key", Obj(map[]), now, reply);
            && t.sent == SentBy(step)
            && (step.result.Err? ==> t.result == Err(MessageOr(step.result.message, RefreshFallback)) && t.after.gateway == step.after)
            && (step.result.Ok? && !Nullish(step.result.value) ==> t.result == step.result)
            // A null reply: reading `api_key` throws and the error is rethrown.
            && (step.result.Ok? && Nullish(step.result.value) ==>
                  t.result == Err(MessageOr(NullReadMessage(step.result.value, "api_key"), RefreshFallback)))
            && (step.result.Ok? && !Nullish(step.result.value) && Truthy(Prop(step.result.value, "api_key")) ==>
                  t.after.gateway == Api.SetApiKey(step.after, Some(KeyText(Prop(step.result.value, "api_key")))))
            && (!(step.result.Ok? && !Nullish(step.result.value) && Truthy(Prop(step.result.value, "api_key"))) ==>
                  t.after.gateway == step.after)
  {
    var step := Api.Post(w.gateway, "/auth/refresh-api-key", Obj(map[]), now, reply);
    match step.result
    case Err(m) => Transition(World(w.session, step.after), SentBy(step), [], Err(MessageOr(m, RefreshFallback)))
    case Ok(response) =>
      match Read(response, "api_key")
      case Err(m) => Transition(World(w.session, step.after), SentBy(step), [], Err(MessageOr(m, RefreshFallback)))
      case Ok(key) =>
        var g := if Truthy(key) then Api.SetApiKey(step.after, Some(KeyText(key))) else step.after;
        Transition(World(w.session, g), SentBy(step), [], Ok(response))
  }

  // ------------------------------------------------- across several calls

  /** The reply of a successful sign-in that issues `key` for `user`. */
  function Issued(key: string, user: Json): Api.Reply {
    Api.Response(200, None, Api.Parsed(Obj(map["api_key" := Str(key), "user" := user])))
  }

  /** A sign-in answered with a key: the key is installed and persisted (a
      restarted gateway loads it back), the user is stored and authenticated,
      every listener hears of it exactly once, and the next request carries the
      key. */
  lemma {:induction false} LoginInstallsIssuedKey(w: World, email: string, now: int, key: string, user: Json,
                                                  next: Api.Verb, endpoint: string, body: Option<Json>, later: int, reply: Api.Reply)
    requires Api.Loadable(Some(key))
    ensures var t := Login(w, email, now, Issued(key, user));
            && t.result.Ok?
            && t.after.gateway.apiKey == Some(key)
            && Api.Init(t.after.gateway.baseUrl, t.after.gateway.stored).apiKey == Some(key)
            && t.after.session.user == user && t.after.session.isAuthenticated
            && |t.notices| == |w.session.listeners|
            && (forall i :: 0 <= i < |t.notices| ==> t.notices[i] == Notice(w.session.listeners[i], user, true))
            && var second := Api.Request(t.after.gateway, next, endpoint, body, later, reply);
               second.sent.Some? ==> second.sent.value.headers["X-API-KEY"] == key
  {
    var data := Obj(map["api_key" := Str(key), "user" := user]);
    var step := Api.Post(w.gateway, "/auth/login", Obj(map["email" := Str(email)]), now, Issued(key, user));
    assert step.result == Ok(data);
    assert Prop(data, "api_key") == Str(key) && Prop(data, "user") == user;
    assert IssuedKey(step);
  }

  /** Signing out after any sign-in attempt leaves nobody signed in and no key
      behind, in memory or in storage. */
  lemma {:induction false} LogoutAfterLogin(w: World, email: string, now: int, reply: Api.Reply, later: int, logoutReply: Api.Reply)
    ensures var t := Logout(Login(w, email, now, reply).after, later, logoutReply);
            && Anonymous(t.after.session)
            && t.after.session.listeners == w.session.listeners
            && Api.Init(t.after.gateway.baseUrl, t.after.gateway.stored).apiKey == None
  {
  }

  /** `checkAuth` can answer true for a session that is not authenticated:
      when the identity endpoint answers 404 and nobody is signed in, the
      404 path of `getCurrentUser` resolves with `null`. */
  lemma {:induction false} CheckAuthTrustsMissingEndpoint(w: World, now: int, body: Api.Body)
    requires w.session.user == Null && !w.session.isAuthenticated
    requires !Api.CacheHit(w.gateway, Api.GET, "/auth/me", now)
    ensures var t := CheckAuth(w, now, Api.Response(404, None, Api.Parsed(Obj(map["message" := Str("Not Found")]))));
            && t.result == Ok(true)
            && t.after.session == w.session
            && !t.after.session.isAuthenticated
            && t.notices == []
  {
    var reply := Api.Response(404, None, Api.Parsed(Obj(map["message" := Str("Not Found")])));
    var step := Api.Get(w.gateway, "/auth/me", [], now, reply);
    assert Api.WithQuery("/auth/me", []) == "/auth/me";
    assert step.result == Err("Not Found");
    Text.ContainsSlice("Not Found", 0, 9);
    assert "Not Found"[0..9] == "Not Found";
    assert NotFound("Not Found");
  }

  /** After `checkAuth` answers false the session is signed out; after it
      answers true either the session is authenticated or nobody was signed in
      and the identity endpoint was reported missing. */
  lemma {:induction false} CheckAuthOutcome(w: World, now: int, reply: Api.Reply)
    ensures var t := CheckAuth(w, now, reply);
            && (!t.result.value ==> Anonymous(t.after.session))
            && (t.result.value ==> t.after.session.isAuthenticated || t.after.session == w.session)
  {
  }
}

=== FILE: form_encoding.dfy ===
/** The `application/x-www-form-urlencoded` serializer of the WHATWG URL
    Standard (section 5.2), which `URLSearchParams.prototype.toString` runs:
    each name and value is UTF-8 encoded, ASCII letters, digits and `*-._`
    are kept, a space becomes `+`, every other byte becomes `%XY` with
    upper-case hex digits, and the pairs are written `name=value` joined by `&`.
 */
module FormEncoding {
  import Text
  import opened Wrappers

  /** Characters the serializer writes unchanged. */
  predicate Unreserved(c: char) {
    || ('a' <= c <= 'z') || ('A' <= c <= 'Z') || ('0' <= c <= '9')
    || c == '*' || c == '-' || c == '.' || c == '_'
  }

  predicate IsHexDigit(c: char) {
    ('0' <= c <= '9') || ('A' <= c <= 'F')
  }

  /** Characters that can appear in an encoded name or value. */
  predicate EncodedChar(c: char) {
    Unreserved(c) || IsHexDigit(c) || c == '+' || c == '%'
  }

  predicate AllEncoded(s: string) {
    forall i :: 0 <= i < |s| ==> EncodedChar(s[i])
  }

  /** The UTF-8 encoding of one code point, as byte values. */
  function Utf8(c: char): (bytes: seq<int>)
    ensures 1 <= |bytes| <= 4
    ensures forall i :: 0 <= i < |bytes| ==> 0 <= bytes[i] < 256
  {
    var n := c as int;
    var n6, n12 := n / 64, n / 64 / 64;
    if n < 0x80 then [n]
    else if n < 0x800 then [0xC0 + n6, 0x80 + n % 64]
    else if n < 0x1_0000 then [0xE0 + n12, 0x80 + n6 % 64, 0x80 + n % 64]
    else [0xF0 + n12 / 64, 0x80 + n12 % 64, 0x80 + n6 % 64, 0x80 + n % 64]
  }

  function HexDigit(d: int): (c: char)
    requires 0 <= d < 16
    ensures IsHexDigit(c)
  {
    "0123456789ABCDEF"[d]
  }

  /** `%XY` for every byte. */
  function PercentBytes(bytes: seq<int>): (r: string)
    requires forall i :: 0 <= i < |bytes| ==> 0 <= bytes[i] < 256
    ensures |r| == 3 * |bytes|
    ensures AllEncoded(r)
  {
    if bytes == [] then []
    else ['%', HexDigit(bytes[0] / 16), HexDigit(bytes[0] % 16)] + PercentBytes(bytes[1..])
  }

  function EncodeChar(c: char): (r: string)
    ensures AllEncoded(r) && |r| >= 1
  {
    if c == ' ' then "+"
    else if Unreserved(c) then [c]
    else PercentBytes(Utf8(c))
  }

  /** The encoding of one name or one value. */
  function Encode(s: string): (r: string)
    ensures AllEncoded(r)
    ensures |r| >= |s|
  {
    if s == [] then [] else EncodeChar(s[0]) + Encode(s[1..])
  }

  /** One `name=value` pair per entry, joined by `&`. */
  function Serialize(pairs: seq<(string, string)>): (r: string)
    ensures pairs == [] <==> r == ""
  {
    if |pairs| == 0 then ""
    else
      var head := Encode(pairs[0].0) + "=" + Encode(pairs[0].1);
      if |pairs| == 1 then head else head + "&" + Serialize(pairs[1..])
  }

  /** One pair is written `name=value`. */
  lemma SerializeOne(name: string, value: string)
    ensures Serialize([(name, value)]) == Encode(name) + "=" + Encode(value)
  {
  }

  /** Further pairs follow the first after a `&`. */
  lemma SerializeCons(name: string, value: string, rest: seq<(string, string)>)
    requires rest != []
    ensures Serialize([(name, value)] + rest) == Encode(name) + "=" + Encode(value) + "&" + Serialize(rest)
  {
    assert ([(name, value)] + rest)[1..] == rest;
  }

  predicate AllUnreserved(s: string) {
    forall i :: 0 <= i < |s| ==> Unreserved(s[i])
  }

  /** Text made only of unreserved characters is written as it is. */
  lemma {:induction false} EncodeKeepsUnreserved(s: string)
    requires AllUnreserved(s)
    ensures Encode(s) == s
  {
    if s != [] {
      EncodeKeepsUnreserved(s[1..]);
      assert s == [s[0]] + s[1..];
    }
  }

  /** A decimal numeral, as `String(n)` writes it, needs no escaping. */
  lemma NumeralEncodesAsItself(i: int)
    ensures Encode(Text.IntToString(i)) == Text.IntToString(i)
  {
    var r := Text.IntToString(i);
    assert AllUnreserved(r) by {
      forall k | 0 <= k < |r| ensures Unreserved(r[k]) {
        if i < 0 && k > 0 {
          assert r[k] == r[1..][k - 1];
        }
      }
    }
    EncodeKeepsUnreserved(r);
  }

  /* The parser's side of the same format (section 5.1 of the URL
     Standard), as a reference inverse: `+` is a space, `%XY` escapes are
     bytes, and the bytes are read back as UTF-8. It answers `None` where
     the input is not something the serializer could have written. */

  function HexValue(c: char): (d: int)
    requires IsHexDigit(c)
    ensures 0 <= d < 16
  {
    if '0' <= c <= '9' then c as int - '0' as int else c as int - 'A' as int + 10
  }

  /** An escape `%XY` starts at `i`. */
  predicate EscapeAt(s: string, i: nat) {
    i + 3 <= |s| && s[i] == '%' && IsHexDigit(s[i + 1]) && IsHexDigit(s[i + 2])
  }

  /** The byte the escape at `i` stands for. */
  function ByteAt(s: string, i: nat): (b: int)
    requires EscapeAt(s, i)
    ensures 0 <= b < 256
  {
    16 * HexValue(s[i + 1]) + HexValue(s[i + 2])
  }

  /** How many bytes a UTF-8 sequence with this first byte has. */
  function SequenceLength(lead: int): (k: nat)
    ensures 1 <= k <= 4
  {
    if lead < 0x80 then 1 else if lead < 0xE0 then 2 else if lead < 0xF0 then 3 else 4
  }

  /** The six payload bits of the `j`-th byte of the sequence, when that byte
      is escaped and is a continuation byte. */
  function Continuation(s: string, j: nat): (r: Option<int>)
    ensures r.Some? ==> 0 <= r.value < 64
  {
    if EscapeAt(s, 3 * j) && 0x80 <= ByteAt(s, 3 * j) < 0xC0 then Some(ByteAt(s, 3 * j) - 0x80) else None
  }

  /** The code point a first byte and the payloads of the `k - 1`
      continuation bytes after it stand for. */
  function CodePoint(lead: int, k: nat, c1: Option<int>, c2: Option<int>, c3: Option<int>): Option<int> {
    if k == 1 then Some(lead)
    else if k == 2 then (if c1.Some? then Some((lead - 0xC0) * 64 + c1.value) else None)
    else if k == 3 then (if c1.Some? && c2.Some? then Some(((lead - 0xE0) * 64 + c1.value) * 64 + c2.value) else None)
    else if c1.Some? && c2.Some? && c3.Some? then Some((((lead - 0xF0) * 64 + c1.value) * 64 + c2.value) * 64 + c3.value)
    else None
  }

  /** The code point a sequence of escapes at the head of `s` encodes, with
      the number of characters it spans. */
  function DecodeEscaped(s: string): (r: Option<(char, nat)>)
    ensures r.Some? ==> 3 <= r.value.1 <= |s|
  {
    if !EscapeAt(s, 0) then None
    else
      var lead := ByteAt(s, 0);
      var k := SequenceLength(lead);
      var n := CodePoint(lead, k, Continuation(s, 1), Continuation(s, 2), Continuation(s, 3));
      if n.Some? && (0 <= n.value < 0xD800 || 0xE000 <= n.value < 0x11_0000) && 3 * k <= |s| then
        Some((n.value as char, 3 * k))
      else None
  }

  /** The text an encoded name or value stands for. */
  function Decode(s: string): (r: Option<string>)
    decreases |s|
  {
    if s == [] then Some([])
    else
      var head :=
        if s[0] == '+' then Some((' ', 1))
        else if s[0] != '%' then Some((s[0], 1))
        else DecodeEscaped(s);
      if head.None? then None
      else
        var rest := Decode(s[head.value.1..]);
        if rest.None? then None else Some([head.value.0] + rest.value)
  }

  /** Each hex digit reads back as the value it was written for. */
  lemma HexDigitReadsBack(d: int)
    requires 0 <= d < 16
    ensures HexValue(HexDigit(d)) == d
  {
    var digits := "0123456789ABCDEF";
    assert digits[d] as int == if d < 10 then '0' as int + d else 'A' as int + d - 10;
  }

  /** Written bytes sit as escapes at every third position, each reading
      back as its byte. */
  lemma {:induction false} PercentBytesReadBack(bytes: seq<int>, rest: string, i: nat)
    requires forall j :: 0 <= j < |bytes| ==> 0 <= bytes[j] < 256
    requires i < |bytes|
    ensures EscapeAt(PercentBytes(bytes) + rest, 3 * i)
    ensures ByteAt(PercentBytes(bytes) + rest, 3 * i) == bytes[i]
  {
    var t := PercentBytes(bytes) + rest;
    if i == 0 {
      HexDigitReadsBack(bytes[0] / 16);
      HexDigitReadsBack(bytes[0] % 16);
    } else {
      PercentBytesReadBack(bytes[1..], rest, i - 1);
      var u := PercentBytes(bytes[1..]) + rest;
      assert t == PercentBytes(bytes)[..3] + u;
      assert t[3 * i..3 * i + 3] == u[3 * (i - 1)..3 * (i - 1) + 3];
    }
  }

  /** The payload of the `j`-th byte of a sequence, if it has one. */
  function Payload(bytes: seq<int>, j: nat): Option<int> {
    if j < |bytes| then Some(bytes[j] - 0x80) else None
  }

  /** The arithmetic of UTF-8: the first byte announces the length, the
      others are continuation bytes, and together they give the code point. */
  lemma Utf8Decodes(c: char)
    ensures var b := Utf8(c);
            && SequenceLength(b[0]) == |b|
            && (forall j :: 1 <= j < |b| ==> 0x80 <= b[j] < 0xC0)
            && CodePoint(b[0], |b|, Payload(b, 1), Payload(b, 2), Payload(b, 3)) == Some(c as int)
  {
    var n := c as int;
    var n6, n12 := n / 64, n / 64 / 64;
    assert n == n6 * 64 + n % 64;
    if n >= 0x800 {
      assert n6 == n12 * 64 + n6 % 64;
      if n >= 0x1_0000 {
        assert n12 == n12 / 64 * 64 + n12 % 64;
      }
    }
  }

  /** The UTF-8 bytes of a character decode to that character. */
  lemma Utf8ReadsBack(c: char, rest: string)
    ensures var e := PercentBytes(Utf8(c));
            DecodeEscaped(e + rest) == Some((c, |e|))
  {
    var b := Utf8(c);
    var t := PercentBytes(b) + rest;
    forall i | 0 <= i < |b| ensures EscapeAt(t, 3 * i) && ByteAt(t, 3 * i) == b[i] {
      PercentBytesReadBack(b, rest, i);
    }
    Utf8Decodes(c);
    var k := |b|;
    var p1, p2, p3 := Continuation(t, 1), Continuation(t, 2), Continuation(t, 3);
    assert 1 < k ==> p1 == Payload(b, 1);
    assert 2 < k ==> p2 == Payload(b, 2);
    assert 3 < k ==> p3 == Payload(b, 3);
    assert CodePoint(b[0], k, p1, p2, p3) == CodePoint(b[0], k, Payload(b, 1), Payload(b, 2), Payload(b, 3));
  }

  /** Decoding what was encoded gives the text back. */
  lemma {:induction false} DecodeEncode(s: string)
    ensures Decode(Encode(s)) == Some(s)
  {
    if s != [] {
      DecodeEncode(s[1..]);
      var head, rest := EncodeChar(s[0]), Encode(s[1..]);
      var t := head + rest;
      assert Encode(s) == t;
      if s[0] == ' ' || Unreserved(s[0]) {
        assert t[1..] == rest;
      } else {
        Utf8ReadsBack(s[0], rest);
        assert t[0] == '%' && t[|head|..] == rest;
      }
      assert s == [s[0]] + s[1..];
    }
  }
}

=== FILE: forms.dfy ===
/** The bookkeeping the form components share: the `errors` object (one
    message per invalid field) and the `isValid` object (one flag per field
    validated so far), and how one field's verdict is recorded in them.
 */
module Forms {

  /** A validator's verdict on one field. */
  datatype Verdict = Valid | Invalid(message: string)

  /** A form's `errors` and `isValid` objects. */
  datatype FieldState = FieldState(errors: map<string, string>, valid: map<string, bool>)

  /** `useState({})` for both objects. */
  const Fresh: FieldState := FieldState(map[], map[])

  /** The messages both the restaurant form and the registration form give for a name. */
  const NameRequired: string := "El nombre es requerido"
  const NameTooShort: string := "El nombre debe tener al menos 2 caracteres"

  /** `isValid[field]` is `true`. */
  predicate IsTrue(s: FieldState, field: string) {
    field in s.valid && s.valid[field]
  }

  /** `isValid[field] === false`: the field was validated and failed. */
  predicate IsFalse(s: FieldState, field: string) {
    field in s.valid && !s.valid[field]
  }

  /** Every validated field has an error exactly when its flag is false, and
      only validated fields have errors. */
  predicate Consistent(s: FieldState) {
    && (forall f :: f in s.errors ==> f in s.valid)
    && (forall f :: f in s.valid ==> (f in s.errors <==> !s.valid[f]))
  }

  /** One branch of a `validateField` switch: the field's error is set or
      deleted, its flag is set, and every other entry is kept. */
  function Record(s: FieldState, field: string, v: Verdict): (r: FieldState)
    ensures field in r.valid && (r.valid[field] <==> v.Valid?)
    ensures field in r.errors <==> v.Invalid?
    ensures v.Invalid? ==> r.errors[field] == v.message
    ensures forall f :: f != field ==> (f in r.errors <==> f in s.errors) && (f in s.errors ==> r.errors[f] == s.errors[f])
    ensures forall f :: f != field ==> (f in r.valid <==> f in s.valid) && (f in s.valid ==> r.valid[f] == s.valid[f])
  {
    FieldState(
      if v.Valid? then s.errors - {field} else s.errors[field := v.message],
      s.valid[field := v.Valid?])
  }

  /** Recording a verdict keeps errors and flags in agreement. */
  lemma RecordKeepsConsistent(s: FieldState, field: string, v: Verdict)
    requires Consistent(s)
    ensures Consistent(Record(s, field, v))
  {
  }

  /** Recording the same field twice keeps only the second verdict. */
  lemma RecordOverwrites(s: FieldState, field: string, v: Verdict, w: Verdict)
    ensures Record(Record(s, field, v), field, w) == Record(s, field, w)
  {
    var a := Record(Record(s, field, v), field, w);
    var b := Record(s, field, w);
    assert a.errors == b.errors;
    assert a.valid == b.valid;
  }

  /** A form of two fields, both just validated: no error is left exactly
      when both verdicts are valid. */
  lemma TwoFieldsRecorded(s: FieldState, f1: string, v1: Verdict, f2: string, v2: Verdict)
    requires Consistent(s) && f1 != f2 && s.valid.Keys <= {f1, f2}
    ensures var r := Record(Record(s, f1, v1), f2, v2);
            |r.errors| == 0 <==> v1.Valid? && v2.Valid?
  {
    var r := Record(Record(s, f1, v1), f2, v2);
    if v1.Valid? && v2.Valid? {
      assert r.errors.Keys == {} by {
        forall f | f in r.errors ensures false {
        }
      }
    } else if v1.Invalid? {
      assert f1 in r.errors;
    } else {
      assert f2 in r.errors;
    }
  }

  /** Three distinct fields, each just validated: each one's flag and error
      follow its own verdict alone, whatever the state held before. */
  lemma ThreeFieldsRecorded(s: FieldState, f1: string, v1: Verdict, f2: string, v2: Verdict, f3: string, v3: Verdict)
    requires f1 != f2 && f1 != f3 && f2 != f3
    ensures var r := Record(Record(Record(s, f1, v1), f2, v2), f3, v3);
            && (IsTrue(r, f1) <==> v1.Valid?) && (f1 in r.errors <==> v1.Invalid?)
            && (IsTrue(r, f2) <==> v2.Valid?) && (f2 in r.errors <==> v2.Invalid?)
            && (IsFalse(r, f3) <==> v3.Invalid?) && (f3 in r.errors <==> v3.Invalid?)
  {
    var a := Record(s, f1, v1);
    var b := Record(a, f2, v2);
    var r := Record(b, f3, v3);
    assert f1 in b.valid && b.valid[f1] == a.valid[f1];
    assert f1 in b.errors <==> f1 in a.errors;
  }
}

=== FILE: json.dfy ===
/** JavaScript values as the modelled code sees them: the parsed JSON bodies
    the server sends, and the loosely typed objects the services pass around.
    Truthiness, `||`, property access and `String(v)` are defined once here.
 */
module Js {
  import opened Wrappers
  import Text

  /** A JavaScript value. Numbers are integers; an array may carry named
      properties besides its elements (as `response.totalItems` on an array). */
  datatype Json =
    | Undefined
    | Null
    | Bool(b: bool)
    | Num(n: int)
    | Str(s: string)
    | Arr(items: seq<Json>, props: map<string, Json>)
    | Obj(fields: map<string, Json>)

  /** A plain array literal. */
  function Array(items: seq<Json>): Json {
    Arr(items, map[])
  }

  /** An object literal with three distinct keys. */
  function Object3(k1: string, v1: Json, k2: string, v2: Json, k3: string, v3: Json): (j: Json)
    requires k1 != k2 && k1 != k3 && k2 != k3
    ensures j.Obj? && j.fields.Keys == {k1, k2, k3}
    ensures j.fields[k1] == v1 && j.fields[k2] == v2 && j.fields[k3] == v3
  {
    Obj(map[k1 := v1, k2 := v2, k3 := v3])
  }

  /** `null` or `undefined`. */
  predicate Nullish(j: Json) {
    j.Undefined? || j.Null?
  }

  /** JavaScript's ToBoolean: `undefined`, `null`, `false`, `0` and `''` are falsy. */
  predicate Truthy(j: Json) {
    match j
    case Undefined => false
    case Null => false
    case Bool(b) => b
    case Num(n) => n != 0
    case Str(s) => s != ""
    case Arr(_, _) => true
    case Obj(_) => true
  }

  /** `a || b`: the first operand when it is truthy, the second otherwise. */
  function Or(a: Json, b: Json): Json {
    if Truthy(a) then a else b
  }

  /** `j?.[key]`: an own property, or `undefined` when there is none. */
  function Prop(j: Json, key: string): Json {
    match j
    case Obj(fields) => if key in fields then fields[key] else Undefined
    case Arr(_, props) => if key in props then props[key] else Undefined
    case _ => Undefined
  }

  /** The message of the `TypeError` that reading a property of `null` or
      `undefined` throws. */
  function NullReadMessage(j: Json, key: string): string {
    "Cannot read properties of " + (if j.Null? then "null" else "undefined") + " (reading '" + key + "')"
  }

  /** `new Error(message || fallback)`: the message, or the fallback when it is empty. */
  function MessageOr(message: string, fallback: string): (r: string)
    ensures fallback != "" ==> r != ""
    ensures message != "" ==> r == message
  {
    if message != "" then message else fallback
  }

  /** `j.key` without optional chaining: `null` and `undefined` throw. */
  function Read(j: Json, key: string): (r: Result<Json>)
    ensures r.Ok? <==> !Nullish(j)
    ensures r.Ok? ==> r.value == Prop(j, key)
  {
    if Nullish(j) then Err(NullReadMessage(j, key)) else Ok(Prop(j, key))
  }

  /** The text `Array.prototype.join` writes for one element. */
  function ItemText(j: Json): string
    decreases j, 1
  {
    if Nullish(j) then "" else ToStr(j)
  }

  /** `items.join(sep)`: every element as text, `null` and `undefined` as nothing. */
  function JoinItems(items: seq<Json>, sep: string): (r: string)
    decreases items, 2
    ensures items == [] ==> r == ""
  {
    if |items| == 0 then ""
    else if |items| == 1 then ItemText(items[0])
    else ItemText(items[0]) + sep + JoinItems(items[1..], sep)
  }

  /** `String(j)`: the text JavaScript converts a value to. */
  function ToStr(j: Json): string
    decreases j, 0
  {
    match j
    case Undefined => "undefined"
    case Null => "null"
    case Bool(b) => if b then "true" else "false"
    case Num(n) => Text.IntToString(n)
    case Str(s) => s
    case Arr(items, _) => JoinItems(items, ",")
    case Obj(_) => "[object Object]"
  }
}

=== FILE: login_form.dfy ===
/** The sign-in form of src/components/auth/Login.jsx: the two pre-checks on
    the email, the call to `login` and the error it shows.
 */
module LoginForm {
  import opened Wrappers
  import Text
  import opened Js
  import RegisterForm

  /** The form after a submit: the error shown, the address `login` received
      (if it was called), and whether the user was sent on. */
  datatype Submission = Submission(error: string, loginArgument: Option<string>, navigated: bool)

  /** `email.includes('@')`. */
  predicate HasAt(email: string) {
    exists i :: 0 <= i < |email| && email[i] == '@'
  }

  /** The pre-checks, in order: blank, then no `@`. */
  function PreCheck(email: string): (r: Option<string>)
    ensures r.Some? <==> Text.Trim(email) == "" || !HasAt(email)
    ensures Text.Trim(email) == "" ==> r == Some(RegisterForm.EmailRequired)
    ensures Text.Trim(email) != "" && !HasAt(email) ==> r == Some(RegisterForm.EmailMalformed)
  {
    if Text.Trim(email) == "" then Some(RegisterForm.EmailRequired)
    else if !HasAt(email) then Some(RegisterForm.EmailMalformed)
    else None
  }

  /** `handleSubmit`: the error is cleared first; a failed pre-check sets its
      message and `login` is not called; otherwise `login` receives the
      trimmed address and its outcome decides the error and the navigation.
      `outcome` is what `login` settles with. */
  function Submit(previousError: string, email: string, outcome: Result<Json>): (r: Submission)
    ensures PreCheck(email).Some? ==> r == Submission(PreCheck(email).value, None, false)
    ensures PreCheck(email).None? ==> r.loginArgument == Some(Text.Trim(email))
    ensures PreCheck(email).None? && outcome.Ok? ==> r.error == "" && r.navigated
    ensures PreCheck(email).None? && outcome.Err? ==> r.error == outcome.message && !r.navigated
  {
    var cleared := Submission("", None, false);
    match PreCheck(email)
    case Some(message) => cleared.(error := message)
    case None =>
      var called := cleared.(loginArgument := Some(Text.Trim(email)));
      if outcome.Ok? then called.(navigated := true) else called.(error := outcome.message)
  }

  /** Whatever error the form showed before plays no part in the next submit. */
  lemma ErrorIsClearedFirst(a: string, b: string, email: string, outcome: Result<Json>)
    ensures Submit(a, email, outcome) == Submit(b, email, outcome)
  {
  }

  /** A blank email is reported as missing even though it also lacks an `@`. */
  lemma BlankTakesPrecedence(email: string)
    requires Text.AllSpace(email)
    ensures !HasAt(email)
    ensures PreCheck(email) == Some(RegisterForm.EmailRequired)
  {
    Text.TrimEmptyIffAllSpace(email);
  }

  /** Every address the registration form accepts passes the sign-in checks,
      so `login` is called with it (trimmed, which leaves it unchanged by
      `RegisterForm.AcceptedEmailIsTrimmed`). */
  lemma RegisteredEmailSignsIn(email: string, previousError: string, outcome: Result<Json>)
    requires RegisterForm.EmailVerdict(email).Valid?
    ensures PreCheck(email).None?
    ensures Submit(previousError, email, outcome).loginArgument == Some(Text.Trim(email))
  {
    AcceptedHasAt(email);
  }

  /** An address the registration form accepts holds an `@`. */
  lemma AcceptedHasAt(email: string)
    requires RegisterForm.EmailVerdict(email).Valid?
    ensures HasAt(email)
  {
    RegisterForm.IsEmailIffPattern(email);
    assert RegisterForm.IsEmail(email);
  }

  /** The sign-in check is looser: `a@b` is sent to `login` although the
      registration form rejects it. */
  lemma LoginIsLooser()
    ensures PreCheck("a@b").None?
    ensures !RegisterForm.EmailVerdict("a@b").Valid?
  {
    var s := "a@b";
    assert s[1] == '@';
    assert Text.Trimmed(s);
    Text.TrimOfTrimmed(s);
    RegisterForm.IsEmailIffPattern(s);
  }
}

=== FILE: paging.dfy ===
/** The pagination arithmetic the list and search pages share: the number of
    pages, the previous and next buttons, and the "Mostrando a - b de n" range.
 */
module Paging {
  import opened Js
  import Restaurants

  /** `Math.ceil(n / d)` for a positive divisor. */
  function CeilDiv(n: int, d: int): (r: int)
    requires d > 0
    ensures d * (r - 1) < n <= d * r
  {
    if n % d == 0 then n / d else n / d + 1
  }

  /** No other integer fits the bounds `CeilDiv` meets: it is the least page
      count that covers `n`. */
  lemma CeilDivIsLeast(n: int, d: int, k: int)
    requires d > 0 && d * (k - 1) < n <= d * k
    ensures k == CeilDiv(n, d)
  {
    var r := CeilDiv(n, d);
    if k < r {
      Scale(d, k, r - 1);
    } else if k > r {
      Scale(d, r, k - 1);
    }
  }

  lemma Scale(d: int, a: int, b: int)
    requires d > 0 && a <= b
    ensures d * a <= d * b
  {
  }

  /** A number read with `x || 0`: a number stays, anything falsy is 0. Other
      values (non-numeric `pages` or `total`) are outside the model and read as 0. */
  function NumberOrZero(j: Json): int {
    if j.Num? then j.n else 0
  }

  /** The two numbers the pages read from `pagination`: `pages` and `total`,
      each 0 when missing or falsy. */
  datatype Counts = Counts(pages: int, total: int)

  /** `pagination?.pages` and `pagination?.total`. */
  function CountsOf(pagination: Json): (c: Counts)
    ensures !pagination.Obj? && !pagination.Arr? ==> c == Counts(0, 0)
  {
    Counts(NumberOrZero(Prop(pagination, "pages")), NumberOrZero(Prop(pagination, "total")))
  }

  /** `pagination?.pages || Math.ceil((pagination?.total || 0) / perPage)`. */
  function TotalPages(c: Counts, perPage: int): (r: int)
    requires perPage > 0
    ensures c.pages != 0 ==> r == c.pages
    ensures c.pages == 0 ==> perPage * (r - 1) < c.total <= perPage * r
    ensures c.pages == 0 && c.total <= 0 ==> r <= 0
  {
    if c.pages != 0 then c.pages else CeilDiv(c.total, perPage)
  }

  /** The previous button: `Math.max(page - 1, 1)`. */
  function Previous(page: int): (r: int)
    ensures r >= 1
    ensures page > 1 ==> r == page - 1
    ensures page <= 1 ==> r == 1
  {
    if page - 1 >= 1 then page - 1 else 1
  }

  /** The next button: `Math.min(page + 1, totalPages)`. */
  function Next(page: int, totalPages: int): (r: int)
    ensures r <= totalPages
    ensures page < totalPages ==> r == page + 1
    ensures page >= totalPages ==> r == totalPages
  {
    if page + 1 <= totalPages then page + 1 else totalPages
  }

  /** Pressing either button keeps a page that is in range in range. */
  lemma ButtonsStayInRange(page: int, totalPages: int)
    requires 1 <= page <= totalPages
    ensures 1 <= Previous(page) <= totalPages
    ensures 1 <= Next(page, totalPages) <= totalPages
  {
  }

  /** `Next` pressed `k` times. */
  function NextTimes(page: int, totalPages: int, k: nat): int {
    if k == 0 then page else Next(NextTimes(page, totalPages, k - 1), totalPages)
  }

  /** Pressing next `k` times from an in-range page advances `k` pages, but
      never past the last. */
  lemma {:induction false} NextTimesStopsAtLast(page: int, totalPages: int, k: nat)
    requires 1 <= page <= totalPages
    ensures NextTimes(page, totalPages, k) == if page + k <= totalPages then page + k else totalPages
  {
    if k > 0 {
      NextTimesStopsAtLast(page, totalPages, k - 1);
    }
  }

  /** `Previous` pressed `k` times. */
  function PreviousTimes(page: int, k: nat): int {
    if k == 0 then page else Previous(PreviousTimes(page, k - 1))
  }

  /** Pressing previous `k` times goes back `k` pages, but never before the first. */
  lemma {:induction false} PreviousTimesStopsAtFirst(page: int, k: nat)
    requires page >= 1
    ensures PreviousTimes(page, k) == if page - k >= 1 then page - k else 1
  {
    if k > 0 {
      PreviousTimesStopsAtFirst(page, k - 1);
    }
  }

  /** The first item shown: `(page - 1) * perPage + 1`. */
  function FirstShown(page: int, perPage: int): (r: int)
    ensures page >= 1 && perPage >= 1 ==> r >= 1 && r + perPage - 1 == page * perPage
    ensures page >= 1 && perPage >= 1 ==> r > (page - 1) * perPage
  {
    (page - 1) * perPage + 1
  }

  /** The last item shown: `Math.min(page * perPage, total || 0)`. */
  function LastShown(page: int, perPage: int, total: int): (r: int)
    ensures r <= page * perPage && r <= total
    ensures r == page * perPage || r == total
  {
    if page * perPage <= total then page * perPage else total
  }

  /** On any page up to the computed count, the range shown is a non-empty
      window of at most `perPage` items inside `1..total`; on every page but
      the last it is a full page. */
  lemma {:induction false} RangeIsWithinTotal(page: int, perPage: int, total: int)
    requires perPage > 0 && total > 0
    requires 1 <= page <= TotalPages(Counts(0, total), perPage)
    ensures 1 <= FirstShown(page, perPage) <= LastShown(page, perPage, total) <= total
    ensures LastShown(page, perPage, total) - FirstShown(page, perPage) + 1 <= perPage
    ensures page < TotalPages(Counts(0, total), perPage) ==>
              LastShown(page, perPage, total) - FirstShown(page, perPage) + 1 == perPage
  {
    var t := TotalPages(Counts(0, total), perPage);
    assert perPage * (t - 1) < total;
    assert (page - 1) * perPage <= (t - 1) * perPage;
    assert (page - 1) * perPage >= 0;
    if page < t {
      assert page * perPage <= (t - 1) * perPage;
    }
  }

  // ------------------------------------------- where the counts come from

  /** The counts with the listing's own `total` as the fallback for a
      pagination object that has none, which the page-count and range
      computations evidently expect to find. */
  function ListingCounts(l: Restaurants.Listing): (c: Counts)
    ensures c.pages == CountsOf(l.pagination).pages
    ensures CountsOf(l.pagination).total != 0 ==> c.total == CountsOf(l.pagination).total
    ensures CountsOf(l.pagination).total == 0 ==> c.total == NumberOrZero(l.total)
  {
    var c := CountsOf(l.pagination);
    if c.total != 0 then c else Counts(c.pages, NumberOrZero(l.total))
  }

  /** A hydra page of results with its total count. */
  function HydraPage(members: seq<Json>, n: int): Json {
    Obj(map["hydra:member" := Array(members), "hydra:totalItems" := Num(n)])
  }

  /** A hydra page is read as hydra, with `n` as the listing's total. */
  lemma HydraPageIsHydra(members: seq<Json>, n: int, pageOf: Restaurants.PageOf)
    ensures var response := HydraPage(members, n);
            && Restaurants.ShapeOf(response) == Restaurants.Hydra
            && Restaurants.Members(response) == Array(members)
            && Restaurants.FormatRestaurantList(response, pageOf).Ok?
            && (n != 0 ==> Restaurants.FormatRestaurantList(response, pageOf).value.total == Num(n))
  {
    var response := HydraPage(members, n);
    assert Prop(response, "hydra:member") == Array(members);
    assert Prop(response, "hydra:totalItems") == Num(n);
  }

  /** As written, the pages read `pagination.pages` and `pagination.total`,
      which a hydra listing never carries: the page count is 0 and the pager
      stays hidden, however many restaurants the server reports. */
  lemma HydraPagerHiddenAsWritten(members: seq<Json>, n: int, perPage: int, pageOf: Restaurants.PageOf)
    requires perPage > 0
    ensures var l := Restaurants.FormatRestaurantList(HydraPage(members, n), pageOf);
            && l.Ok?
            && TotalPages(CountsOf(l.value.pagination), perPage) == 0
  {
    HydraPageIsHydra(members, n, pageOf);
    Restaurants.UncountedPagination(HydraPage(members, n), pageOf);
  }

  /** Reading the listing's total instead, a hydra listing of `n > 0`
      restaurants gets `ceil(n / perPage)` pages: more than one exactly when
      `n` exceeds a page. */
  lemma HydraPagerFromListing(members: seq<Json>, n: int, perPage: int, pageOf: Restaurants.PageOf)
    requires perPage > 0 && n > 0
    ensures var l := Restaurants.FormatRestaurantList(HydraPage(members, n), pageOf);
            && l.Ok?
            && TotalPages(ListingCounts(l.value), perPage) == CeilDiv(n, perPage)
            && (TotalPages(ListingCounts(l.value), perPage) > 1 <==> n > perPage)
  {
    HydraPageIsHydra(members, n, pageOf);
    Restaurants.UncountedPagination(HydraPage(members, n), pageOf);
    var t := CeilDiv(n, perPage);
    if t > 1 {
      Scale(perPage, 1, t - 1);
    } else {
      Scale(perPage, t, 1);
    }
  }
}

=== FILE: register_form.dfy ===
/** The registration form of src/components/auth/Register.jsx: the email and
    name validators, the validity summary and the `userData` it submits.
 */
module RegisterForm {
  import Text
  import opened Js
  import opened Forms

  const EmailRequired: string := "El email es requerido"
  const EmailMalformed: string := "Ingresa un email válido"
  const DefaultRole: string := "ROLE_USER"

  /** The class `[^\s@]`. */
  predicate IsWordChar(c: char) {
    !Text.IsSpace(c) && c != '@'
  }

  /** `[^\s@]+` matches all of `t`. */
  predicate Word(t: string) {
    |t| >= 1 && forall i :: 0 <= i < |t| ==> IsWordChar(t[i])
  }

  /** `/^[^\s@]+@[^\s@]+\.[^\s@]+$/.test(s)`, read as the regular expression
      reads: `s` splits into a local part, `@`, a first domain part, `.` and
      a last domain part, each part a non-empty run of the class. */
  ghost predicate MatchesEmailPattern(s: string) {
    exists a, k :: 0 < a && a + 1 < k && k + 1 < |s| && s[a] == '@' && s[k] == '.'
                   && Word(s[..a]) && Word(s[a + 1..k]) && Word(s[k + 1..])
  }

  /** The same test read character by character: no white space, exactly one
      `@`, not first, and a `.` that is neither right after the `@` nor last. */
  predicate IsEmail(s: string) {
    && (forall i :: 0 <= i < |s| ==> !Text.IsSpace(s[i]))
    && exists a :: 0 < a < |s| && s[a] == '@'
                   && (forall i :: 0 <= i < |s| && i != a ==> s[i] != '@')
                   && (exists k :: a + 1 < k < |s| - 1 && s[k] == '.')
  }

  /** The two readings agree on every string. */
  lemma IsEmailIffPattern(s: string)
    ensures IsEmail(s) <==> MatchesEmailPattern(s)
  {
    if IsEmail(s) {
      EmailMatchesPattern(s);
    }
    if MatchesEmailPattern(s) {
      PatternIsEmail(s);
    }
  }

  lemma EmailMatchesPattern(s: string)
    requires IsEmail(s)
    ensures MatchesEmailPattern(s)
  {
    var a :| 0 < a < |s| && s[a] == '@' && (forall i :: 0 <= i < |s| && i != a ==> s[i] != '@')
             && (exists k :: a + 1 < k < |s| - 1 && s[k] == '.');
    var k :| a + 1 < k < |s| - 1 && s[k] == '.';
    WordSlice(s, 0, a, a);
    WordSlice(s, a + 1, k, a);
    WordSlice(s, k + 1, |s|, a);
    assert s[0..a] == s[..a] && s[k + 1..|s|] == s[k + 1..];
  }

  lemma PatternIsEmail(s: string)
    requires MatchesEmailPattern(s)
    ensures IsEmail(s)
  {
    var a, k :| 0 < a && a + 1 < k && k + 1 < |s| && s[a] == '@' && s[k] == '.'
                && Word(s[..a]) && Word(s[a + 1..k]) && Word(s[k + 1..]);
    forall i | 0 <= i < |s| && i != a ensures IsWordChar(s[i]) {
      if i < a { assert s[..a][i] == s[i]; }
      else if i < k { assert s[a + 1..k][i - a - 1] == s[i]; }
      else if i > k { assert s[k + 1..][i - k - 1] == s[i]; }
    }
  }

  /** A non-empty stretch of `s` without white space or an `@` is a word. */
  lemma WordSlice(s: string, lo: int, hi: int, at: int)
    requires 0 <= lo < hi <= |s| && (at < lo || hi <= at)
    requires forall i :: 0 <= i < |s| ==> !Text.IsSpace(s[i])
    requires forall i :: 0 <= i < |s| && i != at ==> s[i] != '@'
    ensures Word(s[lo..hi])
  {
    forall i | 0 <= i < hi - lo ensures IsWordChar(s[lo..hi][i]) {
      assert s[lo..hi][i] == s[lo + i];
    }
  }

  /** The email validator: blank after trimming, then the pattern on the
      untrimmed value. */
  function EmailVerdict(value: string): (v: Verdict)
    ensures v.Valid? <==> MatchesEmailPattern(value)
    ensures Text.Trim(value) == "" ==> v == Invalid(EmailRequired)
    ensures Text.Trim(value) != "" && !MatchesEmailPattern(value) ==> v == Invalid(EmailMalformed)
  {
    IsEmailIffPattern(value);
    if Text.Trim(value) == "" then
      BlankIsNotEmail(value);
      Invalid(EmailRequired)
    else if !IsEmail(value) then Invalid(EmailMalformed)
    else Valid
  }

  /** A string that trims to nothing holds no `@`. */
  lemma BlankIsNotEmail(s: string)
    requires Text.Trim(s) == ""
    ensures !IsEmail(s)
  {
    Text.TrimEmptyIffAllSpace(s);
  }

  /** An accepted email has no white space to trim: the address the form
      sends is the one it validated. */
  lemma AcceptedEmailIsTrimmed(value: string)
    requires EmailVerdict(value).Valid?
    ensures Text.Trim(value) == value
  {
    IsEmailIffPattern(value);
    assert Text.Trimmed(value);
    Text.TrimOfTrimmed(value);
  }

  /** White space around an otherwise valid address makes it invalid. */
  lemma SurroundingSpaceIsRejected(value: string)
    requires |value| >= 1 && Text.IsSpace(value[0])
    ensures !EmailVerdict(value).Valid?
  {
    IsEmailIffPattern(value);
  }

  /** The name validator: at least two characters after trimming, no maximum. */
  function NameVerdict(value: string): (v: Verdict)
    ensures v.Valid? <==> Text.Utf16Length(Text.Trim(value)) >= 2
    ensures Text.Trim(value) == "" ==> v == Invalid(NameRequired)
    ensures Text.Utf16Length(Text.Trim(value)) == 1 ==> v == Invalid(NameTooShort)
  {
    var t := Text.Trim(value);
    if t == "" then Invalid(NameRequired)
    else if Text.Utf16Length(t) < 2 then Invalid(NameTooShort)
    else Valid
  }

  /** `validateField(name, value)`. */
  function ValidateField(s: FieldState, name: string, value: string): (r: FieldState)
    ensures name == "email" ==> r == Record(s, "email", EmailVerdict(value))
    ensures name == "name" ==> r == Record(s, "name", NameVerdict(value))
    ensures name != "email" && name != "name" ==> r == s
  {
    if name == "email" then Record(s, "email", EmailVerdict(value))
    else if name == "name" then Record(s, "name", NameVerdict(value))
    else s
  }

  /** Validating one field leaves every other field's error and flag as they were. */
  lemma ValidateFieldTouchesOnlyItsField(s: FieldState, name: string, value: string, f: string)
    requires f != name
    ensures var r := ValidateField(s, name, value);
            && (f in r.errors <==> f in s.errors) && (f in s.errors ==> r.errors[f] == s.errors[f])
            && (f in r.valid <==> f in s.valid) && (f in s.valid ==> r.valid[f] == s.valid[f])
  {
  }

  /** `isValid.email && isValid.name && Object.keys(errors).length === 0`. */
  function IsFormValid(s: FieldState): (b: bool)
    // On a consistent state the button is enabled exactly when both fields
    // have been validated and no error at all is shown.
    ensures Consistent(s) ==> (b <==> "email" in s.valid && "name" in s.valid && s.errors == map[])
  {
    IsTrue(s, "email") && IsTrue(s, "name") && |s.errors| == 0
  }

  /** From a consistent state holding no other fields, validating both fields
      enables the button exactly when both validators accept. */
  lemma ValidatedFormIsValidIff(s: FieldState, email: string, name: string)
    requires Consistent(s) && s.valid.Keys <= {"email", "name"}
    ensures var r := ValidateField(ValidateField(s, "email", email), "name", name);
            IsFormValid(r) <==> EmailVerdict(email).Valid? && NameVerdict(name).Valid?
  {
    var e, n := EmailVerdict(email), NameVerdict(name);
    assert ValidateField(ValidateField(s, "email", email), "name", name) == Record(Record(s, "email", e), "name", n);
    TwoFieldsRecorded(s, "email", e, "name", n);
  }

  /** A stale error on a field the form does not show keeps the button
      disabled even when both fields are valid. */
  lemma ForeignErrorDisables(s: FieldState, key: string)
    requires key in s.errors && key != "email" && key != "name"
    ensures !IsFormValid(ValidateField(ValidateField(s, "email", "a@b.c"), "name", "ab"))
  {
    var m := ValidateField(s, "email", "a@b.c");
    ValidateFieldTouchesOnlyItsField(s, "email", "a@b.c", key);
    ValidateFieldTouchesOnlyItsField(m, "name", "ab", key);
  }

  /** The `userData` handed to `register`. */
  function UserData(email: string, name: string): (u: Json)
    ensures u.Obj? && u.fields.Keys == {"email", "name", "roles"}
    ensures u.fields["email"] == Str(Text.Trim(email)) && u.fields["name"] == Str(Text.Trim(name))
    ensures u.fields["roles"] == Array([Str(DefaultRole)])
  {
    Object3("email", Str(Text.Trim(email)), "name", Str(Text.Trim(name)), "roles", Array([Str(DefaultRole)]))
  }
}

=== FILE: restaurant_list.dfy ===
/** The restaurant list of src/components/restaurants/RestaurantList.jsx:
    which service call loads a page, the delete and save handlers, and its
    pagination (ten restaurants a page).
 */
module RestaurantList {
  import opened Wrappers
  import Text
  import opened Js
  import Api
  import Restaurants
  import Paging

  const PerPage: int := 10

  const DeleteFailed: string := "Error al eliminar el restaurante"
  const SaveFailed: string := "Error al guardar el restaurante"

  /** The service call `loadRestaurants` makes. */
  datatype LoadCall = SearchCall(criteria: Restaurants.Criteria) | ListCall(page: int, itemsPerPage: int)

  /** The search criteria of a free-text query on a page. */
  function QueryCriteria(query: string, page: int): Restaurants.Criteria {
    Restaurants.Criteria(Some(query), None, None, None, None, None, None, None, None, None, Some(page), Some(PerPage))
  }

  /** The search endpoint for a query that is not blank, the plain list otherwise. */
  function LoadCallFor(query: string, page: int): (c: LoadCall)
    ensures c.SearchCall? <==> Text.Trim(query) != ""
    ensures c.SearchCall? ==> c.criteria == QueryCriteria(query, page)
    ensures c.ListCall? ==> c == ListCall(page, PerPage)
  {
    if Text.Trim(query) != "" then SearchCall(QueryCriteria(query, page)) else ListCall(page, PerPage)
  }

  /** A search from the list sends the trimmed text, the page and a limit of ten. */
  lemma ListSearchQuery(query: string, page: int)
    requires Text.Trim(query) != "" && page >= 1
    ensures var m := Restaurants.SearchQuery(LoadCallFor(query, page).criteria);
            && "search" in m && m["search"] == Str(Text.Trim(query))
            && "page" in m && m["page"] == Num(page)
            && "limit" in m && m["limit"] == Num(PerPage)
  {
  }

  /** No other criterion is set: the list's search filters by the free text only. */
  lemma ListSearchSetsNothingElse(query: string, page: int)
    ensures var m := Restaurants.SearchQuery(QueryCriteria(query, page));
            && "name" !in m && "address" !in m && "phone" !in m
            && "created_from" !in m && "created_to" !in m && "updated_from" !in m && "updated_to" !in m
            && "order_by" !in m && "order_direction" !in m
  {
  }

  /** The state the handlers change. */
  datatype View = View(showModal: bool, editing: Json, deletingId: Json)

  /** What a handler leaves behind: the view, the gateway, the request sent
      (if any), whether the list is reloaded, and the error shown (if any). */
  datatype Effect = Effect(view: View, after: Api.Gateway, sent: Option<Api.Outgoing>, reloads: bool, error: Option<string>)

  /** `toast.error(error.message || fallback)` after a failed step, or a reload after a good one. */
  function Settle(v: View, step: Api.Step, fallback: string): (e: Effect)
    requires fallback != ""
    ensures e.view == v && e.after == step.after && e.sent == step.sent
    ensures e.reloads <==> step.result.Ok?
    ensures e.error.Some? <==> step.result.Err?
    ensures e.error.Some? ==> e.error.value != ""
  {
    if step.result.Ok? then Effect(v, step.after, step.sent, true, None)
    else Effect(v, step.after, step.sent, false, Some(MessageOr(step.result.message, fallback)))
  }

  /** `handleDelete(id)`: nothing while a deletion is marked in progress or
      when the user does not confirm; otherwise one delete, after which the
      mark is cleared whatever the outcome. */
  function HandleDelete(v: View, id: Json, confirmed: bool, g: Api.Gateway, now: int, reply: Api.Reply): (e: Effect)
    ensures Truthy(v.deletingId) || !confirmed ==> e == Effect(v, g, None, false, None)
    ensures !Truthy(v.deletingId) && confirmed ==>
              && e.view == v.(deletingId := Null)
              && e.sent == Some(Api.Outgoing(Api.DELETE, g.baseUrl + Restaurants.ItemPath(id), Api.SentHeaders(g, Api.DELETE), None))
  {
    if Truthy(v.deletingId) || !confirmed then Effect(v, g, None, false, None)
    else Settle(v.(deletingId := Null), Restaurants.DeleteRestaurant(g, id, now, reply), DeleteFailed)
  }

  /** While a deletion is marked, a second one is ignored; a mark of `0`,
      being falsy, does not block. */
  lemma DeleteIsNotReentrant(v: View, id: Json, g: Api.Gateway, now: int, reply: Api.Reply)
    ensures Truthy(id) ==> HandleDelete(v.(deletingId := id), id, true, g, now, reply) == Effect(v.(deletingId := id), g, None, false, None)
    ensures HandleDelete(v.(deletingId := Num(0)), id, true, g, now, reply).sent.Some?
  {
  }

  /** `handleModalSave(data)`: an update of the restaurant being edited, or a
      create; on success the modal closes, the edit target clears and the
      list reloads; on failure the view is kept. */
  function HandleModalSave(v: View, d: Restaurants.RestaurantData, g: Api.Gateway, now: int, reply: Api.Reply): (e: Effect)
    ensures var step := if Truthy(v.editing) then Restaurants.UpdateRestaurant(g, Prop(v.editing, "id"), d, now, reply)
                        else Restaurants.CreateRestaurant(g, d, now, reply);
            && e.sent == step.sent && e.after == step.after
            && (step.result.Ok? ==> e.view == v.(showModal := false, editing := Null) && e.reloads && e.error.None?)
            && (step.result.Err? ==> e.view == v && !e.reloads && e.error.Some?)
  {
    var step := if Truthy(v.editing) then Restaurants.UpdateRestaurant(g, Prop(v.editing, "id"), d, now, reply)
                else Restaurants.CreateRestaurant(g, d, now, reply);
    if step.result.Ok? then Settle(v.(showModal := false, editing := Null), step, SaveFailed)
    else Settle(v, step, SaveFailed)
  }

  /** Saving while editing sends a full update of that restaurant, and
      otherwise a create: the modal's target decides the verb. */
  lemma SaveVerbFollowsTarget(v: View, d: Restaurants.RestaurantData, g: Api.Gateway, now: int, reply: Api.Reply)
    requires Restaurants.Filled(d.name) && Restaurants.Filled(d.address)
    ensures var e := HandleModalSave(v, d, g, now, reply);
            && e.sent.Some?
            && (Truthy(v.editing) ==> e.sent.value.verb == Api.PUT && e.sent.value.url == g.baseUrl + Restaurants.ItemPath(Prop(v.editing, "id")))
            && (!Truthy(v.editing) ==> e.sent.value.verb == Api.POST && e.sent.value.url == g.baseUrl + Api.RestaurantsFamily)
  {
  }

  /** `totalPages` for the list: the `pagination` object's `pages`, or its
      `total` over ten rounded up. The list keeps only `restaurants` and
      `pagination` of the formatted listing, so the listing's own total is
      never consulted. */
  function TotalPages(pagination: Json): (r: int)
    ensures Paging.CountsOf(pagination).pages != 0 ==> r == Paging.CountsOf(pagination).pages
    ensures Paging.CountsOf(pagination).pages == 0 ==>
              PerPage * (r - 1) < Paging.CountsOf(pagination).total <= PerPage * r
  {
    Paging.TotalPages(Paging.CountsOf(pagination), PerPage)
  }
}

=== FILE: restaurant_modal.dfy ===
/** The restaurant form of src/components/restaurants/RestaurantModal.jsx:
    its three field validators, the validity summary that enables the save
    button, the payload it hands to its parent, and the close guard.
 */
module RestaurantModal {
  import opened Wrappers
  import Text
  import opened Forms
  import Restaurants
  import Api
  import Js

  const AddressRequired: string := "La dirección es requerida"
  const AddressTooShort: string := "La dirección debe tener al menos 5 caracteres"
  const AddressTooLong: string := "La dirección no puede tener más de 200 caracteres"
  const NameTooLong: string := "El nombre no puede tener más de 100 caracteres"
  const PhoneMalformed: string := "Formato de teléfono inválido"

  const MinName: int := 2
  const MaxName: int := 100
  const MinAddress: int := 5
  const MaxAddress: int := 200

  /** The example the phone input shows. */
  const PhonePlaceholder: string := "Ej: +34 123 456 789"

  /** A text field checked for blankness, then for a minimum and a maximum
      length of its trimmed value. */
  function LengthVerdict(value: string, min: int, max: int, required: string, short: string, long: string): (v: Verdict)
    requires 1 <= min <= max
    ensures v.Valid? <==> min <= Text.Utf16Length(Text.Trim(value)) <= max
    ensures Text.Trim(value) == "" ==> v == Invalid(required)
    ensures Text.Trim(value) != "" && Text.Utf16Length(Text.Trim(value)) < min ==> v == Invalid(short)
    ensures Text.Utf16Length(Text.Trim(value)) > max ==> v == Invalid(long)
  {
    var t := Text.Trim(value);
    if t == "" then Invalid(required)
    else if Text.Utf16Length(t) < min then Invalid(short)
    else if Text.Utf16Length(t) > max then Invalid(long)
    else Valid
  }

  function NameVerdict(value: string): (v: Verdict)
    ensures v.Valid? <==> MinName <= Text.Utf16Length(Text.Trim(value)) <= MaxName
  {
    LengthVerdict(value, MinName, MaxName, NameRequired, NameTooShort, NameTooLong)
  }

  function AddressVerdict(value: string): (v: Verdict)
    ensures v.Valid? <==> MinAddress <= Text.Utf16Length(Text.Trim(value)) <= MaxAddress
  {
    LengthVerdict(value, MinAddress, MaxAddress, AddressRequired, AddressTooShort, AddressTooLong)
  }

  /** Lengths are JavaScript's, in UTF-16 code units: a name made of one
      emoji is two units long and passes the two-character minimum. */
  lemma AstralNameCountsTwo()
    ensures NameVerdict("\U{1F600}").Valid?
  {
    var s := "\U{1F600}";
    Text.TrimOfTrimmed(s);
    assert Text.Utf16Length(s) == 2 + Text.Utf16Length(s[1..]);
  }

  /** The class `[\d\s\-()]`: an ASCII digit, white space, `-`, `(` or `)`. */
  predicate IsPhoneChar(c: char) {
    Text.IsDigit(c) || Text.IsSpace(c) || c == '-' || c == '(' || c == ')'
  }

  /** `/^[\d\s\-()]+$/.test(t)`. */
  predicate PhonePattern(t: string) {
    |t| >= 1 && forall i :: 0 <= i < |t| ==> IsPhoneChar(t[i])
  }

  /** The phone is optional: blank is valid, anything else must match the pattern. */
  function PhoneVerdict(value: string): (v: Verdict)
    ensures v.Valid? <==> forall i :: 0 <= i < |Text.Trim(value)| ==> IsPhoneChar(Text.Trim(value)[i])
    ensures v.Invalid? ==> v.message == PhoneMalformed
  {
    var t := Text.Trim(value);
    if t != "" && !PhonePattern(t) then Invalid(PhoneMalformed) else Valid
  }

  /** A `+` anywhere in the trimmed phone makes it invalid. */
  lemma PlusIsRejected(value: string, i: int)
    requires 0 <= i < |Text.Trim(value)| && Text.Trim(value)[i] == '+'
    ensures PhoneVerdict(value) == Invalid(PhoneMalformed)
  {
    var t := Text.Trim(value);
    assert t != "" && !IsPhoneChar(t[i]);
    assert !PhonePattern(t);
  }

  /** The international number the placeholder suggests is rejected. */
  lemma PlaceholderIsRejected()
    ensures PhoneVerdict(PhonePlaceholder) == Invalid(PhoneMalformed)
  {
    var p := PhonePlaceholder;
    assert Text.Trimmed(p) by {
      assert p[0] == 'E' && p[|p| - 1] == '9';
    }
    Text.TrimOfTrimmed(p);
    PlusIsRejected(p, 4);
  }

  /** `validateField(name, value)`: only the named field's entries change,
      and a name the switch does not know changes nothing. */
  function ValidateField(s: FieldState, name: string, value: string): (r: FieldState)
    ensures name == "name" ==> r == Record(s, "name", NameVerdict(value))
    ensures name == "address" ==> r == Record(s, "address", AddressVerdict(value))
    ensures name == "phone" ==> r == Record(s, "phone", PhoneVerdict(value))
    ensures name !in {"name", "address", "phone"} ==> r == s
  {
    if name == "name" then Record(s, "name", NameVerdict(value))
    else if name == "address" then Record(s, "address", AddressVerdict(value))
    else if name == "phone" then Record(s, "phone", PhoneVerdict(value))
    else s
  }

  /** Validating one field leaves every other field's error and flag as they were. */
  lemma ValidateFieldTouchesOnlyItsField(s: FieldState, name: string, value: string, f: string)
    requires f != name
    ensures var r := ValidateField(s, name, value);
            && (f in r.errors <==> f in s.errors) && (f in s.errors ==> r.errors[f] == s.errors[f])
            && (f in r.valid <==> f in s.valid) && (f in s.valid ==> r.valid[f] == s.valid[f])
  {
  }

  /** `isValid.name && isValid.address && isValid.phone !== false`. */
  function IsFormValid(s: FieldState): (b: bool)
    // On a consistent state the button is enabled exactly when name and
    // address have been validated and none of the three fields shows an error.
    ensures Consistent(s) ==>
              (b <==> "name" in s.valid && "address" in s.valid
                      && "name" !in s.errors && "address" !in s.errors && "phone" !in s.errors)
  {
    IsTrue(s, "name") && IsTrue(s, "address") && !IsFalse(s, "phone")
  }

  /** The form's three inputs. */
  datatype Form = Form(name: string, address: string, phone: string)

  /** All three fields validated one after another: the state that three
      successive edits of name, address and phone leave behind. Within one
      `handleSubmit` the three calls start from the same state, so there only
      the last update would land; see README "## Left out". */
  function ValidateAll(s: FieldState, f: Form): FieldState {
    ValidateField(ValidateField(ValidateField(s, "name", f.name), "address", f.address), "phone", f.phone)
  }

  /** Once every field has been validated, the save button is enabled exactly
      when each of the three validators accepts its field, whatever the form
      held before; the three errors are then absent. */
  lemma ValidatedFormIsValidIff(s: FieldState, f: Form)
    ensures var r := ValidateAll(s, f);
            && (IsFormValid(r) <==> NameVerdict(f.name).Valid? && AddressVerdict(f.address).Valid? && PhoneVerdict(f.phone).Valid?)
            && (IsFormValid(r) ==> "name" !in r.errors && "address" !in r.errors && "phone" !in r.errors)
  {
    var n, a, p := NameVerdict(f.name), AddressVerdict(f.address), PhoneVerdict(f.phone);
    assert ValidateAll(s, f) == Record(Record(Record(s, "name", n), "address", a), "phone", p);
    ThreeFieldsRecorded(s, "name", n, "address", a, "phone", p);
  }

  /** What `handleSubmit` hands to its parent: the three trimmed inputs. */
  function Payload(f: Form): (d: Restaurants.RestaurantData)
    ensures d.name == Some(Text.Trim(f.name)) && d.address == Some(Text.Trim(f.address)) && d.phone == Some(Text.Trim(f.phone))
  {
    Restaurants.RestaurantData(Some(Text.Trim(f.name)), Some(Text.Trim(f.address)), Some(Text.Trim(f.phone)))
  }

  /** A form whose name and address pass their validators also passes the
      service's guard: the create request is sent. */
  lemma ValidPayloadPassesGuard(f: Form, g: Api.Gateway, now: int, reply: Api.Reply)
    requires NameVerdict(f.name).Valid? && AddressVerdict(f.address).Valid?
    ensures Restaurants.CreateRestaurant(g, Payload(f), now, reply).sent
            == Some(Api.Outgoing(Api.POST, g.baseUrl + Api.RestaurantsFamily, Api.SentHeaders(g, Api.POST),
                                 Some(Restaurants.FullBody(Payload(f)))))
  {
    var d := Payload(f);
    assert Restaurants.Filled(d.name) && Restaurants.Filled(d.address);
  }

  /** Trimming again in the service changes none of the fields: the body
      holds exactly the form's trimmed text. */
  lemma PayloadBodyIsTrimmedOnce(f: Form)
    requires Text.Trim(f.name) != "" && Text.Trim(f.address) != ""
    ensures Restaurants.FullBody(Payload(f))
            == Js.Obj(map["name" := Js.Str(Text.Trim(f.name)), "address" := Js.Str(Text.Trim(f.address)),
                          "phone" := Js.Str(Text.Trim(f.phone))])
  {
    Text.TrimIdempotent(f.name);
    Text.TrimIdempotent(f.address);
    Text.TrimIdempotent(f.phone);
    BodyOfTrimmed(Text.Trim(f.name), Text.Trim(f.address), Text.Trim(f.phone));
  }

  /** The service's body for text that is already trimmed is that text. */
  lemma BodyOfTrimmed(n: string, a: string, ph: string)
    requires n != "" && a != ""
    requires Text.Trim(n) == n && Text.Trim(a) == a && Text.Trim(ph) == ph
    ensures Restaurants.FullBody(Restaurants.RestaurantData(Some(n), Some(a), Some(ph)))
            == Js.Obj(map["name" := Js.Str(n), "address" := Js.Str(a), "phone" := Js.Str(ph)])
  {
  }

  /** The modal as its parent sees it: open or not, and saving or not. */
  datatype Modal = Modal(open: bool, submitting: bool)

  /** `handleClose`: nothing happens while a save is in flight. */
  function Close(m: Modal): (r: Modal)
    ensures m.submitting ==> r == m
    ensures !m.submitting ==> !r.open
    ensures r.submitting == m.submitting
  {
    if m.submitting then m else m.(open := false)
  }
}

=== FILE: restaurants.dfy ===
/** The restaurants service of src/services/restaurants.js: it shapes the
    requests for the gateway (page-size caps, required fields, trimming, the
    fields of a partial update, the search parameters) and normalises the
    list envelopes the server may answer with.
 */
module Restaurants {
  import opened Wrappers
  import opened Js
  import Text
  import Api
  import FormEncoding

  const RequiredMessage: string := "Nombre y dirección son requeridos"

  const ListFallback: string := "Error al obtener restaurantes"
  const OneFallback: string := "Error al obtener restaurante"
  const CreateFallback: string := "Error al crear restaurante"
  const UpdateFallback: string := "Error al actualizar restaurante"
  const DeleteFallback: string := "Error al eliminar restaurante"
  const SearchFallback: string := "Error en la búsqueda"
  const QuickFallback: string := "Error en búsqueda rápida"
  const SimilarFallback: string := "Error al obtener restaurantes similares"

  /** Page-size caps. */
  const MaxItemsPerPage: int := 100
  const MaxSearchLimit: int := 100
  const MaxQuickLimit: int := 50
  const MaxSimilarLimit: int := 20

  /** Below this many characters (after trimming) a quick search is not sent. */
  const MinQuickQuery: int := 2

  function Min(a: int, b: int): (r: int)
    ensures r <= a && r <= b && (r == a || r == b)
  {
    if a <= b then a else b
  }

  /** `catch (error) { throw new Error(error.message || fallback) }` around a
      gateway call. */
  function Rethrow(step: Api.Step, fallback: string): (r: Api.Step)
    requires fallback != ""
    ensures r.after == step.after && r.sent == step.sent
    ensures r.result.Ok? <==> step.result.Ok?
    ensures step.result.Ok? ==> r.result == step.result
    ensures step.result.Err? ==> r.result.message != "" && (step.result.message != "" ==> r.result == step.result)
  {
    if step.result.Err? then step.(result := Err(MessageOr(step.result.message, fallback))) else step
  }

  /** The path of one restaurant: `/restaurants/${id}`. */
  function ItemPath(id: Json): string {
    Api.RestaurantsFamily + "/" + ToStr(id)
  }

  // ----------------------------------------------------------- reading

  /** The query of `getRestaurants(page, itemsPerPage)`. */
  function ListParams(page: int, itemsPerPage: int): (r: seq<(string, Json)>)
    ensures |r| == 2 && r[0] == ("page", Num(page))
    ensures r[1].0 == "itemsPerPage" && r[1].1.Num?
    ensures r[1].1.n <= MaxItemsPerPage
    ensures r[1].1.n == itemsPerPage || r[1].1.n == MaxItemsPerPage
    ensures itemsPerPage <= MaxItemsPerPage ==> r[1].1.n == itemsPerPage
  {
    [("page", Num(page)), ("itemsPerPage", Num(Min(itemsPerPage, MaxItemsPerPage)))]
  }

  /** `getRestaurants(page, itemsPerPage)`. */
  function GetRestaurants(g: Api.Gateway, page: int, itemsPerPage: int, now: int, reply: Api.Reply): (r: Api.Step)
    ensures r.sent.Some? ==> r.sent.value.url == g.baseUrl + Api.WithQuery(Api.RestaurantsFamily, ListParams(page, itemsPerPage))
    ensures r.result.Err? ==> r.result.message != ""
  {
    Rethrow(Api.Get(g, Api.RestaurantsFamily, ListParams(page, itemsPerPage), now, reply), ListFallback)
  }

  /** The page size `getRestaurants` asks for is the caller's, capped at 100:
      the query carries `page=P&itemsPerPage=N` with `N = min(itemsPerPage, 100)`. */
  lemma ListQueryIsCapped(page: int, itemsPerPage: int)
    ensures Api.KeptParams(ListParams(page, itemsPerPage))
            == [("page", Text.IntToString(page)), ("itemsPerPage", Text.IntToString(Min(itemsPerPage, MaxItemsPerPage)))]
  {
    Api.KeptPair(("page", Num(page)), ("itemsPerPage", Num(Min(itemsPerPage, MaxItemsPerPage))));
  }

  /** `getRestaurant(id)`. */
  function GetRestaurant(g: Api.Gateway, id: Json, now: int, reply: Api.Reply): (r: Api.Step)
    ensures r.sent.Some? ==> r.sent.value.url == g.baseUrl + ItemPath(id) && r.sent.value.verb == Api.GET
    ensures r.result.Err? ==> r.result.message != ""
  {
    Rethrow(Api.Get(g, ItemPath(id), [], now, reply), OneFallback)
  }

  /** `getSimilarRestaurants(id, limit)`. */
  function GetSimilarRestaurants(g: Api.Gateway, id: Json, limit: int, now: int, reply: Api.Reply): (r: Api.Step)
    ensures r.sent.Some? ==>
              r.sent.value.url == g.baseUrl + Api.WithQuery(ItemPath(id) + "/similar", [("limit", Num(Min(limit, MaxSimilarLimit)))])
    ensures r.result.Err? ==> r.result.message != ""
  {
    Rethrow(Api.Get(g, ItemPath(id) + "/similar", [("limit", Num(Min(limit, MaxSimilarLimit)))], now, reply), SimilarFallback)
  }

  // ---------------------------------------------------------- writing

  /** The fields a form hands to `createRestaurant`/`updateRestaurant`; `None`
      is a missing (`undefined`) field. */
  datatype RestaurantData = RestaurantData(name: Option<string>, address: Option<string>, phone: Option<string>)

  /** JavaScript truthiness of an optional string. */
  predicate Filled(v: Option<string>) {
    v.Some? && v.value != ""
  }

  /** `phone?.trim() || ''`. */
  function PhoneText(phone: Option<string>): (r: string)
    ensures phone.None? ==> r == ""
    ensures phone.Some? ==> r == Text.Trim(phone.value)
  {
    if phone.Some? && Text.Trim(phone.value) != "" then Text.Trim(phone.value) else ""
  }

  /** The body of a create or a full update. */
  function FullBody(d: RestaurantData): (body: Json)
    requires Filled(d.name) && Filled(d.address)
    ensures body.Obj? && body.fields.Keys == {"name", "address", "phone"}
    ensures body.fields["name"] == Str(Text.Trim(d.name.value))
    ensures body.fields["address"] == Str(Text.Trim(d.address.value))
    ensures body.fields["phone"] == Str(PhoneText(d.phone))
  {
    Object3("name", Str(Text.Trim(d.name.value)), "address", Str(Text.Trim(d.address.value)), "phone", Str(PhoneText(d.phone)))
  }

  /** A write that went through: the service clears the restaurant entries
      once more. */
  function ClearAfter(step: Api.Step): (r: Api.Step)
    ensures r.sent == step.sent && r.result == step.result
    ensures r.after == step.after.(cache := Api.ClearCache(step.after.cache, Some(Api.RestaurantsFamily)))
  {
    step.(after := step.after.(cache := Api.ClearCache(step.after.cache, Some(Api.RestaurantsFamily))))
  }

  /** A write: the gateway call, the extra clear on success, the rethrow on failure. */
  function Write(step: Api.Step, fallback: string): (r: Api.Step)
    requires fallback != ""
    ensures r.sent == step.sent
    ensures step.result.Ok? ==> r == ClearAfter(step)
    ensures step.result.Err? ==> r.after == step.after && r.result == Err(MessageOr(step.result.message, fallback))
  {
    if step.result.Ok? then ClearAfter(step) else Rethrow(step, fallback)
  }

  /** `createRestaurant(data)`. */
  function CreateRestaurant(g: Api.Gateway, d: RestaurantData, now: int, reply: Api.Reply): (r: Api.Step)
    // A missing or empty name or address: rejected before any request.
    ensures !(Filled(d.name) && Filled(d.address)) ==> r == Api.Step(g, None, Err(RequiredMessage))
    // Otherwise one POST of the trimmed fields.
    ensures Filled(d.name) && Filled(d.address) ==>
              r.sent == Some(Api.Outgoing(Api.POST, g.baseUrl + Api.RestaurantsFamily, Api.SentHeaders(g, Api.POST), Some(FullBody(d))))
    ensures r.result.Err? ==> r.result.message != ""
  {
    if !(Filled(d.name) && Filled(d.address)) then Api.Step(g, None, Err(RequiredMessage))
    else Write(Api.Post(g, Api.RestaurantsFamily, FullBody(d), now, reply), CreateFallback)
  }

  /** `updateRestaurant(id, data)`. */
  function UpdateRestaurant(g: Api.Gateway, id: Json, d: RestaurantData, now: int, reply: Api.Reply): (r: Api.Step)
    ensures !(Filled(d.name) && Filled(d.address)) ==> r == Api.Step(g, None, Err(RequiredMessage))
    ensures Filled(d.name) && Filled(d.address) ==>
              r.sent == Some(Api.Outgoing(Api.PUT, g.baseUrl + ItemPath(id), Api.SentHeaders(g, Api.PUT), Some(FullBody(d))))
    ensures r.result.Err? ==> r.result.message != ""
  {
    if !(Filled(d.name) && Filled(d.address)) then Api.Step(g, None, Err(RequiredMessage))
    else Write(Api.Put(g, ItemPath(id), FullBody(d), now, reply), UpdateFallback)
  }

  /** The changes handed to `patchRestaurant`; `None` is an `undefined` field. */
  datatype Changes = Changes(name: Option<string>, address: Option<string>, phone: Option<string>)

  /** `if (v !== undefined) body[key] = v.trim()`. */
  function PutTrimmed(m: map<string, Json>, key: string, v: Option<string>): (r: map<string, Json>)
    ensures key in r <==> key in m || v.Some?
    ensures v.Some? ==> r[key] == Str(Text.Trim(v.value))
    ensures v.None? ==> r == m
    ensures forall k :: k != key ==> (k in r <==> k in m) && (k in m ==> r[k] == m[k])
  {
    if v.Some? then m[key := Str(Text.Trim(v.value))] else m
  }

  /** The body of a partial update: exactly the given fields, each trimmed. */
  function PatchBody(c: Changes): (body: Json)
    ensures body.Obj?
    ensures "name" in body.fields <==> c.name.Some?
    ensures "address" in body.fields <==> c.address.Some?
    ensures "phone" in body.fields <==> c.phone.Some?
    ensures body.fields.Keys <= {"name", "address", "phone"}
    ensures c.name.Some? ==> body.fields["name"] == Str(Text.Trim(c.name.value))
    ensures c.address.Some? ==> body.fields["address"] == Str(Text.Trim(c.address.value))
    ensures c.phone.Some? ==> body.fields["phone"] == Str(Text.Trim(c.phone.value))
  {
    Obj(PutTrimmed(PutTrimmed(PutTrimmed(map[], "name", c.name), "address", c.address), "phone", c.phone))
  }

  /** `patchRestaurant(id, changes)`: one merge-patch request, no guard. */
  function PatchRestaurant(g: Api.Gateway, id: Json, c: Changes, now: int, reply: Api.Reply): (r: Api.Step)
    ensures r.sent == Some(Api.Outgoing(Api.PATCH, g.baseUrl + ItemPath(id), Api.SentHeaders(g, Api.PATCH), Some(PatchBody(c))))
    ensures r.result.Err? ==> r.result.message != ""
  {
    Write(Api.Patch(g, ItemPath(id), PatchBody(c), now, reply), UpdateFallback)
  }

  /** `deleteRestaurant(id)`. */
  function DeleteRestaurant(g: Api.Gateway, id: Json, now: int, reply: Api.Reply): (r: Api.Step)
    ensures r.sent == Some(Api.Outgoing(Api.DELETE, g.baseUrl + ItemPath(id), Api.SentHeaders(g, Api.DELETE), None))
    ensures r.result.Err? ==> r.result.message != ""
  {
    Write(Api.Delete(g, ItemPath(id), now, reply), DeleteFallback)
  }

  /** `clearCache()`: every cached response whose key mentions
      `/restaurants` is dropped, and nothing else changes. */
  function ClearCache(g: Api.Gateway): (r: Api.Gateway)
    ensures r.baseUrl == g.baseUrl && r.apiKey == g.apiKey && r.stored == g.stored
    ensures forall k :: k in r.cache <==> k in g.cache && !Text.Contains(k, Api.RestaurantsFamily)
    ensures forall k :: k in r.cache ==> r.cache[k] == g.cache[k]
  {
    g.(cache := Api.ClearCache(g.cache, Some(Api.RestaurantsFamily)))
  }

  /** The service's own `clearCache('/restaurants')` after a write that went
      through changes nothing: the gateway has already dropped those entries. */
  lemma {:induction false} ExtraClearIsRedundant(step: Api.Step, g: Api.Gateway, verb: Api.Verb, endpoint: string, body: Option<Json>,
                                                 now: int, reply: Api.Reply)
    requires verb != Api.GET
    requires step == Api.Request(g, verb, endpoint, body, now, reply) && step.result.Ok?
    ensures ClearAfter(step) == step
  {
    Api.ClearCacheIdempotent(g.cache, Some(Api.RestaurantsFamily));
  }

  /** A name made of spaces passes the service's guard, which only tests
      for emptiness, and is sent as an empty name. */
  lemma BlankNamePassesGuard(g: Api.Gateway, address: string, now: int, reply: Api.Reply)
    requires address != ""
    ensures var r := CreateRestaurant(g, RestaurantData(Some("  "), Some(address), None), now, reply);
            && r.sent.Some? && r.sent.value.body.value.fields["name"] == Str("")
  {
    Text.TrimEmptyIffAllSpace("  ");
  }

  // --------------------------------------------------------- searching

  /** The criteria `searchRestaurants` reads; `None` is a missing field, and
      a page or limit of 0 counts as missing, as JavaScript's `if` does. */
  datatype Criteria = Criteria(
    search: Option<string>, name: Option<string>, address: Option<string>, phone: Option<string>,
    createdFrom: Option<string>, createdTo: Option<string>, updatedFrom: Option<string>, updatedTo: Option<string>,
    orderBy: Option<string>, orderDirection: Option<string>,
    page: Option<int>, limit: Option<int>)

  /** What `searchRestaurants` puts under a trimmed text key: the trimmed
      text, when the criterion is truthy. */
  function Trimmed(v: Option<string>): Option<Json> {
    if Filled(v) then Some(Str(Text.Trim(v.value))) else None
  }

  /** What it puts under a key copied as it is. */
  function Verbatim(v: Option<string>): Option<Json> {
    if Filled(v) then Some(Str(v.value)) else None
  }

  /** What it puts under `page`: the page when it is set and non-zero. */
  function PageValue(page: Option<int>): Option<Json> {
    if page.Some? && page.value != 0 then Some(Num(page.value)) else None
  }

  /** What it puts under `limit`: the limit capped at 100, when set and non-zero. */
  function LimitValue(limit: Option<int>): (r: Option<Json>)
    ensures r.Some? ==> r.value.Num? && r.value.n <= MaxSearchLimit
  {
    if limit.Some? && limit.value != 0 then Some(Num(Min(limit.value, MaxSearchLimit))) else None
  }

  /** The keys `searchRestaurants` may set, in the order it sets them. */
  const SearchKeys: seq<string> := [
    "search", "name", "address", "phone",
    "created_from", "created_to", "updated_from", "updated_to",
    "order_by", "order_direction", "page", "limit"]

  /** The value one key of the search query receives, or `None` when the
      criterion is falsy and the key is not set. */
  function SearchValue(c: Criteria, key: string): Option<Json> {
    if key == "search" then Trimmed(c.search)
    else if key == "name" then Trimmed(c.name)
    else if key == "address" then Trimmed(c.address)
    else if key == "phone" then Trimmed(c.phone)
    else if key == "created_from" then Verbatim(c.createdFrom)
    else if key == "created_to" then Verbatim(c.createdTo)
    else if key == "updated_from" then Verbatim(c.updatedFrom)
    else if key == "updated_to" then Verbatim(c.updatedTo)
    else if key == "order_by" then Verbatim(c.orderBy)
    else if key == "order_direction" then Verbatim(c.orderDirection)
    else if key == "page" then PageValue(c.page)
    else if key == "limit" then LimitValue(c.limit)
    else None
  }

  /** The keys set in the `params` object, each with its value. */
  function SearchMap(c: Criteria): map<string, Json> {
    map k | k in SearchKeys && SearchValue(c, k).Some? :: SearchValue(c, k).value
  }

  /** The `params` object `searchRestaurants` builds, as a map: the free-text
      criteria only when truthy, and trimmed; the dates and the ordering only
      when truthy, as they are; the page when non-zero; the limit when
      non-zero, capped at 100; and nothing else. */
  function SearchQuery(c: Criteria): (m: map<string, Json>)
    ensures && ("search" in m <==> Filled(c.search)) && ("name" in m <==> Filled(c.name))
            && ("address" in m <==> Filled(c.address)) && ("phone" in m <==> Filled(c.phone))
            && ("search" in m ==> m["search"] == Str(Text.Trim(c.search.value)))
            && ("name" in m ==> m["name"] == Str(Text.Trim(c.name.value)))
            && ("address" in m ==> m["address"] == Str(Text.Trim(c.address.value)))
            && ("phone" in m ==> m["phone"] == Str(Text.Trim(c.phone.value)))
    ensures && ("created_from" in m <==> Filled(c.createdFrom)) && ("created_to" in m <==> Filled(c.createdTo))
            && ("updated_from" in m <==> Filled(c.updatedFrom)) && ("updated_to" in m <==> Filled(c.updatedTo))
            && ("created_from" in m ==> m["created_from"] == Str(c.createdFrom.value))
            && ("created_to" in m ==> m["created_to"] == Str(c.createdTo.value))
            && ("updated_from" in m ==> m["updated_from"] == Str(c.updatedFrom.value))
            && ("updated_to" in m ==> m["updated_to"] == Str(c.updatedTo.value))
    ensures && ("order_by" in m <==> Filled(c.orderBy))
            && ("order_direction" in m <==> Filled(c.orderDirection))
            && ("page" in m <==> c.page.Some? && c.page.value != 0)
            && ("limit" in m <==> c.limit.Some? && c.limit.value != 0)
            && ("order_by" in m ==> m["order_by"] == Str(c.orderBy.value))
            && ("order_direction" in m ==> m["order_direction"] == Str(c.orderDirection.value))
            && ("page" in m ==> m["page"] == Num(c.page.value))
            && ("limit" in m ==> m["limit"] == Num(Min(c.limit.value, MaxSearchLimit)) && m["limit"].n <= MaxSearchLimit)
    ensures forall k :: k in m ==> k in SearchKeys
  {
    SearchMapText(c);
    SearchMapDates(c);
    SearchMapOrder(c);
    SearchMap(c)
  }

  /** The free-text keys of the query map. */
  lemma SearchMapText(c: Criteria)
    ensures var m := SearchMap(c);
            && ("search" in m <==> Filled(c.search)) && ("name" in m <==> Filled(c.name))
            && ("address" in m <==> Filled(c.address)) && ("phone" in m <==> Filled(c.phone))
            && ("search" in m ==> m["search"] == Str(Text.Trim(c.search.value)))
            && ("name" in m ==> m["name"] == Str(Text.Trim(c.name.value)))
            && ("address" in m ==> m["address"] == Str(Text.Trim(c.address.value)))
            && ("phone" in m ==> m["phone"] == Str(Text.Trim(c.phone.value)))
  {
    KeyHolds(c, 0, "search", Trimmed(c.search));
    KeyHolds(c, 1, "name", Trimmed(c.name));
    KeyHolds(c, 2, "address", Trimmed(c.address));
    KeyHolds(c, 3, "phone", Trimmed(c.phone));
  }

  /** The date keys of the query map. */
  lemma SearchMapDates(c: Criteria)
    ensures var m := SearchMap(c);
            && ("created_from" in m <==> Filled(c.createdFrom)) && ("created_to" in m <==> Filled(c.createdTo))
            && ("updated_from" in m <==> Filled(c.updatedFrom)) && ("updated_to" in m <==> Filled(c.updatedTo))
            && ("created_from" in m ==> m["created_from"] == Str(c.createdFrom.value))
            && ("created_to" in m ==> m["created_to"] == Str(c.createdTo.value))
            && ("updated_from" in m ==> m["updated_from"] == Str(c.updatedFrom.value))
            && ("updated_to" in m ==> m["updated_to"] == Str(c.updatedTo.value))
  {
    KeyHolds(c, 4, "created_from", Verbatim(c.createdFrom));
    KeyHolds(c, 5, "created_to", Verbatim(c.createdTo));
    KeyHolds(c, 6, "updated_from", Verbatim(c.updatedFrom));
    KeyHolds(c, 7, "updated_to", Verbatim(c.updatedTo));
  }

  /** The ordering, page and limit keys of the query map. */
  lemma SearchMapOrder(c: Criteria)
    ensures var m := SearchMap(c);
            && ("order_by" in m <==> Filled(c.orderBy))
            && ("order_direction" in m <==> Filled(c.orderDirection))
            && ("page" in m <==> c.page.Some? && c.page.value != 0)
            && ("limit" in m <==> c.limit.Some? && c.limit.value != 0)
            && ("order_by" in m ==> m["order_by"] == Str(c.orderBy.value))
            && ("order_direction" in m ==> m["order_direction"] == Str(c.orderDirection.value))
            && ("page" in m ==> m["page"] == Num(c.page.value))
            && ("limit" in m ==> m["limit"] == Num(Min(c.limit.value, MaxSearchLimit)) && m["limit"].n <= MaxSearchLimit)
  {
    KeyHolds(c, 8, "order_by", Verbatim(c.orderBy));
    KeyHolds(c, 9, "order_direction", Verbatim(c.orderDirection));
    KeyHolds(c, 10, "page", PageValue(c.page));
    KeyHolds(c, 11, "limit", LimitValue(c.limit));
  }

  /** No key is listed twice. */
  predicate Distinct(keys: seq<string>) {
    forall i, j :: 0 <= i < j < |keys| ==> keys[i] != keys[j]
  }

  /** Where `k` first stands in `keys`. */
  function IndexIn(keys: seq<string>, k: string): (i: nat)
    requires k in keys
    ensures i < |keys| && keys[i] == k
    ensures forall j :: 0 <= j < i ==> keys[j] != k
  {
    if keys[0] == k then 0 else 1 + IndexIn(keys[1..], k)
  }

  /** The entries of `m` under `keys`, in the order of `keys`: what
      `Object.keys` yields for an object filled in that order. */
  function Ordered(keys: seq<string>, m: map<string, Json>): (r: seq<(string, Json)>)
    ensures |r| <= |keys|
    ensures forall p :: p in r ==> p.0 in keys && p.0 in m && m[p.0] == p.1
    ensures forall k :: k in keys && k in m ==> (k, m[k]) in r
    ensures Distinct(keys) ==> forall i, j :: 0 <= i < j < |r| ==> IndexIn(keys, r[i].0) < IndexIn(keys, r[j].0)
  {
    if keys == [] then []
    else
      var rest := Ordered(keys[1..], m);
      assert forall k :: k in keys ==> k == keys[0] || k in keys[1..];
      ShiftedIndex(keys, rest);
      if keys[0] in m then [(keys[0], m[keys[0]])] + rest else rest
  }

  /** Dropping the first of distinct keys shifts every later index by one,
      and none of the later keys is the first. */
  lemma ShiftedIndex(keys: seq<string>, rest: seq<(string, Json)>)
    requires keys != []
    requires forall p :: p in rest ==> p.0 in keys[1..]
    ensures Distinct(keys) ==> Distinct(keys[1..])
    ensures Distinct(keys) ==> forall p :: p in rest ==> p.0 != keys[0] && IndexIn(keys, p.0) == 1 + IndexIn(keys[1..], p.0)
  {
    if Distinct(keys) {
      forall p | p in rest ensures p.0 != keys[0] {
        var j := IndexIn(keys[1..], p.0);
        assert keys[1 + j] == p.0;
      }
    }
  }

  /** The service names each key once. */
  lemma SearchKeysDistinct()
    ensures Distinct(SearchKeys)
  {
    forall i, j | 0 <= i < j < |SearchKeys| ensures SearchKeys[i] != SearchKeys[j] {
      assert |SearchKeys[i]| != |SearchKeys[j]| || SearchKeys[i][0] != SearchKeys[j][0] || SearchKeys[i][|SearchKeys[i]| - 1] != SearchKeys[j][|SearchKeys[j]| - 1];
    }
  }

  /** The entries `Ordered` yields under distinct keys stand in key order. */
  lemma OrderedKeysFollow(keys: seq<string>, m: map<string, Json>)
    requires Distinct(keys)
    ensures var r := Ordered(keys, m);
            && (forall i :: 0 <= i < |r| ==> r[i].0 in keys)
            && (forall i, j :: 0 <= i < j < |r| ==> IndexIn(keys, r[i].0) < IndexIn(keys, r[j].0))
  {
    var r := Ordered(keys, m);
    assert forall i :: 0 <= i < |r| ==> r[i] in r;
  }

  /** The query `searchRestaurants` sends, in its fixed key order. */
  function SearchParams(c: Criteria): (r: seq<(string, Json)>)
    ensures |r| <= |SearchKeys|
    ensures forall i :: 0 <= i < |r| ==> r[i].0 in SearchKeys
    ensures forall i, j :: 0 <= i < j < |r| ==> IndexIn(SearchKeys, r[i].0) < IndexIn(SearchKeys, r[j].0)
  {
    SearchKeysDistinct();
    OrderedKeysFollow(SearchKeys, SearchQuery(c));
    Ordered(SearchKeys, SearchQuery(c))
  }

  /** The query depends on the criteria only through the values its keys
      receive. */
  lemma SameValuesSameQuery(a: Criteria, b: Criteria)
    requires forall k :: SearchValue(a, k) == SearchValue(b, k)
    ensures SearchQuery(a) == SearchQuery(b)
  {
    assert SearchMap(a) == SearchMap(b);
  }

  /** One key of the query: set exactly when its value is, to that value. */
  lemma KeyHolds(c: Criteria, i: int, key: string, v: Option<Json>)
    requires 0 <= i < |SearchKeys| && SearchKeys[i] == key && SearchValue(c, key) == v
    ensures var m := SearchMap(c);
            && (key in m <==> v.Some?)
            && (key in m ==> m[key] == v.value)
  {
  }

  /** `searchRestaurants(criteria)`. */
  function SearchRestaurants(g: Api.Gateway, c: Criteria, now: int, reply: Api.Reply): (r: Api.Step)
    ensures r.sent.Some? ==> r.sent.value.url == g.baseUrl + Api.WithQuery("/restaurants/search", SearchParams(c))
    ensures r.result.Err? ==> r.result.message != ""
  {
    Rethrow(Api.Get(g, "/restaurants/search", SearchParams(c), now, reply), SearchFallback)
  }

  /** A search text made only of white space is truthy, so the service keeps
      it, trims it to `''`, and the gateway then leaves it out of the query. */
  lemma BlankSearchIsNotSent(c: Criteria)
    requires Filled(c.search) && Text.AllSpace(c.search.value)
    ensures forall p :: p in Api.KeptParams(SearchParams(c)) ==> p.0 != "search"
  {
    Text.TrimEmptyIffAllSpace(c.search.value);
    var ps := SearchParams(c);
    forall p | p in Api.KeptParams(ps) ensures p.0 != "search" {
      var i :| 0 <= i < |ps| && Api.Sendable(ps[i].1) && p == (ps[i].0, ToStr(ps[i].1));
      assert ps[i] in ps;
    }
  }

  /** `{results: [], count: 0, query: ''}`: what a too-short quick search resolves with. */
  const NoQuickResults: Json := Obj(map["results" := Array([]), "count" := Num(0), "query" := Str("")])

  /** A quick search is sent only for a query of at least two characters after trimming. */
  predicate QuickQueryAccepted(query: Option<string>) {
    Filled(query) && Text.Utf16Length(Text.Trim(query.value)) >= MinQuickQuery
  }

  function QuickParams(query: string, limit: int): seq<(string, Json)> {
    [("q", Str(Text.Trim(query))), ("limit", Num(Min(limit, MaxQuickLimit)))]
  }

  /** `quickSearch(query, limit)`. */
  function QuickSearch(g: Api.Gateway, query: Option<string>, limit: int, now: int, reply: Api.Reply): (r: Api.Step)
    ensures !QuickQueryAccepted(query) ==> r == Api.Step(g, None, Ok(NoQuickResults))
    ensures QuickQueryAccepted(query) && r.sent.Some? ==>
              r.sent.value.url == g.baseUrl + Api.WithQuery("/restaurants/quick-search", QuickParams(query.value, limit))
    ensures r.result.Err? ==> r.result.message != ""
  {
    if !QuickQueryAccepted(query) then Api.Step(g, None, Ok(NoQuickResults))
    else Rethrow(Api.Get(g, "/restaurants/quick-search", QuickParams(query.value, limit), now, reply), QuickFallback)
  }

  /** The quick-search query carries the trimmed text and a limit of at most 50. */
  lemma QuickQueryShape(query: string, limit: int)
    requires Text.Utf16Length(Text.Trim(query)) >= MinQuickQuery
    ensures Api.KeptParams(QuickParams(query, limit))
            == [("q", Text.Trim(query)), ("limit", Text.IntToString(Min(limit, MaxQuickLimit)))]
    ensures Min(limit, MaxQuickLimit) <= MaxQuickLimit
  {
    TextAndNumberKept("q", Text.Trim(query), "limit", Min(limit, MaxQuickLimit));
  }

  /** A non-empty text parameter followed by a number parameter both survive. */
  lemma TextAndNumberKept(a: string, t: string, b: string, n: int)
    requires t != ""
    ensures Api.KeptParams([(a, Str(t)), (b, Num(n))]) == [(a, t), (b, Text.IntToString(n))]
  {
    Api.KeptPair((a, Str(t)), (b, Num(n)));
  }

  // -------------------------------------------------------- normalising

  /** `formatRestaurant(r)`: `null` for a falsy value, otherwise the six display
      fields with empty-text defaults and the snake_case timestamp fallbacks. */
  function FormatRestaurant(x: Json): (r: Json)
    ensures !Truthy(x) <==> r == Null
    ensures Truthy(x) ==>
              && r.Obj? && r.fields.Keys == {"id", "name", "address", "phone", "createdAt", "updatedAt"}
              && Prop(r, "id") == Prop(x, "id")
              && (Truthy(Prop(x, "name")) ==> Prop(r, "name") == Prop(x, "name"))
              && (!Truthy(Prop(x, "name")) ==> Prop(r, "name") == Str(""))
              && (Truthy(Prop(x, "address")) ==> Prop(r, "address") == Prop(x, "address"))
              && (!Truthy(Prop(x, "address")) ==> Prop(r, "address") == Str(""))
              && (Truthy(Prop(x, "phone")) ==> Prop(r, "phone") == Prop(x, "phone"))
              && (!Truthy(Prop(x, "phone")) ==> Prop(r, "phone") == Str(""))
              && (Truthy(Prop(x, "createdAt")) ==> Prop(r, "createdAt") == Prop(x, "createdAt"))
              && (!Truthy(Prop(x, "createdAt")) ==> Prop(r, "createdAt") == Prop(x, "created_at"))
              && (Truthy(Prop(x, "updatedAt")) ==> Prop(r, "updatedAt") == Prop(x, "updatedAt"))
              && (!Truthy(Prop(x, "updatedAt")) ==> Prop(r, "updatedAt") == Prop(x, "updated_at"))
  {
    if !Truthy(x) then Null
    else Obj(map[
      "id" := Prop(x, "id"),
      "name" := Or(Prop(x, "name"), Str("")),
      "address" := Or(Prop(x, "address"), Str("")),
      "phone" := Or(Prop(x, "phone"), Str("")),
      "createdAt" := Or(Prop(x, "createdAt"), Prop(x, "created_at")),
      "updatedAt" := Or(Prop(x, "updatedAt"), Prop(x, "updated_at"))])
  }

  /** Formatting a formatted restaurant again keeps its id and text fields,
      and any timestamp that is set. */
  lemma FormatRestaurantStable(x: Json)
    requires Truthy(x)
    ensures var once := FormatRestaurant(x);
            var twice := FormatRestaurant(once);
            && Prop(twice, "id") == Prop(once, "id")
            && Prop(twice, "name") == Prop(once, "name")
            && Prop(twice, "address") == Prop(once, "address")
            && Prop(twice, "phone") == Prop(once, "phone")
            && (Truthy(Prop(once, "createdAt")) ==> Prop(twice, "createdAt") == Prop(once, "createdAt"))
            && (Truthy(Prop(once, "updatedAt")) ==> Prop(twice, "updatedAt") == Prop(once, "updatedAt"))
  {
  }

  /** `items.map(formatRestaurant)`. */
  function FormatAll(items: seq<Json>): (r: seq<Json>)
    ensures |r| == |items|
    ensures forall i :: 0 <= i < |items| ==> r[i] == FormatRestaurant(items[i])
  {
    if items == [] then [] else [FormatRestaurant(items[0])] + FormatAll(items[1..])
  }

  /** The normalised list: the formatted restaurants, the total and the pagination. */
  datatype Listing = Listing(restaurants: seq<Json>, total: Json, pagination: Json)

  const EmptyListing: Listing := Listing([], Num(0), Null)

  /** The page number in a hydra view's `@id`; the source parses it as a URL. */
  type PageOf = Json -> int

  /** The five envelopes the service recognises, tried in this order. */
  datatype Shape = Falsy | Hydra | Results | DataWithTotal | ArrayWithTotal | DirectArray | Unknown

  /** Which envelope `response` is, by the first test it passes. */
  function ShapeOf(response: Json): Shape {
    if !Truthy(response) then Falsy
    else if Truthy(Prop(response, "hydra:member")) then Hydra
    else if Truthy(Prop(response, "results")) then Results
    else if Truthy(Prop(response, "data")) && Prop(response, "total") != Undefined then DataWithTotal
    else if response.Arr? && Prop(response, "totalItems") != Undefined then ArrayWithTotal
    else if response.Arr? then DirectArray
    else Unknown
  }

  /** The value whose elements become the restaurants, for each envelope. */
  function Members(response: Json): Json {
    match ShapeOf(response)
    case Hydra => Prop(response, "hydra:member")
    case Results => Prop(response, "results")
    case DataWithTotal => Prop(response, "data")
    case ArrayWithTotal => response
    case DirectArray => response
    case _ => Array([])
  }

  /** The size the direct-array branch takes for a full page. */
  const DirectPageSize: int := 10

  /** `.map` on something that is not an array. */
  function NotMappable(expression: string): string {
    expression + ".map is not a function"
  }

  /** The expression whose `.map` the matched branch calls. */
  function MembersExpression(s: Shape): string {
    match s
    case Hydra => "response['hydra:member']"
    case Results => "response.results"
    case DataWithTotal => "response.data"
    case _ => "response"
  }

  /** `formatRestaurantList(response)`. */
  function FormatRestaurantList(response: Json, pageOf: PageOf): (r: Result<Listing>)
    // The matched array is mapped element-wise: same length, each formatted.
    ensures r.Ok? <==> Members(response).Arr?
    ensures r.Ok? ==> r.value.restaurants == FormatAll(Members(response).items)
    ensures r.Err? ==> r.message == NotMappable(MembersExpression(ShapeOf(response)))
    ensures ShapeOf(response) == Falsy || ShapeOf(response) == Unknown ==> r == Ok(EmptyListing)
    // A bare array: its length is the total, and more pages are assumed
    // exactly when it holds a full page of ten.
    ensures ShapeOf(response) == DirectArray ==>
              && r.value.total == Num(|response.items|)
              && Prop(r.value.pagination, "hasMore") == Bool(|response.items| == DirectPageSize)
              && Prop(r.value.pagination, "isDirectArray") == Bool(true)
    ensures ShapeOf(response) == ArrayWithTotal ==> r.value.total == Prop(response, "totalItems") && r.value.pagination == Null
    ensures ShapeOf(response) == DataWithTotal && r.Ok? ==>
              r.value.total == Prop(response, "total") && r.value.pagination == PaginationOrNull(response)
    // The custom search total: the pagination's, else the count, else 0.
    ensures ShapeOf(response) == Results && r.Ok? ==>
              var fromPage, count := Prop(Prop(response, "pagination"), "total"), Prop(response, "count");
              && r.value.pagination == PaginationOrNull(response)
              && (Truthy(fromPage) ==> r.value.total == fromPage)
              && (!Truthy(fromPage) && Truthy(count) ==> r.value.total == count)
              && (!Truthy(fromPage) && !Truthy(count) ==> r.value.total == Num(0))
    ensures ShapeOf(response) == Hydra && r.Ok? ==>
              && r.value.total == Or(Prop(response, "hydra:totalItems"), Num(0))
              && Prop(r.value.pagination, "itemsInCurrentPage") == Num(|Members(response).items|)
              && (Truthy(Prop(response, "hydra:view")) ==>
                    Prop(r.value.pagination, "currentPage") == Num(pageOf(Prop(Prop(response, "hydra:view"), "@id"))))
              && (!Truthy(Prop(response, "hydra:view")) ==> Prop(r.value.pagination, "currentPage") == Num(1))
              && (Truthy(Prop(r.value.pagination, "hasMore")) <==>
                    Truthy(Prop(response, "hydra:view")) && Truthy(Prop(Prop(response, "hydra:view"), "hydra:next")))
  {
    var shape := ShapeOf(response);
    if shape == Falsy || shape == Unknown then Ok(EmptyListing)
    else
      var members := Members(response);
      if !members.Arr? then Err(NotMappable(MembersExpression(shape)))
      else
        var restaurants := FormatAll(members.items);
        var count := |members.items|;
        match shape
        case Hydra => Ok(HydraListing(response, members.items, pageOf))
        case Results => Ok(ResultsListing(response, members.items))
        case DataWithTotal =>
          Ok(Listing(restaurants, Prop(response, "total"), PaginationOrNull(response)))
        case ArrayWithTotal =>
          Ok(Listing(restaurants, Prop(response, "totalItems"), Null))
        case DirectArray => Ok(DirectListing(members.items))
        case _ => Ok(EmptyListing)
  }

  /** `response.pagination || null`: the pagination passed through when
      truthy, `null` otherwise. */
  function PaginationOrNull(response: Json): (p: Json)
    ensures Truthy(Prop(response, "pagination")) ==> p == Prop(response, "pagination")
    ensures !Truthy(Prop(response, "pagination")) ==> p == Null
  {
    Or(Prop(response, "pagination"), Null)
  }

  /** The custom search branch: the first truthy of the pagination's total
      and the response's `count` as the total, or 0 when neither is. */
  function ResultsListing(response: Json, items: seq<Json>): (l: Listing)
    ensures l.restaurants == FormatAll(items)
    ensures l.pagination == PaginationOrNull(response)
    ensures var fromPage, count := Prop(Prop(response, "pagination"), "total"), Prop(response, "count");
            && (Truthy(fromPage) ==> l.total == fromPage)
            && (!Truthy(fromPage) && Truthy(count) ==> l.total == count)
            && (!Truthy(fromPage) && !Truthy(count) ==> l.total == Num(0))
  {
    var total := Or(Or(Prop(Prop(response, "pagination"), "total"), Prop(response, "count")), Num(0));
    Listing(FormatAll(items), total, PaginationOrNull(response))
  }

  /** The hydra branch: `hydra:totalItems` (or 0) as the total, and the page
      read from the view, with the view's `hydra:next` as `hasMore`. */
  function HydraListing(response: Json, items: seq<Json>, pageOf: PageOf): (l: Listing)
    ensures l.restaurants == FormatAll(items)
    ensures l.total == Or(Prop(response, "hydra:totalItems"), Num(0))
    ensures l.pagination.Obj? && l.pagination.fields.Keys == {"hasMore", "currentPage", "itemsInCurrentPage"}
    ensures Prop(l.pagination, "itemsInCurrentPage") == Num(|items|)
    ensures var view := Prop(response, "hydra:view");
            && (Truthy(view) ==> Prop(l.pagination, "currentPage") == Num(pageOf(Prop(view, "@id"))))
            && (!Truthy(view) ==> Prop(l.pagination, "currentPage") == Num(1))
            && (Truthy(Prop(l.pagination, "hasMore")) <==> Truthy(view) && Truthy(Prop(view, "hydra:next")))
            && (Truthy(view) ==> Prop(l.pagination, "hasMore") == Prop(view, "hydra:next"))
  {
    var view := Prop(response, "hydra:view");
    var pagination := Obj(map[
      "hasMore" := (if Truthy(view) then Prop(view, "hydra:next") else view),
      "currentPage" := Num(if Truthy(view) then pageOf(Prop(view, "@id")) else 1),
      "itemsInCurrentPage" := Num(|items|)]);
    Listing(FormatAll(items), Or(Prop(response, "hydra:totalItems"), Num(0)), pagination)
  }

  /** The bare-array branch: its length as the total, more pages assumed
      exactly when a full page of ten came back. */
  function DirectListing(items: seq<Json>): (l: Listing)
    ensures l.restaurants == FormatAll(items)
    ensures l.total == Num(|items|)
    ensures l.pagination.Obj? && l.pagination.fields.Keys == {"hasMore", "itemsInCurrentPage", "isDirectArray"}
    ensures Prop(l.pagination, "hasMore") == Bool(|items| == DirectPageSize)
    ensures Prop(l.pagination, "isDirectArray") == Bool(true)
  {
    var count := |items|;
    var pagination := Obj(map[
      "hasMore" := Bool(count == DirectPageSize && count > 0),
      "itemsInCurrentPage" := Num(count),
      "isDirectArray" := Bool(true)]);
    Listing(FormatAll(items), Num(count), pagination)
  }

  /** The first test wins: an envelope that carries both `hydra:member` and
      `results` is read as hydra, whatever `results` holds. */
  lemma HydraTakesPrecedence(members: seq<Json>, other: Json, total: Json, pageOf: PageOf)
    ensures var response := Obj(map["hydra:member" := Array(members), "results" := other, "hydra:totalItems" := total]);
            FormatRestaurantList(response, pageOf).value.restaurants == FormatAll(members)
  {
    var response := Obj(map["hydra:member" := Array(members), "results" := other, "hydra:totalItems" := total]);
    assert Prop(response, "hydra:member") == Array(members);
    assert ShapeOf(response) == Hydra;
  }

  /** A custom search envelope is read as one: its results are the
      restaurants, its pagination is passed through, and the pagination's
      total wins over the count unless it is 0. */
  lemma {:induction false} SearchEnvelopeIsResults(items: seq<Json>, total: int, count: int, pageOf: PageOf)
    ensures var pagination := Obj(map["total" := Num(total)]);
            var response := Obj(map["results" := Array(items), "pagination" := pagination, "count" := Num(count)]);
            var r := FormatRestaurantList(response, pageOf);
            && ShapeOf(response) == Results
            && r.Ok? && r.value.restaurants == FormatAll(items)
            && r.value.pagination == pagination
            && (total != 0 ==> r.value.total == Num(total))
            && (total == 0 ==> r.value.total == Num(count))
  {
    var pagination := Obj(map["total" := Num(total)]);
    var response := Obj(map["results" := Array(items), "pagination" := pagination, "count" := Num(count)]);
    assert Prop(response, "hydra:member") == Undefined;
    assert Prop(response, "results") == Array(items);
    assert Prop(response, "pagination") == pagination;
    assert Prop(pagination, "total") == Num(total);
    assert Prop(response, "count") == Num(count);
  }

  /** A `data` array sent with a separate `total` keeps that total as it is,
      whatever its type, and has no pagination. */
  lemma {:induction false} DataEnvelopeKeepsTotal(items: seq<Json>, total: Json, pageOf: PageOf)
    requires total != Undefined
    ensures var response := Obj(map["data" := Array(items), "total" := total]);
            var r := FormatRestaurantList(response, pageOf);
            && ShapeOf(response) == DataWithTotal
            && r.Ok? && r.value.restaurants == FormatAll(items)
            && r.value.total == total && r.value.pagination == Null
  {
    var response := Obj(map["data" := Array(items), "total" := total]);
    assert Prop(response, "hydra:member") == Undefined;
    assert Prop(response, "results") == Undefined;
    assert Prop(response, "data") == Array(items);
    assert Prop(response, "total") == total;
    assert Prop(response, "pagination") == Undefined;
  }

  /** The pagination of a hydra or a bare-array listing carries neither a
      page count nor a total. */
  lemma UncountedPagination(response: Json, pageOf: PageOf)
    requires ShapeOf(response) == Hydra || ShapeOf(response) == DirectArray
    requires Members(response).Arr?
    ensures var p := FormatRestaurantList(response, pageOf).value.pagination;
            Prop(p, "pages") == Undefined && Prop(p, "total") == Undefined
  {
  }
}

=== FILE: search_page.dfy ===
/** The advanced-search page of src/components/search/SearchPage.jsx: its
    filter record, the activity test, clearing, the parameters of a search,
    the quick-search guard and its pagination (twelve results a page).
 */
module SearchPage {
  import opened Wrappers
  import Text
  import opened Js
  import Api
  import Restaurants
  import Paging

  const PerPage: int := 12
  const QuickLimit: int := 8

  /** The default ordering, which does not count as a filter. */
  const DefaultOrderBy: string := "created_at"
  const DefaultDirection: string := "DESC"

  /** The `searchParams` state: ten text inputs. */
  datatype Filters = Filters(
    search: string, name: string, address: string, phone: string,
    createdFrom: string, createdTo: string, updatedFrom: string, updatedTo: string,
    orderBy: string, orderDirection: string)

  /** The initial record, which `clearAllFilters` restores. */
  const Defaults: Filters := Filters("", "", "", "", "", "", "", "", DefaultOrderBy, DefaultDirection)

  /** One input of the record, by the key `handleParamChange` receives. */
  datatype Field =
    | Search | Name | Address | Phone
    | CreatedFrom | CreatedTo | UpdatedFrom | UpdatedTo
    | OrderBy | OrderDirection

  function Get(f: Filters, k: Field): string {
    match k
    case Search => f.search
    case Name => f.name
    case Address => f.address
    case Phone => f.phone
    case CreatedFrom => f.createdFrom
    case CreatedTo => f.createdTo
    case UpdatedFrom => f.updatedFrom
    case UpdatedTo => f.updatedTo
    case OrderBy => f.orderBy
    case OrderDirection => f.orderDirection
  }

  /** `handleParamChange(field, value)`: that input takes the value and no other changes. */
  function SetField(f: Filters, k: Field, v: string): (r: Filters)
    ensures Get(r, k) == v
    ensures forall other :: other != k ==> Get(r, other) == Get(f, other)
  {
    match k
    case Search => f.(search := v)
    case Name => f.(name := v)
    case Address => f.(address := v)
    case Phone => f.(phone := v)
    case CreatedFrom => f.(createdFrom := v)
    case CreatedTo => f.(createdTo := v)
    case UpdatedFrom => f.(updatedFrom := v)
    case UpdatedTo => f.(updatedTo := v)
    case OrderBy => f.(orderBy := v)
    case OrderDirection => f.(orderDirection := v)
  }

  /** A value that is neither empty nor one of the two default orderings. */
  predicate Active(v: string) {
    v != "" && v != DefaultOrderBy && v != DefaultDirection
  }

  /** `hasActiveFilters()`: some value of the record is active. */
  function HasActiveFilters(f: Filters): (b: bool)
    ensures b ==> f != Defaults
    ensures !b <==> forall k :: Get(f, k) == "" || Get(f, k) == DefaultOrderBy || Get(f, k) == DefaultDirection
  {
    DefaultsHaveNoActiveValue();
    exists k :: Active(Get(f, k))
  }

  /** Every default value is empty or a default ordering. */
  lemma DefaultsHaveNoActiveValue()
    ensures forall k :: !Active(Get(Defaults, k))
  {
    forall k ensures !Active(Get(Defaults, k)) {
    }
  }

  /** The defaults are not a filter. */
  lemma DefaultsAreInactive()
    ensures !HasActiveFilters(Defaults)
  {
    forall k ensures !Active(Get(Defaults, k)) {
    }
  }

  /** Ascending order alone is a filter. */
  lemma AscendingAloneIsActive()
    ensures HasActiveFilters(SetField(Defaults, OrderDirection, "ASC"))
  {
    assert Active(Get(SetField(Defaults, OrderDirection, "ASC"), OrderDirection));
  }

  /** The test compares values, not keys: a search for the text `DESC` on
      otherwise default filters is not a filter, so it is not re-run on a
      page change. */
  lemma SentinelTextLooksInactive()
    ensures !HasActiveFilters(SetField(Defaults, Search, DefaultDirection))
  {
    var f := SetField(Defaults, Search, DefaultDirection);
    forall k ensures !Active(Get(f, k)) {
    }
  }

  /** The page state `clearAllFilters` touches. */
  datatype Page = Page(filters: Filters, results: seq<Json>, pagination: Json, currentPage: int)

  /** `clearAllFilters()`. */
  function ClearAllFilters(p: Page): (r: Page)
    ensures r.filters == Defaults && r.results == [] && r.pagination == Null && r.currentPage == 1
    ensures !HasActiveFilters(r.filters)
  {
    DefaultsAreInactive();
    Page(Defaults, [], Null, 1)
  }

  /** `params[key] === ''` keys are deleted; anything else is passed on. */
  function Keep(v: string): (r: Option<string>)
    ensures r.None? <==> v == ""
    ensures r.Some? ==> r.value == v
  {
    if v == "" then None else Some(v)
  }

  /** The criteria `performSearch` hands the service: the record plus the
      page and twelve a page, each empty value removed. */
  function SearchCriteria(f: Filters, page: int): (c: Restaurants.Criteria)
    ensures c.search == Keep(f.search) && c.name == Keep(f.name) && c.address == Keep(f.address) && c.phone == Keep(f.phone)
    ensures c.createdFrom == Keep(f.createdFrom) && c.createdTo == Keep(f.createdTo)
    ensures c.updatedFrom == Keep(f.updatedFrom) && c.updatedTo == Keep(f.updatedTo)
    ensures c.orderBy == Keep(f.orderBy) && c.orderDirection == Keep(f.orderDirection)
    ensures c.page == Some(page) && c.limit == Some(PerPage)
  {
    Restaurants.Criteria(
      Keep(f.search), Keep(f.name), Keep(f.address), Keep(f.phone),
      Keep(f.createdFrom), Keep(f.createdTo), Keep(f.updatedFrom), Keep(f.updatedTo),
      Keep(f.orderBy), Keep(f.orderDirection), Some(page), Some(PerPage))
  }

  /** The same record passed on without the clean-up. */
  function UncleanedCriteria(f: Filters, page: int): Restaurants.Criteria {
    Restaurants.Criteria(
      Some(f.search), Some(f.name), Some(f.address), Some(f.phone),
      Some(f.createdFrom), Some(f.createdTo), Some(f.updatedFrom), Some(f.updatedTo),
      Some(f.orderBy), Some(f.orderDirection), Some(page), Some(PerPage))
  }

  /** Removing the empty values changes nothing the service sends: it copies
      only truthy criteria anyway. */
  lemma CleanupIsRedundant(f: Filters, page: int)
    ensures Restaurants.SearchQuery(SearchCriteria(f, page)) == Restaurants.SearchQuery(UncleanedCriteria(f, page))
  {
    var a, b := SearchCriteria(f, page), UncleanedCriteria(f, page);
    forall k ensures Restaurants.SearchValue(a, k) == Restaurants.SearchValue(b, k) {
    }
    Restaurants.SameValuesSameQuery(a, b);
  }

  /** A search from the page asks for twelve results of the current page. */
  lemma SearchAsksForTwelve(f: Filters, page: int)
    requires page >= 1
    ensures var m := Restaurants.SearchQuery(SearchCriteria(f, page));
            && "limit" in m && m["limit"] == Num(PerPage)
            && "page" in m && m["page"] == Num(page)
  {
  }

  /** `handleQuickSearch`'s own guard: blank, or fewer than two characters
      before trimming. */
  function QuickGuardStops(query: string): (b: bool)
    ensures !b ==> Text.Trim(query) != ""
    ensures Text.Utf16Length(Text.Trim(query)) >= Restaurants.MinQuickQuery ==> !b
  {
    Text.Utf16LengthOfTrim(query);
    Text.Trim(query) == "" || Text.Utf16Length(query) < 2
  }

  /** What `handleQuickSearch` leaves behind: the gateway, the request sent
      (if any) and the `quickResults` shown. */
  datatype Quick = Quick(after: Api.Gateway, sent: Option<Api.Outgoing>, results: Json)

  /** `handleQuickSearch(query)`: the page's guard, then the service with a
      limit of eight; the results are `response.results || []`, and `[]`
      when the service fails. */
  function HandleQuickSearch(g: Api.Gateway, query: string, now: int, reply: Api.Reply): (r: Quick)
    ensures QuickGuardStops(query) ==> r == Quick(g, None, Array([]))
    ensures r.sent.Some? ==> Restaurants.QuickQueryAccepted(Some(query))
  {
    if QuickGuardStops(query) then Quick(g, None, Array([]))
    else
      var step := Restaurants.QuickSearch(g, Some(query), QuickLimit, now, reply);
      Quick(step.after, step.sent, if step.result.Ok? then Or(Prop(step.result.value, "results"), Array([])) else Array([]))
  }

  /** The page's guard and the service's disagree on a query such as `" a"`,
      which is longer than one character but trims to one: the page lets it
      through, the service sends nothing. Either way no request is made and
      the list is empty, for every query that trims to fewer than two
      characters. */
  lemma ShortQueriesShowNothing(g: Api.Gateway, query: string, now: int, reply: Api.Reply)
    requires Text.Utf16Length(Text.Trim(query)) < Restaurants.MinQuickQuery
    ensures var r := HandleQuickSearch(g, query, now, reply);
            r.sent.None? && r.results == Array([]) && r.after == g
  {
    if !QuickGuardStops(query) {
      ServiceDeclines(g, query, now, reply);
      assert Prop(Restaurants.NoQuickResults, "results") == Array([]);
    }
  }

  /** A query that trims to fewer than two characters gets the service's
      empty answer without a request. */
  lemma ServiceDeclines(g: Api.Gateway, query: string, now: int, reply: Api.Reply)
    requires Text.Utf16Length(Text.Trim(query)) < Restaurants.MinQuickQuery
    ensures Restaurants.QuickSearch(g, Some(query), QuickLimit, now, reply) == Api.Step(g, None, Ok(Restaurants.NoQuickResults))
  {
    assert !Restaurants.QuickQueryAccepted(Some(query));
  }

  /** `" a"` passes the page's guard although it trims to a single character. */
  lemma GuardsDisagree()
    ensures !QuickGuardStops(" a")
    ensures !Restaurants.QuickQueryAccepted(Some(" a"))
  {
    var s := " a";
    assert s[1..2] == "a" && s[..1] == " " && s[2..] == "";
    assert Text.IsTrimOf(s, "a");
    Text.TrimIsUnique(s, "a");
  }

  /** `totalPages` for this page: the `pagination` object's `pages`, or its
      `total` over twelve rounded up; a pagination object without either
      gives no pages at all, and the pager stays hidden. */
  function TotalPages(pagination: Json): (r: int)
    ensures Paging.CountsOf(pagination).pages != 0 ==> r == Paging.CountsOf(pagination).pages
    ensures Paging.CountsOf(pagination).pages == 0 ==>
              PerPage * (r - 1) < Paging.CountsOf(pagination).total <= PerPage * r
    ensures Prop(pagination, "pages") == Undefined && Prop(pagination, "total") == Undefined ==> r == 0
  {
    Paging.TotalPages(Paging.CountsOf(pagination), PerPage)
  }
}

=== FILE: text.dfy ===
/** The JavaScript string primitives the modelled code leans on:
    `String.prototype.trim`, `includes`, `Array.prototype.join` over strings,
    and the decimal rendering of integers that template literals and
    `String(n)` perform.
 */
module Text {

  /** ECMAScript WhiteSpace and LineTerminator code points: exactly the
      characters `trim()` strips and the regular-expression class `\s` matches. */
  predicate IsSpace(c: char) {
    || c == '\t' || c == '\n' || c == '\U{000B}' || c == '\U{000C}' || c == '\r'
    || c == ' ' || c == '\U{00A0}' || c == '\U{1680}'
    || ('\U{2000}' <= c <= '\U{200A}')
    || c == '\U{2028}' || c == '\U{2029}' || c == '\U{202F}' || c == '\U{205F}'
    || c == '\U{3000}' || c == '\U{FEFF}'
  }

  predicate AllSpace(s: string) {
    forall i :: 0 <= i < |s| ==> IsSpace(s[i])
  }

  predicate IsDigit(c: char) {
    '0' <= c <= '9'
  }

  predicate AllDigits(s: string) {
    forall i :: 0 <= i < |s| ==> IsDigit(s[i])
  }

  /** Neither end of `s` is white space. */
  predicate Trimmed(s: string) {
    s == [] || (!IsSpace(s[0]) && !IsSpace(s[|s| - 1]))
  }

  /** `r` is what is left of `s` once white space is stripped from both ends:
      a contiguous slice of `s`, flanked only by white space, with neither end
      white. This is an independent description of `trim()`. */
  ghost predicate IsTrimOf(s: string, r: string) {
    && Trimmed(r)
    && exists lo, hi :: 0 <= lo <= hi <= |s| && r == s[lo..hi] && AllSpace(s[..lo]) && AllSpace(s[hi..])
  }

  /** The first index at or after `i` that does not hold white space. */
  function SkipSpace(s: string, i: nat): (j: nat)
    requires i <= |s|
    ensures i <= j <= |s|
    ensures forall k :: i <= k < j ==> IsSpace(s[k])
    ensures j == |s| || !IsSpace(s[j])
    decreases |s| - i
  {
    if i < |s| && IsSpace(s[i]) then SkipSpace(s, i + 1) else i
  }

  /** The end of the text before `j` once trailing white space, down to
      `lo`, is dropped. */
  function SkipSpaceBack(s: string, lo: nat, j: nat): (e: nat)
    requires lo <= j <= |s|
    ensures lo <= e <= j
    ensures forall k :: e <= k < j ==> IsSpace(s[k])
    ensures e == lo || !IsSpace(s[e - 1])
  {
    if j > lo && IsSpace(s[j - 1]) then SkipSpaceBack(s, lo, j - 1) else j
  }

  /** `String.prototype.trim`. */
  function Trim(s: string): (r: string)
    ensures |r| <= |s|
    ensures IsTrimOf(s, r)
  {
    var lo := SkipSpace(s, 0);
    var hi := SkipSpaceBack(s, lo, |s|);
    var r := s[lo..hi];
    assert AllSpace(s[..lo]) && AllSpace(s[hi..]);
    assert Trimmed(r) by {
      if r != [] {
        assert r[0] == s[lo] && r[|r| - 1] == s[hi - 1];
      }
    }
    r
  }

  /** Two slices of `s` that are both flanked by white space and both start
      with a non-white character start at the same place. */
  lemma SameStart(s: string, a: int, b: int)
    requires 0 <= a < |s| && 0 <= b < |s|
    requires AllSpace(s[..a]) && !IsSpace(s[a])
    requires AllSpace(s[..b]) && !IsSpace(s[b])
    ensures a == b
  {
  }

  lemma SameEnd(s: string, a: int, b: int)
    requires 0 < a <= |s| && 0 < b <= |s|
    requires AllSpace(s[a..]) && !IsSpace(s[a - 1])
    requires AllSpace(s[b..]) && !IsSpace(s[b - 1])
    ensures a == b
  {
  }

  /** An empty slice flanked by white space means the whole string is white. */
  lemma BlankSlice(s: string, lo: int, hi: int)
    requires 0 <= lo <= hi <= |s| && lo == hi
    requires AllSpace(s[..lo]) && AllSpace(s[hi..])
    ensures AllSpace(s)
  {
    forall i | 0 <= i < |s| ensures IsSpace(s[i]) {
      if i < lo { assert s[..lo][i] == s[i]; } else { assert s[hi..][i - hi] == s[i]; }
    }
  }

  /** A white-space-only string trims to nothing, under any description of trimming. */
  lemma BlankTrim(s: string, r: string)
    requires AllSpace(s) && IsTrimOf(s, r)
    ensures r == []
  {
  }

  /** `trim()` is determined by its description: no other string fits it. */
  lemma {:induction false} TrimIsUnique(s: string, r: string)
    requires IsTrimOf(s, r)
    ensures r == Trim(s)
  {
    var t := Trim(s);
    var lo, hi :| 0 <= lo <= hi <= |s| && r == s[lo..hi] && AllSpace(s[..lo]) && AllSpace(s[hi..]);
    var lo', hi' :| 0 <= lo' <= hi' <= |s| && t == s[lo'..hi'] && AllSpace(s[..lo']) && AllSpace(s[hi'..]);
    if r == [] {
      BlankSlice(s, lo, hi);
      BlankTrim(s, t);
    } else if t == [] {
      BlankSlice(s, lo', hi');
      BlankTrim(s, r);
    } else {
      SameSlice(s, r, lo, hi, t, lo', hi');
    }
  }

  /** Two non-blank slices of `s`, each flanked by white space and neither
      starting nor ending with it, are the same slice. */
  lemma SameSlice(s: string, r: string, lo: int, hi: int, t: string, lo': int, hi': int)
    requires 0 <= lo <= hi <= |s| && r == s[lo..hi] && AllSpace(s[..lo]) && AllSpace(s[hi..])
    requires 0 <= lo' <= hi' <= |s| && t == s[lo'..hi'] && AllSpace(s[..lo']) && AllSpace(s[hi'..])
    requires r != [] && t != [] && Trimmed(r) && Trimmed(t)
    ensures r == t
  {
    assert r[0] == s[lo] && t[0] == s[lo'];
    SameStart(s, lo, lo');
    assert r[|r| - 1] == s[hi - 1] && t[|t| - 1] == s[hi' - 1];
    SameEnd(s, hi, hi');
  }

  /** Trimming twice is trimming once. */
  lemma TrimIdempotent(s: string)
    ensures Trim(Trim(s)) == Trim(s)
  {
    var t := Trim(s);
    assert t[0..|t|] == t;
    assert t[..0] == [] && t[|t|..] == [];
    assert IsTrimOf(t, t);
    TrimIsUnique(t, t);
  }

  /** A string is blank after trimming exactly when all of it is white space. */
  lemma TrimEmptyIffAllSpace(s: string)
    ensures Trim(s) == [] <==> AllSpace(s)
  {
    if AllSpace(s) {
      assert s[0..0] == [] && s[..0] == [] && s[0..] == s;
      assert IsTrimOf(s, []);
      TrimIsUnique(s, []);
    } else {
      var t := Trim(s);
      var lo, hi :| 0 <= lo <= hi <= |s| && t == s[lo..hi] && AllSpace(s[..lo]) && AllSpace(s[hi..]);
      if t == [] {
        BlankSlice(s, lo, hi);
      }
    }
  }

  /** A string without white space at either end is its own trim. */
  lemma TrimOfTrimmed(s: string)
    requires Trimmed(s)
    ensures Trim(s) == s
  {
    assert s[0..|s|] == s && s[..0] == [] && s[|s|..] == [];
    assert IsTrimOf(s, s);
    TrimIsUnique(s, s);
  }

  /** JavaScript's `length`: the number of UTF-16 code units, two for each
      character outside the Basic Multilingual Plane. */
  function Utf16Length(s: string): (n: nat)
    ensures |s| <= n <= 2 * |s|
  {
    if s == [] then 0 else (if s[0] as int >= 0x1_0000 then 2 else 1) + Utf16Length(s[1..])
  }

  /** Text inside the Basic Multilingual Plane has one code unit per character. */
  lemma {:induction false} Utf16LengthOfPlainText(s: string)
    requires forall i :: 0 <= i < |s| ==> s[i] as int < 0x1_0000
    ensures Utf16Length(s) == |s|
  {
    if s != [] {
      Utf16LengthOfPlainText(s[1..]);
    }
  }

  /** Appending text adds its code units. */
  lemma {:induction false} Utf16LengthConcat(a: string, b: string)
    ensures Utf16Length(a + b) == Utf16Length(a) + Utf16Length(b)
  {
    if a == [] {
      assert a + b == b;
    } else {
      Utf16LengthConcat(a[1..], b);
      assert (a + b)[1..] == a[1..] + b;
    }
  }

  /** Trimming never makes text longer, counted in code units. */
  lemma Utf16LengthOfTrim(s: string)
    ensures Utf16Length(Trim(s)) <= Utf16Length(s)
  {
    var lo, hi :| 0 <= lo <= hi <= |s| && Trim(s) == s[lo..hi] && AllSpace(s[..lo]) && AllSpace(s[hi..]);
    assert s == s[..lo] + s[lo..hi] + s[hi..];
    Utf16LengthConcat(s[..lo] + s[lo..hi], s[hi..]);
    Utf16LengthConcat(s[..lo], s[lo..hi]);
  }

  /** `p` occurs in `s` starting at index `i`. */
  predicate OccursAt(s: string, p: string, i: int) {
    0 <= i && i + |p| <= |s| && s[i..i + |p|] == p
  }

  /** `s.includes(p)`: some position of `s` starts an occurrence of `p`. */
  function Contains(s: string, p: string): (b: bool)
    ensures b <==> exists i :: OccursAt(s, p, i)
  {
    if |p| <= |s| && s[..|p|] == p then
      assert OccursAt(s, p, 0);
      true
    else if |s| == 0 then
      false
    else
      var b := Contains(s[1..], p);
      if b then
        var i :| OccursAt(s[1..], p, i);
        assert s[1..][i..i + |p|] == s[i + 1..i + 1 + |p|];
        assert OccursAt(s, p, i + 1);
        b
      else
        forall i | OccursAt(s, p, i) ensures OccursAt(s[1..], p, i - 1) {
          assert s[1..][i - 1..i - 1 + |p|] == s[i..i + |p|];
        }
        b
  }

  /** Every string contains each of its slices. */
  lemma ContainsSlice(s: string, i: int, j: int)
    requires 0 <= i <= j <= |s|
    ensures Contains(s, s[i..j])
  {
    assert OccursAt(s, s[i..j], i);
  }

  /** No position of `s` holds `c`. */
  predicate NoChar(s: string, c: char) {
    forall k :: 0 <= k < |s| ==> s[k] != c
  }

  /** A character none of three strings holds is not in their concatenation. */
  lemma NoCharInConcat(a: string, b: string, c: string, ch: char)
    requires NoChar(a, ch) && NoChar(b, ch) && NoChar(c, ch)
    ensures NoChar(a + b + c, ch)
  {
    forall k | 0 <= k < |a + b + c| ensures (a + b + c)[k] != ch {
      if k < |a| { assert (a + b + c)[k] == a[k]; }
      else if k < |a| + |b| { assert (a + b + c)[k] == b[k - |a|]; }
      else { assert (a + b + c)[k] == c[k - |a| - |b|]; }
    }
  }

  /** A pattern with a character the text lacks does not occur in it. */
  lemma AbsentCharBlocks(s: string, p: string, k: int)
    requires 0 <= k < |p| && NoChar(s, p[k])
    ensures !Contains(s, p)
  {
  }

  /** A string contains whatever its suffix contains. */
  lemma ContainsInSuffix(a: string, s: string, p: string)
    requires Contains(s, p)
    ensures Contains(a + s, p)
  {
    var i :| OccursAt(s, p, i);
    assert (a + s)[|a| + i..|a| + i + |p|] == s[i..i + |p|];
    assert OccursAt(a + s, p, |a| + i);
  }

  /** `parts.join(sep)` over strings. */
  function Join(parts: seq<string>, sep: string): (r: string)
    ensures parts == [] ==> r == []
    ensures |parts| == 1 ==> r == parts[0]
  {
    if |parts| == 0 then []
    else if |parts| == 1 then parts[0]
    else parts[0] + sep + Join(parts[1..], sep)
  }

  function DigitChar(d: int): (c: char)
    requires 0 <= d < 10
    ensures IsDigit(c)
  {
    "0123456789"[d]
  }

  /** The decimal numeral of `n`, as `String(n)` renders a non-negative integer. */
  function NatToString(n: nat): (r: string)
    ensures |r| >= 1 && AllDigits(r)
    ensures r[0] == '0' ==> n == 0
  {
    if n < 10 then [DigitChar(n)] else NatToString(n / 10) + [DigitChar(n % 10)]
  }

  /** `String(i)` for an integer. */
  function IntToString(i: int): (r: string)
    ensures |r| >= 1
    ensures i >= 0 ==> AllDigits(r)
    ensures i < 0 ==> r[0] == '-' && AllDigits(r[1..])
  {
    if i < 0 then "-" + NatToString(-i) else NatToString(i)
  }

  /** The value of a string of decimal digits. */
  function DigitsValue(s: string): nat
    requires AllDigits(s)
  {
    if s == [] then 0 else DigitsValue(s[..|s| - 1]) * 10 + (s[|s| - 1] as int - '0' as int)
  }

  /** Reading back a rendered numeral gives the number. */
  lemma {:induction false} NatToStringRoundTrip(n: nat)
    ensures DigitsValue(NatToString(n)) == n
  {
    var r := NatToString(n);
    if n >= 10 {
      NatToStringRoundTrip(n / 10);
      assert r[..|r| - 1] == NatToString(n / 10);
      assert r[|r| - 1] == DigitChar(n % 10);
      assert "0123456789"[n % 10] as int - '0' as int == n % 10;
    } else {
      assert r[..0] == [];
      assert "0123456789"[n] as int - '0' as int == n;
    }
  }
}

=== FILE: wrappers.dfy ===
/** Failure-carrying datatypes shared by every module of the model.

    `Result` stands for a JavaScript promise that either resolves with a value
    or rejects with an `Error` whose `message` is the carried string: every
    error path of the modelled code ends in `throw new Error(message)`, and the
    callers only ever look at that message.
 */
module Wrappers {

  /** A value that may be absent: JavaScript's `null`/`undefined` for a typed field. */
  datatype Option<+T> = None | Some(value: T) {

    function GetOr(default: T): T {
      match this
      case Some(v) => v
      case None => default
    }
  }

  /** A resolved value, or a rejection with an error message. */
  datatype Result<+T> = Ok(value: T) | Err(message: string) {

    predicate IsFailure() {
      Err?
    }

    function PropagateFailure<U>(): Result<U>
      requires Err?
    {
      Err(message)
    }

    function Extract(): T
      requires Ok?
    {
      value
    }
  }
}
